=== FILE: README.md ===
# Dofus Unity animation rendering, modelled in Dafny

The repository renders Dofus Unity animations in a browser. An animation is a binary buffer
(`AnimationInstance`) made of three parts:

- a header of frame, node and label counts;
- a label table and a table of frame offsets;
- per-frame records. Each record is a node number followed by a render-state update
  (`RenderState.compute`).

A renderer (`AnimationRenderer`) draws one frame in two steps:

1. It resets every node's state and replays the records of all earlier frames
   (`skipToJustBeforeFrame`).
2. It replays the frame's own records. For each record it transforms the vertices of the skin
   part that the node's sprite index selects, appends them and their triangle indices to the
   frame lists, and grows the frame's bounding box.

The repository holds two variants:

- the TypeScript renderer under `src/`;
- an older JavaScript one under `js/`, which differs in several decoding details.

Three Python scripts build `asset-descriptor.json`. It lists the skins and their animation
names, and later the monster names with their skin ids.

This project models all of that as pure functions over immutable values:

- **Bytes.** The little-endian integer readers and the 4-byte alignment helpers
  (`bytes.dfy`).
- **Colors.** The packed-colour decoder and encoder of `ColorUtils` (`colors.dfy`).
- **Vectors and Bounding.** `Vector2` and both `Bounds` classes, over real numbers
  (`geometry.dfy`).
- **AnimationInstances.** The `AnimationInstance` constructor and `readInstance`, with encoders
  that prove the parser's round trip (`animation_instance.dfy`).
- **RenderStates, RenderStatesTs and RenderStatesJs.** The render state, its reset, and the
  two `compute` decoders. Each decoder is given closed-form acceptance and field-offset
  lemmas, and the two variants are compared (`render_state*.dfy`).
- **Frames.** Frame computation in both variants: index offsetting, vertex transformation,
  chunk and frame bounds, replay of earlier frames, and how the lists and meshes are assembled
  (`frames.dfy`).
- **Playback.** The playback frame counter, the wheel zoom clamp and the JavaScript `reset`
  (`playback.dfy`).
- **Descriptors.** The three Python scripts, over a file system and JSON values given as data
  (`descriptors.dfy`).
- **Results and Sequences.** The shared `Result` and `Option` types (`results.dfy`) and a
  concatenation law the proofs use (`sequences.dfy`).

How the model maps the source:

- Exceptions become `Err` values of a `Result`.
- Mutation becomes returned values.
- `float32` words, such as matrix entries, are kept as their 32-bit integer encodings.
- The floating-point vertex transform is a parameter, `Placement`.
- The chunk box the frame box grows by is chosen by a parameter `Boxing`. `AsWritten` is the
  source's half-size box (see Findings) and `Corrected` the full extent of the chunk.

## Model

| member | source | states |
|---|---|---|
| Bytes.JsRem | src/utils/BytesUtils.ts:37-39 | JavaScript `%` truncates toward zero: the remainder lies strictly between -b and b, and agrees with Euclidean `%` on non-negative operands |
| Bytes.Align4 | src/utils/BytesUtils.ts:37-39 | `alignTo4Bytes` returns a multiple of 4; for a non-negative position it is the least multiple of 4 that is at least the position, and an aligned position is unchanged |
| Bytes.Align4Idempotent | src/utils/BytesUtils.ts:37-39 | aligning an aligned position changes nothing |
| Bytes.Align4OfMinusOne | src/utils/BytesUtils.ts:37-39 | with truncating `%`, the negative position -1 aligns to 4, not to 0 |
| Bytes.InlineAlign | src/rendering/RenderState.ts:62 | the inline `currentPos + (4 - (currentPos % 4)) % 4`, with JavaScript's truncating remainder, equals `alignTo4Bytes` on every non-negative position |
| Bytes.ToSignedByte | src/utils/BytesUtils.ts:41-43 | a byte maps into [-128, 128), is negative exactly when the byte is at least 128, and keeps its value modulo 256 |
| Bytes.ToSignedByteInjective | src/utils/BytesUtils.ts:41-43 | distinct bytes give distinct signed values |
| Bytes.U16 | src/AnimationInstance.ts:25-35 | `getUint16(_, true)` on two bytes gives a value in [0, 65536) |
| Bytes.U16Lanes | src/AnimationInstance.ts:25-35 | the low byte of the value is the first byte and the high byte is the second (little-endian) |
| Bytes.I16 | src/utils/BytesUtils.ts:8-10 | `readInt16` gives a value in [-32768, 32768) that is negative exactly when the high byte has its top bit set |
| Bytes.I16Wraps | src/utils/BytesUtils.ts:8-10 | the signed read is the unsigned read reduced modulo 2^16 |
| Bytes.U32 | src/utils/BytesUtils.ts:18-20 | `readUint32` gives a value in [0, 2^32) |
| Bytes.U32Lanes | src/utils/BytesUtils.ts:18-20 | byte k of the value is the k-th byte of the data |
| Bytes.I32 | src/AnimationInstance.ts:65-70 | `getInt32(_, true)` gives a value in [-2^31, 2^31) that is negative exactly when the last byte's top bit is set |
| Bytes.I32Wraps | src/AnimationInstance.ts:65-70 | the signed read is the unsigned read reduced modulo 2^32 |
| Bytes.LanesOfPacked | js/utils/ColorUtils.js:63 | packing four bytes and splitting the word back into lanes returns the four bytes |
| Bytes.PackedOfLanes | js/utils/ColorUtils.js:10-35 | every 32-bit word is the packing of its own four lanes |
| Bytes.Slice | src/AnimationInstance.ts:92 | `ArrayBuffer.slice` keeps the in-range part of the data and is empty when the start is at or past the end |
| Bytes.U16OfLe16 | src/AnimationInstance.ts:25-35 | reading a 16-bit value back from its little-endian encoding returns it |
| Bytes.U32OfLe32 | src/AnimationInstance.ts:77-93 | reading a 32-bit value back from its little-endian encoding returns it |
| Bytes.I32OfLe32 | src/AnimationInstance.ts:65-70 | reading a signed 32-bit value back from its two's-complement encoding returns it |
| Colors.Component | js/utils/ColorUtils.js:10-35 | each colour channel is its byte read as a signed byte divided by 128, and is negative exactly when the byte is at least 128 |
| Colors.FromEncoded | js/utils/ColorUtils.js:10-35 | `ConvertFromEncodedColor` decodes lane 0 to red, lane 1 to green, lane 2 to blue and lane 3 to alpha |
| Colors.ClampFloor | js/utils/ColorUtils.js:41-43 | `clampAndFloor` yields the floor of `v * 128` clamped to [-128, 127] |
| Colors.ToUnsignedByte | js/utils/ColorUtils.js:46-48 | `toUnsignedByte` is a byte and is the inverse of `toSignedByte` |
| Colors.ConvertSwf | js/utils/ColorUtils.js:39-66 | `ConvertSWFColor` packs the four clamped channels into lanes 0-3 of a 32-bit word |
| Colors.ConvertSwfDefaultAlpha | js/utils/ColorUtils.js:39-40 | with alpha omitted, the alpha lane is 127 (the default alpha 1.0, clamped) |
| Colors.ClampFloorOfEncoded | js/utils/ColorUtils.js:41-48 | clamping and re-encoding a decoded channel gives back its byte |
| Colors.RoundTrip | js/utils/ColorUtils.js:10-66 | `ConvertSWFColor(ConvertFromEncodedColor(c))` is `c` for every 32-bit colour |
| Colors.NamedColors | js/utils/ColorUtils.js:4-7 | transparent black decodes to zero and the all-ones word decodes to -1/128 in each channel |
| Vectors.MinMaxBounds | src/utils/Vector2.ts:22-29 | `Min` is component-wise below both arguments and equals one of them in each coordinate; `Max` likewise above |
| Vectors.MinMaxAlgebra | src/utils/Vector2.ts:22-29 | `Min` and `Max` are commutative and idempotent |
| Vectors.AddSubtractInverse | src/utils/Vector2.ts:32-39 | `subtract` undoes `add` and `add` undoes `subtract` |
| Vectors.MultiplyLaws | src/utils/Vector2.ts:42-44 | multiplying by 1 is the identity, and two scalings compose into one |
| Bounding.CornersRoundTrip | js/utils/Bounds.js:11-20 | a box built from its corners reports those corners, a box is determined by its corners, and `max - min` is its size |
| Bounding.JsEncapsulate | js/utils/Bounds.js:22-30 | the merged box's corners are the component-wise min and max of the two boxes' corners |
| Bounding.JsEncapsulateEncloses | js/utils/Bounds.js:22-30 | the merged box contains both boxes, and merging a box with itself leaves it unchanged |
| Bounding.TsCorners | src/utils/Bounds.ts:14-31 | a box whose size is zero in both coordinates reports the origin as both corners; any other box reports center ± size/2 |
| Bounding.MinX | src/utils/Bounds.ts:33-41 | for a box of non-negative size `minX <= maxX` |
| Bounding.MinY | src/utils/Bounds.ts:36-44 | for a box of non-negative size `minY <= maxY` |
| Bounding.TsExtent | src/utils/Bounds.ts:14-31 | `max - min` equals the size, including for zero-size boxes |
| Bounding.TsEncapsulateCorners | src/utils/Bounds.ts:46-54 | the TypeScript merge's corners are the min and max of the two boxes' reported corners, so it contains both |
| Bounding.HullOfPointsIsPoint | src/utils/Bounds.ts:46-54 | if the merge of two non-negative boxes has zero size, both boxes have zero size |
| Bounding.TsEncapsulateSymmetric | src/utils/Bounds.ts:46-54 | the TypeScript merge does not depend on argument order |
| Bounding.TsEncapsulateZeroSizeReachesOrigin | src/utils/Bounds.ts:14-31 | merging with a zero-size box always stretches the result to include the origin |
| Bounding.TsEncapsulatePointExample | src/utils/Bounds.ts:46-54 | the unit box at (10, 10) merged with the point box at (20, 20) spans (0, 0) to (10.5, 10.5) |
| AnimationInstances.EvenUp | src/AnimationInstance.ts:53-55 | the label cursor is rounded up to an even position by at most one byte |
| AnimationInstances.AlignLoopIsAlign4 | src/AnimationInstance.ts:59-61 | the `while (pos % 4 != 0) pos++` loop ends at `alignTo4Bytes(pos)` |
| AnimationInstances.ReadLabelAt | src/AnimationInstance.ts:38-62 | a label read moves at least 3 bytes, keeps an even cursor even, and yields a well-formed label |
| AnimationInstances.ParseLabels | src/AnimationInstance.ts:38-62 | the label loop yields exactly `labelCount` well-formed labels and fails when a label header does not fit |
| AnimationInstances.ParseFramesSpec | src/AnimationInstance.ts:65-70 | the frame table parses exactly when its 4·n bytes fit, and entry i is the signed 32-bit word at offset 4·i |
| AnimationInstances.Parse | src/AnimationInstance.ts:17-74 | the constructor fails on fewer than 7 bytes; otherwise the frame, node and label counts are the little-endian 16-bit words at offsets 0, 2 and 4 and the combined node state is byte 6; it keeps the guid and data, sets the reference count to 0, and returns label and frame tables of the announced sizes |
| AnimationInstances.ReadInstance | src/AnimationInstance.ts:77-93 | `readInstance` keeps the file name and parses the file from offset `alignTo4Bytes(8 + nameLength)`: the 32-bit name length, the name and four bytes, rounded up to a multiple of 4 |
| AnimationInstances.ParseLabelsOfEncoded | src/AnimationInstance.ts:38-62 | encoded labels parse back to the same labels, ending at the end of their encoding |
| AnimationInstances.ParseFramesOfEncoded | src/AnimationInstance.ts:65-70 | encoded 32-bit frame offsets parse back to the same offsets |
| AnimationInstances.ParseOfEncoded | src/AnimationInstance.ts:17-74 | a buffer made from counts, labels and frame offsets parses back to exactly those, keeping the whole buffer as the data, whatever byte 7 and the bytes that align the label table hold |
| AnimationInstances.ReadInstanceOfContainer | src/AnimationInstance.ts:77-93 | a file made of the name length, the name, four bytes, padding up to the next multiple of 4 and a payload reads as the parse of that payload, whatever the padding bytes hold |
| RenderStates.Reset | src/rendering/RenderState.ts:213-229 | `Reset` sets every field to its default, whatever the state was: identity matrix, alpha 255, sprite and customisation index -1, no children, opaque white multiplicative colour (decoding as white), transparent black additive colour (decoding to zero), no mask, normal blend and no colour matrix |
| RenderStates.ResetIdempotent | src/rendering/RenderState.ts:213-229 | `Reset` forgets the state it is applied to: any two states reset to the same state, and resetting twice is resetting once |
| RenderStates.FieldLayout | src/rendering/RenderState.ts:61-115 | the optional fields start at a 4-aligned offset 2-5 bytes past the flag and follow one another in order |
| RenderStates.MatrixAt | src/rendering/RenderState.ts:96-107 | the matrix entries are 32-bit words |
| RenderStates.ReadAlpha | src/rendering/RenderState.ts:54-59 | without flag 0x02 the state is unchanged; otherwise only the alpha changes |
| RenderStates.ReadMultiplicative | src/rendering/RenderState.ts:78-84 | flag 0x04 reads the 32-bit multiplicative colour at the cursor and fails exactly when 4 bytes do not fit; nothing else changes |
| RenderStates.ReadAdditive | src/rendering/RenderState.ts:86-92 | flag 0x08 reads the 32-bit additive colour at the cursor and fails exactly when 4 bytes do not fit; nothing else changes |
| RenderStates.ReadMatrix | src/rendering/RenderState.ts:96-107 | flag 0x10 reads six 32-bit words at the cursor and fails exactly when 24 bytes do not fit; nothing else changes |
| RenderStates.ReadColorsAndMatrix | src/rendering/RenderState.ts:78-107 | the three fields are read in order and keep the cursor's alignment; fields without their flag keep their old values |
| RenderStatesTs.ReadIndices | src/rendering/RenderState.ts:64-75 | flag 0x21 reads three unsigned 16-bit indices, fails exactly when 6 bytes do not fit, and moves an aligned cursor by 8 |
| RenderStatesTs.ReadMask | src/rendering/RenderState.ts:109-115 | flag 0x40 reads the mask from the first byte of a 4-byte slot and fails exactly when the slot does not fit |
| RenderStatesTs.ReadFields | src/rendering/RenderState.ts:34-115 | the basic fields end 4-aligned past the record start, keep every unflagged field, and do not touch blend mode or colour matrix |
| RenderStatesTs.Compute | src/rendering/RenderState.ts:34-122 | `compute` fails at the end of the data; on success it ends 4-aligned past the start, keeps every unflagged field, and sets alpha from the byte after the flag |
| RenderStatesTs.FieldsAccepted | src/rendering/RenderState.ts:34-115 | the basic fields are read exactly when every bounds check of the closed-form layout passes, and they end where the layout ends |
| RenderStatesTs.FieldsRead | src/rendering/RenderState.ts:64-115 | each flagged field holds the value at its closed-form offset |
| RenderStatesTs.Accepts | src/rendering/RenderState.ts:34-122 | `compute` succeeds exactly when the fields fit and, for a negative flag byte, the blend byte 3 past the mask exists; the blend mode is that byte |
| RenderStatesTs.ColorMatrixRows | src/rendering/RenderState.ts:145-152 | the colour matrix is five copies of the same 16-byte slice |
| RenderStatesTs.FilterSize | src/rendering/RenderState.ts:176-210 | the filter bodies are 4-byte multiples, non-empty exactly for types 1, 2 and 4 |
| RenderStatesTs.SkipFilters | src/rendering/RenderState.ts:154-171 | the filter loop never moves backward, and with filters left it ends aligned and past its start |
| RenderStatesTs.Extended | src/rendering/RenderState.ts:132-174 | the extended block fails exactly at the end of the data; it sets the blend byte, sets the colour matrix exactly when bit 0x40 is set, changes nothing else, and ends 4-aligned |
| RenderStatesJs.ReadIndices | js/rendering/RenderState.js:49-62 | flag 0x21 reads three signed 16-bit indices and fails exactly when 6 bytes do not fit |
| RenderStatesJs.ReadMask | js/rendering/RenderState.js:97-104 | flag 0x40 reads one mask byte and advances by 1, failing exactly when that byte is missing |
| RenderStatesJs.ReadFields | js/rendering/RenderState.js:16-104 | the basic fields move past the record start, keep unflagged fields, and end aligned unless a mask was read |
| RenderStatesJs.Compute | js/rendering/RenderState.js:16-112 | the JavaScript `compute` keeps unflagged fields and sets alpha; a record with a negative flag byte that succeeds leaves the blend mode Normal |
| RenderStatesJs.FilterBody | js/rendering/RenderState.js:141-188 | known filter bodies are 4-byte multiples between 4 and 16 |
| RenderStatesJs.Extended | js/rendering/RenderState.js:123-191 | the JavaScript extended block succeeds exactly on a zero blend byte, advancing one byte and setting the blend mode; a non-zero blend throws before any helper call when the filter type byte is missing, when the filter type is not 1, 2 or 4, or when the filter's 16, 4 or 12 data bytes are not all there; only past those checks does the unqualified `readFloat32` call throw a ReferenceError |
| RenderStatesJs.FieldsAccepted | js/rendering/RenderState.js:16-104 | the JavaScript fields are read exactly when the layout with a 1-byte mask fits, and end where it ends |
| RenderStatesJs.FieldsRead | js/rendering/RenderState.js:49-104 | each flagged field holds the value at its closed-form offset, indices read as signed values |
| RenderStatesJs.Accepts | js/rendering/RenderState.js:16-112 | the JavaScript `compute` succeeds exactly when the fields fit and, for a negative flag byte, a zero blend byte follows |
| RenderStatesJs.AgreesWithTs | src/rendering/RenderState.ts:34-122 | for flag bytes below 0x80 without a mask, both decoders accept the same records and end at the same position |
| RenderStatesJs.FieldsAgree | js/rendering/RenderState.js:49-62 | without a mask the two variants read the same fields, except that indices agree only modulo 2^16 |
| RenderStatesJs.MaskMisaligns | js/rendering/RenderState.js:97-104 | on a mask-only record the JavaScript decoder ends one byte past the mask while the TypeScript one ends four bytes past it |
| RenderStatesJs.SignedIndices | js/rendering/RenderState.js:49-62 | the sprite index 0xFFFF reads as -1 in JavaScript and as 65535 in TypeScript |
| Frames.OffsetIndicesIntoList | src/AnimationRenderer.ts:753-759 | `offsetIndicesIntoList` keeps the destination as a prefix and appends exactly `indexCount` source indices, each moved by the offset |
| Frames.ShiftOfOffset | src/AnimationRenderer.ts:659-669 | offsetting by `count` equals offsetting by 0 and then shifting by `count` |
| Frames.TransformVertex | src/AnimationRenderer.ts:725-751 | `transformVertex` keeps the uv and the additive colour and takes position and multiplicative colour from the placement |
| Frames.TransformRange | src/AnimationRenderer.ts:709-720 | the vertices pushed are the transforms of the chunk's base vertices, in order and one for one |
| Frames.ExtremesEnclose | src/AnimationRenderer.ts:714-720 | every position lies between the running minimum and the running maximum |
| Frames.ExtremesAttained | src/AnimationRenderer.ts:714-720 | each coordinate of the running extremes is reached by some position |
| Frames.AsWrittenChunkBounds | src/AnimationRenderer.ts:709-723 | the chunk box as written: none for an empty chunk, otherwise centred at the midpoint with size `max - centre` |
| Frames.AsWrittenChunkBoundsMissesCorners | src/AnimationRenderer.ts:722 | for the points (0, 0) and (4, 4) the box as written spans only (1, 1) to (3, 3) |
| Frames.ChunkBounds | src/AnimationRenderer.ts:709-723 | the corrected chunk box is non-negative and contains every transformed position of the chunk |
| Frames.AsWrittenIsHalfSize | src/AnimationRenderer.ts:722 | the box as written has the corrected centre and half the corrected size |
| Frames.ChunkBox | src/AnimationRenderer.ts:709-723 | the chunk box under a boxing: none exactly for an empty chunk, non-negative, centred at the midpoint, with the full extent when corrected and half of it as written |
| Frames.Encapsulate | src/AnimationRenderer.ts:656 | the frame box stays defined exactly while both boxes are defined (NaN absorbs) |
| Frames.EncapsulateCovers | src/AnimationRenderer.ts:656 | merging non-negative boxes gives a non-negative box that covers everything either box covered |
| Frames.EncapsulateEncloses | src/AnimationRenderer.ts:656 | merging two non-negative boxes gives a non-negative box enclosing both |
| Frames.ReadNode | src/AnimationRenderer.ts:628-629 | the node number is the little-endian 16-bit value at the position and fails with a RangeError exactly when two bytes do not fit |
| Frames.ComputeRecord | src/AnimationRenderer.ts:633 | a record's `compute` fails at the end of the data, and otherwise moves forward and keeps unflagged fields |
| Frames.ReplayRecord | src/AnimationRenderer.ts:628-633 | replaying a record changes only the named node's state; a node number without a state is an error |
| Frames.SkipRecords | src/AnimationRenderer.ts:697-705 | the inner replay loop reads at most its budget of records, stops early only at the end of the data, preserves the number of states, and reading no record leaves the states and the position as they were |
| Frames.SkipFrames | src/AnimationRenderer.ts:689-707 | replaying the earlier frames keeps the number of states, and replaying no frames changes nothing |
| Frames.Trace | src/AnimationRenderer.ts:627-633 | a run of records reads at most its budget, each record naming a node that has a state and keeping the number of states; it stops before the budget only once the position reaches the end of the data, and a non-empty run ends past the first node number |
| Frames.ChunkMesh | src/AnimationRenderer.ts:643-679 | the mesh for a chunk names its node, part and chunk, holds the chunk's base indices unshifted, and its vertices are exactly the chunk's range of the working vertices, each transformed by the node's state and the placement |
| Frames.MeshBox | src/AnimationRenderer.ts:650-656 | a mesh has a box exactly when it has vertices |
| Frames.GrownAppend | src/AnimationRenderer.ts:643-681 | growing the frame box by two lists of meshes is growing it by the first list and then by the second, so the per-record and per-chunk loops grow it as one loop over all meshes |
| Frames.GrownOfNaN | src/AnimationRenderer.ts:656 | once the frame box is NaN, encapsulating further boxes keeps it NaN |
| Frames.GrownCorners | src/AnimationRenderer.ts:650-656 | growing a non-negative box by a list of meshes gives a number box exactly when every mesh has vertices; that box is non-negative and its corners are the minimum and maximum of the starting box's corners and every mesh box's corners |
| Frames.FrameBoxCorners | src/AnimationRenderer.ts:604-686 | the box `computeFrame` returns is NaN exactly when some drawn mesh has no vertices, and otherwise has as corners the minimum and maximum of the origin and of every mesh box's corners |
| Frames.AddMesh | src/AnimationRenderer.ts:648-679 | adding a mesh appends it, keeps every state and record count, keeps an assembled frame assembled, and grows the frame box by the mesh's box under the chosen boxing (the source's half-size box or the corrected one) |
| Frames.ChunkMeshes | src/AnimationRenderer.ts:643-681 | one mesh per chunk of the part, in chunk order; the first mesh's vertices are its chunk's range of the given vertices transformed, and in TypeScript, which never writes back into the base vertices, every mesh's are |
| Frames.AddMeshes | src/AnimationRenderer.ts:643-681 | appending the chunk meshes appends exactly them, keeps the states, keeps the lists assembled from the meshes, and leaves the frame box grown by each mesh's chunk box in turn |
| Frames.DrawRecords | src/AnimationRenderer.ts:627-685 | the drawing loop succeeds exactly when the run of records it reads does; it then counts every record of the run, leaves the states the run leaves, appends exactly each record's meshes in record order, and leaves the frame box grown by each of those meshes' chunk boxes in order, keeping the lists assembled, the meshes taken from the skin and the frame box enclosing every counted mesh's box |
| Frames.DrawTrace | src/AnimationRenderer.ts:627-685 | drawing a run record by record counts each record, ends with the states after the last record, appends exactly each record's meshes in record order and grows the box by each of them in order, keeping the lists assembled, the meshes from the skin and the box enclosing |
| Frames.DrawRecord | src/AnimationRenderer.ts:636-681 | a record whose sprite index names no part leaves the frame unchanged; otherwise it appends exactly the chunk meshes of that part, made from the node's state and the base vertices, grows the box by each of them in order, and keeps the states, the record count and the invariants |
| Frames.RecordMeshes | src/AnimationRenderer.ts:636-681 | a record whose sprite index names no part draws nothing; otherwise it draws one mesh per chunk of that part, in chunk order, each tagged with the node, the part and the chunk and carrying the chunk's vertex count and unshifted indices; in TypeScript each mesh's vertices are its chunk's range of the skin's base vertices transformed by the node's state |
| Frames.ComputeFrame | src/AnimationRenderer.ts:603-687 | a frame is computed exactly when replaying the earlier frames onto reset states and then reading this frame's records both succeed; its states are those the records leave, it counts every record read, and its meshes are each record's meshes in record order; the returned box is the zero box of line 604 grown by each of those meshes' chunk boxes in order (line 656, returned at 686); its lists are assembled, it holds one state per node and at most `nodeCount` records, its box, unless NaN, encloses every counted mesh's box, and with the corrected boxing it covers every counted vertex |
| Frames.DrawFrame | src/AnimationRenderer.ts:604-687 | drawing a frame's records onto empty lists from the zero box succeeds exactly when reading them does, and yields those records' states, count and meshes in order, with assembled lists and, as the box, the zero box grown by each mesh's chunk box in order, which unless NaN encloses every counted mesh's box |
| Frames.TsIndicesInRange | src/AnimationRenderer.ts:665-669 | with each mesh's own indices in range, every global TypeScript index addresses the global vertex list |
| Frames.JsIndicesUnshifted | js/AnimationRenderer.js:428-435 | the JavaScript global index list is the meshes' local index lists concatenated without offsets |
| Frames.GlobalIndicesExample | js/AnimationRenderer.js:428-435 | two one-vertex meshes give global indices [0, 1] in TypeScript and [0, 0] in JavaScript |
| Frames.TsFrameIndicesInRange | src/AnimationRenderer.ts:603-687 | a TypeScript frame over a skin whose chunks index their own vertices has every global index inside the vertex list |
| Frames.AddMeshCovers | src/AnimationRenderer.ts:648-656 | adding a mesh keeps the frame box non-negative and enclosing the earlier meshes' boxes, and encloses the new mesh's box when it is counted |
| Frames.AddMeshesCovers | src/AnimationRenderer.ts:643-681 | the chunk loop keeps the frame box enclosing the box of every counted mesh |
| Frames.EnclosesAppended | src/AnimationRenderer.ts:654-679 | when the grown frame box encloses the old box and the new mesh's box, it encloses the box of every counted mesh of the appended list |
| Frames.CorrectedFrameCoversVertices | src/AnimationRenderer.ts:709-723 | with the corrected boxing, a frame box that encloses every counted mesh's box covers every counted vertex |
| Frames.AsWrittenFrameMissesVertex | src/AnimationRenderer.ts:650-656 | a chunk with vertices at (0, 0) and (4, 4) added to the initial zero box: as written the frame box reaches only (3, 3) and misses the vertex (4, 4); with the corrected boxing every vertex is covered |
| Frames.SkipFramesReadsPrefix | src/AnimationRenderer.ts:694-696 | replaying the frames before `frame` reads only the first `frame` entries of the frame table |
| Frames.SkipFramesAgree | src/AnimationRenderer.ts:689-707 | two frame tables that agree on the first `frame` entries give the same replay of the frames before `frame` |
| Frames.SkipReadsOneMoreRecord | src/AnimationRenderer.ts:697 | with one node the replay loop reads two records per frame, one more than the drawing loop's `nodeCount - 1 .. 0` |
| Frames.JsChunksMatchTs | js/AnimationRenderer.js:584-623 | for chunks over disjoint vertex ranges, the JavaScript in-place transform builds the same meshes as TypeScript's transform of the base vertices |
| Frames.SharedVertexTransformedTwice | js/AnimationRenderer.js:584-623 | two chunks sharing a vertex: TypeScript transforms it once per mesh, JavaScript's second mesh transforms the already-transformed vertex again |
| Playback.NextFrame | src/AnimationRenderer.ts:207-217 | a tick moves to the next frame and wraps to 0 exactly when the count is reached, staying within [0, frameCount) |
| Playback.FrameAfterCycles | src/AnimationRenderer.ts:207-217 | after n ticks from 0 the counter shows frame n mod frameCount |
| Playback.Wheel | js/AnimationRenderer.js:172-187 | a negative `deltaY` zooms in by 0.1 up to 5.0, anything else zooms out by 0.1 down to 0.1, and a scale in range stays in range |
| Playback.ZoomStaysInRange | js/AnimationRenderer.js:172-187 | from the default 1.0, any sequence of wheel events keeps the scale in [0.1, 5.0] |
| Playback.Reset | js/AnimationRenderer.js:655-662 | `reset` empties all five static buffers, whatever they held |
| Descriptors.Get | computeAssetsDescriptor.py:20-21 | subscripting succeeds exactly on an object that has the key and yields that key's value; an object without the key raises KeyError, and subscripting anything that is not an object raises a TypeError |
| Descriptors.Iterate | computeAssetsDescriptor.py:20 | iterating a list yields its items, a dict or a string yields one opaque element per key or character, and anything else raises |
| Descriptors.Names | computeAssetsDescriptor.py:20-21 | collecting `anim["name"]` succeeds exactly when every element is an object with a name, and keeps order and length |
| Descriptors.AnimationNames | computeAssetsDescriptor.py:20-21 | the names of `data["animations"]["Array"]`: a non-object raises, and a present list yields exactly its elements' names |
| Descriptors.ToJson | computeAssetsDescriptor.py:4-9 | the descriptor serialises to an object with exactly the keys `skinIds` and `skins` |
| Descriptors.Subdirectories | computeAssetsDescriptor.py:13-14 | the skin ids are the listed items that are directories, and no more ids than items |
| Descriptors.SubdirectoriesOne | computeAssetsDescriptor.py:14 | a one-item listing keeps the item exactly when it is a directory |
| Descriptors.SubdirectoriesAppend | computeAssetsDescriptor.py:14 | the filter splits over concatenation: the directories of `a + b` are those of `a` followed by those of `b` |
| Descriptors.SubdirectoriesOfDirectories | computeAssetsDescriptor.py:14 | a listing of directories only is kept whole, in order |
| Descriptors.ReadSkins | computeAssetsDescriptor.py:16-21 | the loop succeeds exactly when every definition file reads; each id maps to its animation names and other keys are unchanged |
| Descriptors.ComputeAssetsDescriptor | computeAssetsDescriptor.py:11-24 | the script succeeds exactly when `./resources` exists and every skin directory's definition reads; the ids and skins agree and each skin holds its file's animation names |
| Descriptors.Split | computeAssetsDescriptorGlobal.py:19 | `split` gives at least one part, no part contains the separator, and the first part is the prefix up to the first separator |
| Descriptors.JoinSplit | computeAssetsDescriptorGlobal.py:19 | joining the parts of a split with the separator gives back the string |
| Descriptors.FirstField | computeAssetsDescriptorGlobal.py:19 | `split(c)[0]` is the longest prefix without the separator |
| Descriptors.NumericIds | computeAssetsDescriptorGlobal.py:18-20 | the ids kept are numeric, and every entry whose first field is numeric contributes its id |
| Descriptors.NumericIdsOne | computeAssetsDescriptorGlobal.py:18-20 | one entry contributes its first field exactly when that field is numeric |
| Descriptors.NumericIdsAppend | computeAssetsDescriptorGlobal.py:18-20 | the ids of `a + b` are the ids of `a` followed by those of `b`, so ids keep listing order |
| Descriptors.ScanDirectory | computeAssetsDescriptorGlobal.py:18-26 | one skin directory succeeds exactly when every numeric id's file reads, appends the numeric ids in order and maps each to its names |
| Descriptors.ScanExport | computeAssetsDescriptorGlobal.py:15-26 | the export scan succeeds exactly when every listed item is a directory whose numeric ids all read, and appends exactly the ids of all items, in listing order |
| Descriptors.InExportIds | computeAssetsDescriptorGlobal.py:15-20 | an id is among the export ids exactly when some item lists it |
| Descriptors.ExportIdsNumeric | computeAssetsDescriptorGlobal.py:19-20 | every export id is numeric |
| Descriptors.ScanExportKeys | computeAssetsDescriptorGlobal.py:23-24 | the scanned `skins` keys are the old keys plus the export ids, and an old key no item lists keeps its value |
| Descriptors.ScanExportLastRead | computeAssetsDescriptorGlobal.py:15-26 | each export id maps to the names read from `<id>.json` in the last item that lists it |
| Descriptors.ScanExportConsistent | computeAssetsDescriptorGlobal.py:15-26 | the scan keeps ids and skins consistent and all ids numeric |
| Descriptors.ComputeAssetsDescriptorGlobal | computeAssetsDescriptorGlobal.py:4-29 | the global script succeeds exactly when the export directory exists and every item scans; `skinIds` is every item's ids in order, and each id maps to the animation names of the last item that lists it |
| Descriptors.IdleDefinitionNames | computeAssetsDescriptor.py:20-21 | a definition with one animation named idle yields the names ["idle"] |
| Descriptors.SameIdTwice | computeAssetsDescriptorGlobal.py:18-20 | the entries `123.json` and `123.png` both give the id `123` |
| Descriptors.IdleSkinRead | computeAssetsDescriptorGlobal.py:21-26 | reading `123.json` holding the idle definition gives ["idle"] |
| Descriptors.DuplicateIdsListedTwice | computeAssetsDescriptorGlobal.py:18-26 | a directory listing `123.json` and `123.png` scans to `skinIds` ["123", "123"] and one `skins` entry "123" holding ["idle"] |
| Descriptors.Digits | completeMonstersNameToAssetsDescriptor.py:23 | the decimal digits of a natural number are non-empty digits with no leading zero |
| Descriptors.DigitsRoundTrip | completeMonstersNameToAssetsDescriptor.py:23 | the value of a number's digit string is the number |
| Descriptors.DecimalString | completeMonstersNameToAssetsDescriptor.py:23 | `str(n)` is numeric exactly when n is non-negative |
| Descriptors.DecimalRoundTrip | completeMonstersNameToAssetsDescriptor.py:23 | parsing `str(n)` gives back n for every integer |
| Descriptors.NegativeDecimalRoundTrip | completeMonstersNameToAssetsDescriptor.py:23 | parsing `str(n)` of a negative n, with its minus sign, gives back n |
| Descriptors.Str | completeMonstersNameToAssetsDescriptor.py:23 | `str` of a number parses back to that number, and `str` of a string is the string |
| Descriptors.SkinIdOfLook | completeMonstersNameToAssetsDescriptor.py:24 | `look[1:].split("\|")[0]` is the text after the first character up to the first bar, without any bar, and raises when the look is not a string |
| Descriptors.SkinIdOfLookExamples | completeMonstersNameToAssetsDescriptor.py:24 | the looks `#12345\|extra\|data`, `{1234\|x` and `{1234` give `12345`, `1234` and `1234` |
| Descriptors.MonsterRecord | completeMonstersNameToAssetsDescriptor.py:22-25 | a monster record succeeds exactly when its lookups resolve; it has exactly the keys `name` and `skinId`, with the i18n entry and the look's skin id |
| Descriptors.MonsterRecords | completeMonstersNameToAssetsDescriptor.py:21-25 | the loop succeeds exactly when every monster resolves, producing one record per monster in order |
| Descriptors.ReferenceTable | completeMonstersNameToAssetsDescriptor.py:21 | `monstersRoot["references"]["RefIds"]` iterates exactly when both lookups resolve on objects and the value is iterable, and yields its elements |
| Descriptors.CompleteMonstersNames | completeMonstersNameToAssetsDescriptor.py:8-28 | the script succeeds exactly when the three files load, the descriptor is an object and every monster resolves; it keeps every other key of the descriptor and replaces `skinIds` with the monster records, each with exactly `name` and `skinId` |
| Descriptors.CompletionKeepsSkins | completeMonstersNameToAssetsDescriptor.py:9-11 | completing the descriptor written by the global script keeps its `skins` unchanged |

## Left out

- **WebGL drawing.** Drawing, the shaders, canvas set-up, mouse hover tests and label text
  (`TextDecoder`) are outside the model. Labels keep their raw bytes.
- **Floating point.** `transformVertex` multiplies by the matrix and mixes colours in floating
  point. That arithmetic is the parameter `Placement`, and only the structure around it is
  modelled.
- **Matrix entries.** These are kept as the 32-bit words `readFloat32` decodes, so float32
  rounding is not modelled.
- **Infinities and NaN.** Vector maths is over exact reals. `Vector2.positiveInfinity` and
  `negativeInfinity` only seed the running extremes, which are modelled for non-empty chunks.
  An empty chunk's NaN box is `None`.
- Frames.ComputeFrame: assumes the frame index is inside the frame table. An index out of range
  makes `frameDataPositions[frame]` undefined in the source, and that path is a precondition
  here.
- Frames.ComputeFrame: in TypeScript a chunk whose vertices all sit at one point is not
  promised to lie inside the frame box. `Bounds.min` and `max` report such a box as the origin,
  so the box covers only the counted meshes.
- Frames.ComputeFrame: assumes a well-formed skin (`WellFormedSkin`), in which every chunk's
  vertex and index ranges lie inside the base buffers. In the source a vertex index past the
  base buffer makes `transformVertex` read `pos` of `undefined` and throw a TypeError
  (src/AnimationRenderer.ts:714-715, 727). An index past the base index buffer pushes
  `undefined + offset`, which is NaN (src/AnimationRenderer.ts:757). Neither path is modelled.
- Frames.DrawRecords: the same well-formed-skin assumption as `ComputeFrame`.
- Frames.DrawRecord: the same well-formed-skin assumption as `ComputeFrame`.
- Frames.AddMesh: the source grows the frame box by the half-size chunk box (boxing
  `AsWritten`). For that boxing the model promises only that the frame box encloses each
  counted mesh's box, not that it covers each vertex, because it does not (see Findings).
- AnimationInstances.ParseOfEncoded: the round trip writes a zero byte after each label whose
  text leaves the label odd-sized. The constructor skips that byte without reading it, so any
  value would parse the same; the lemma covers only zero there.
- **Early returns.** The `anim == null` early returns of `computeFrame`,
  `skipToJustBeforeFrame` and the playback interval are not modelled. The model always has an
  animation.
- **`Mesh.renderState`.** The source stores the node's mutable state object in each mesh; the
  model keeps the node number instead.
- Frames.JsChunksMatchTs: JavaScript's pushed vertices alias the objects it later mutates. The
  model threads a working copy through the chunks and states equality with TypeScript only for
  chunks over disjoint vertex ranges. Object identity is not modelled.
- Playback.Wheel: the zoom scale is an exact real, while the source adds and subtracts 0.1
  in double precision (js/AnimationRenderer.js:172-187). After three zoom-ins from 1.0 the
  source holds 1.3000000000000003 where the model holds 1.3. The clamp to [0.1, 5.0] holds in
  both.
- **Timing.** `setInterval`, `clearInterval`, `requestAnimationFrame` and the DOM wheel event are
  left to the caller. Each tick or event is one function application.
- **`preRender`.** The up-front merge of all frame boxes into `boundsAnimation` is not
  modelled.
- **Python file system and JSON.** The file system and the parsed JSON values are given as
  data:
  - unreadable or malformed JSON is `BadJson`;
  - JSON numbers are integers;
  - key order, indentation and separators of `json.dump` are not modelled;
  - the `print` at the end of each script is left out;
  - paths are plain strings without normalisation.
- Descriptors.Str: the Python `repr` of lists, dicts and floats is the parameter `repr`. Only
  the `str` of `None`, booleans, integers and strings is modelled.
- Descriptors.NumericIds: `str.isnumeric` is modelled for the ASCII digits 0-9 only. Other
  Unicode numeric characters are not.
- **Unused listing.** `completeMonstersNameToAssetsDescriptor.py` lists a directory at line 6
  and never uses the result; the call is not modelled.
- **Absolute export path.** The export directory of the global scripts is a parameter `root`
  instead of the author's absolute Windows path.

## Findings

| source | as written | input that shows it | evidently intended | confidence | as-written member | corrected member |
|---|---|---|---|---|---|---|
| src/AnimationRenderer.ts:722 (and js/AnimationRenderer.js:622) | `new Bounds(centre, max - centre)` uses the half extent as the size, so the chunk box covers only the middle half of the chunk | the transformed positions (0, 0) and (4, 4): the box is centred at (2, 2) with size (2, 2), so it spans only (1, 1) to (3, 3) and misses both vertices | size `max - min`, so that the box spans exactly from the running minimum to the running maximum | not executed | Frames.AsWrittenChunkBounds, Frames.AsWrittenChunkBoundsMissesCorners, Frames.AsWrittenFrameMissesVertex | Frames.ChunkBounds, Frames.ChunkBox, Frames.CorrectedFrameCoversVertices |

=== FILE: animation_instance.dfy ===
/** AnimationInstance (src/AnimationInstance.ts and js/AnimationInstance.js, identical logic):
    the header, label table and frame offset table at the start of an animation buffer, and
    the container that `readInstance` strips before handing the buffer over. Every DataView
    read past the end of the buffer throws a RangeError, modelled as `Err(RangeError)`;
    `ArrayBuffer.slice` never throws. */
module AnimationInstances {
  import opened Bytes
  import opened Results

  datatype Error = RangeError

  /** An `AnimationLabel`: the frame position it names and its text, kept as the undecoded
      UTF-8 bytes. */
  datatype Label = Label(position: int, text: seq<byte>)

  datatype Instance = Instance(
    guid: string,
    referenceCount: int,
    frameCount: int,
    nodeCount: int,
    labelCount: int,
    combinedNodeState: int,
    labels: seq<Label>,
    frameDataPositions: seq<int>,
    data: seq<byte>)

  /** The header is three 16-bit counts and one state byte; the cursor then jumps to 8. */
  const HeaderEnd: nat := 8

  /** The label loop's "next even number" step. */
  function EvenUp(p: nat): (r: nat)
    ensures r % 2 == 0 && p <= r <= p + 1
  {
    if p % 2 != 0 then p + 1 else p
  }

  /** The `while (startIndex % 4 !== 0) startIndex += 1` loop, one step per call. */
  function AlignLoop(p: nat): (r: nat)
    decreases (4 - p % 4) % 4
  {
    if p % 4 != 0 then AlignLoop(p + 1) else p
  }

  /** The loop stops at the first multiple of 4 at or after its start, i.e. at `Align4`. */
  lemma {:induction false} AlignLoopIsAlign4(p: nat)
    ensures AlignLoop(p) == Align4(p)
    decreases (4 - p % 4) % 4
  {
    if p % 4 != 0 {
      AlignLoopIsAlign4(p + 1);
    }
  }

  /** One turn of the label loop at cursor `at`: a 16-bit position, a length byte and that many
      text bytes (cut short at the end of the buffer, as `slice` clamps); the cursor then moves
      past the text and up to an even offset. */
  function ReadLabelAt(data: seq<byte>, at: nat): (r: (Label, nat))
    requires at + 3 <= |data|
    ensures at + 3 <= r.1 && (at % 2 == 0 ==> r.1 % 2 == 0)
    ensures WellFormedLabel(r.0)
  {
    var count := data[at + 2];
    (Label(U16(data, at), Slice(data, at + 3, at + 3 + count)), EvenUp(at + 3 + count))
  }

  /** The label loop from cursor `at` for `n` more labels. Returns the labels and the final
      cursor. */
  function ParseLabels(data: seq<byte>, at: nat, n: nat): (r: Result<(seq<Label>, nat), Error>)
    ensures r.Ok? ==> |r.value.0| == n && at <= r.value.1
    ensures r.Ok? && at % 2 == 0 ==> r.value.1 % 2 == 0
    ensures r.Ok? ==> WellFormedLabels(r.value.0)
    ensures n > 0 && |data| < at + 3 ==> r.Err?
    decreases n
  {
    if n == 0 then Ok(([], at))
    else if |data| < at + 3 then Err(RangeError)
    else
      var (first, next) := ReadLabelAt(data, at);
      var rest :- ParseLabels(data, next, n - 1);
      Ok(([first] + rest.0, rest.1))
  }

  /** The frame offset loop: `n` signed 32-bit offsets, 4 bytes apart from `at`. */
  function ParseFrames(data: seq<byte>, at: nat, n: nat): (r: Result<seq<int>, Error>)
    decreases n
  {
    if n == 0 then Ok([])
    else if |data| < at + 4 then Err(RangeError)
    else
      var rest :- ParseFrames(data, at + 4, n - 1);
      Ok([I32(data, at)] + rest)
  }

  /** The frame table reads successfully exactly when all `n` entries lie inside the buffer,
      and then entry `i` is the signed word at `at + 4 i`. */
  lemma {:induction false} ParseFramesSpec(data: seq<byte>, at: nat, n: nat)
    ensures ParseFrames(data, at, n).Ok? <==> at + 4 * n <= |data| || n == 0
    ensures ParseFrames(data, at, n).Ok? ==>
      var fs := ParseFrames(data, at, n).value;
      |fs| == n && forall i :: 0 <= i < n ==> fs[i] == I32(data, at + 4 * i)
    decreases n
  {
    if n > 0 && at + 4 <= |data| {
      ParseFramesSpec(data, at + 4, n - 1);
      var fs := ParseFrames(data, at, n);
      if fs.Ok? {
        var rest := ParseFrames(data, at + 4, n - 1).value;
        assert fs.value == [I32(data, at)] + rest;
        forall i | 1 <= i < n
          ensures fs.value[i] == I32(data, at + 4 * i)
        {
          assert fs.value[i] == rest[i - 1];
          assert at + 4 + 4 * (i - 1) == at + 4 * i;
        }
      }
    }
  }

  /** The `AnimationInstance` constructor over the buffer `data`. */
  function Parse(guid: string, data: seq<byte>): (r: Result<Instance, Error>)
    ensures |data| < 7 ==> r.Err?
    ensures r.Ok? ==>
      && |data| >= 7
      && r.value.frameCount == U16(data, 0) && r.value.nodeCount == U16(data, 2)
      && r.value.labelCount == U16(data, 4) && r.value.combinedNodeState == data[6]
    ensures r.Ok? ==>
      && r.value.guid == guid && r.value.referenceCount == 0 && r.value.data == data
      && |r.value.labels| == r.value.labelCount
      && |r.value.frameDataPositions| == r.value.frameCount
      && 0 <= r.value.frameCount < 0x1_0000 && 0 <= r.value.nodeCount < 0x1_0000
      && 0 <= r.value.labelCount < 0x1_0000 && 0 <= r.value.combinedNodeState < 0x100
  {
    if |data| < 7 then Err(RangeError)
    else
      var frameCount := U16(data, 0);
      var nodeCount := U16(data, 2);
      var labelCount := U16(data, 4);
      var combinedNodeState := data[6];
      var parsed :- ParseLabels(data, HeaderEnd, labelCount);
      var framesAt := if labelCount > 0 then AlignLoop(parsed.1) else parsed.1;
      var frames :- ParseFrames(data, framesAt, frameCount);
      ParseFramesSpec(data, framesAt, frameCount);
      Ok(Instance(guid, 0, frameCount, nodeCount, labelCount, combinedNodeState, parsed.0,
                  frames, data))
  }

  /** `readInstance` over the fetched file: a 32-bit name length, the name, four more bytes,
      padding to a multiple of 4, and then the animation buffer. */
  function ReadInstance(fileName: string, file: seq<byte>): (r: Result<Instance, Error>)
    ensures |file| < 4 ==> r.Err?
    ensures r.Ok? ==> r.value.guid == fileName && |r.value.data| <= |file|
    ensures r.Ok? ==> |file| - |r.value.data| == Align4(8 + U32(file, 0))
    ensures r.Ok? ==>
      var offset := |file| - |r.value.data|;
      && offset % 4 == 0 && offset >= 8 + U32(file, 0) && r.value.data == file[offset..]
  {
    if |file| < 4 then Err(RangeError)
    else
      // `bytesOffset += 4 - bytesOffset % 4` when unaligned: Align4 on a non-negative offset
      var bytesOffset := Align4(4 + U32(file, 0) + 4);
      var payload := Slice(file, bytesOffset, |file|);
      assert |payload| > 0 ==> bytesOffset < |file| && payload == file[bytesOffset..];
      Parse(fileName, payload)
  }

  // ---------------------------------------------------------------------------------------
  // The writer side: the layout the parser expects, used to state the round trip.

  predicate WellFormedLabel(l: Label) {
    0 <= l.position < 0x1_0000 && |l.text| < 256
  }

  predicate WellFormedLabels(ls: seq<Label>) {
    ls == [] || (WellFormedLabel(ls[0]) && WellFormedLabels(ls[1..]))
  }

  function EncodeLabel(l: Label): (r: seq<byte>)
    requires WellFormedLabel(l)
    ensures |r| % 2 == 0 && 3 <= |r|
  {
    var body := Le16(l.position) + [|l.text| as byte] + l.text;
    if |body| % 2 != 0 then body + [0] else body
  }

  function EncodeLabels(ls: seq<Label>): (r: seq<byte>)
    requires WellFormedLabels(ls)
    ensures |r| % 2 == 0
  {
    if ls == [] then [] else EncodeLabel(ls[0]) + EncodeLabels(ls[1..])
  }

  /** Every offset fits a signed 32-bit word. */
  predicate Int32s(fs: seq<int>) {
    fs == [] || (-0x8000_0000 <= fs[0] < 0x8000_0000 && Int32s(fs[1..]))
  }

  function EncodeFrames(fs: seq<int>): (r: seq<byte>)
    ensures |r| == 4 * |fs|
  {
    if fs == [] then [] else Le32(fs[0]) + EncodeFrames(fs[1..])
  }

  /** How many bytes align the end of the label table to a multiple of 4: none when there
      are no labels. */
  function GapLength(labels: seq<Label>): (n: nat)
    requires WellFormedLabels(labels)
    ensures labels == [] ==> n == 0
    ensures labels != [] ==> (HeaderEnd + |EncodeLabels(labels)| + n) % 4 == 0 && n < 4
  {
    var end := HeaderEnd + |EncodeLabels(labels)|;
    if labels == [] then 0 else Align4(end) - end
  }

  /** Header (with any byte 7), label table, alignment gap of any content (only when there
      are labels) and frame table. */
  function EncodeTables(nodeCount: int, combinedNodeState: byte, spare: byte,
                        labels: seq<Label>, gap: seq<byte>, frames: seq<int>): seq<byte>
    requires 0 <= nodeCount < 0x1_0000 && |labels| < 0x1_0000 && |frames| < 0x1_0000
    requires WellFormedLabels(labels) && |gap| == GapLength(labels)
  {
    var head := Le16(|frames|) + Le16(nodeCount) + Le16(|labels|) + [combinedNodeState, spare];
    head + EncodeLabels(labels) + gap + EncodeFrames(frames)
  }

  /** The label loop reads back every label written by `EncodeLabels` at an even offset,
      whatever surrounds the table, and stops just past it. */
  lemma {:induction false} ParseLabelsOfEncoded(data: seq<byte>, at: nat, ls: seq<Label>)
    requires at % 2 == 0 && WellFormedLabels(ls) && At(data, at, EncodeLabels(ls))
    ensures var r := ParseLabels(data, at, |ls|);
      r.Ok? && r.value.0 == ls && r.value.1 == at + |EncodeLabels(ls)|
    decreases |ls|
  {
    if ls != [] {
      var next := EncodedLabelsRest(data, at, ls);
      EncodedLabelsFirst(data, at, ls);
      ParseLabelsOfEncoded(data, next, ls[1..]);
      ConsLabel(data, at, ls, next, next + |EncodeLabels(ls[1..])|);
    }
  }

  /** The label read at `at` goes in front of the labels read after it. */
  lemma ConsLabel(data: seq<byte>, at: nat, ls: seq<Label>, next: nat, end: nat)
    requires ls != [] && at + 3 <= |data|
    requires ReadLabelAt(data, at).0 == ls[0] && ReadLabelAt(data, at).1 == next
    requires var r := ParseLabels(data, next, |ls[1..]|);
      r.Ok? && r.value.0 == ls[1..] && r.value.1 == end
    ensures var r := ParseLabels(data, at, |ls|); r.Ok? && r.value.0 == ls && r.value.1 == end
  {
    ParseLabelsStep(data, at, |ls[1..]|, ls[0], next, ls[1..], end);
    assert [ls[0]] + ls[1..] == ls;
  }

  /** After the first encoded label the cursor stands, still even, on the encoding of the
      rest. */
  lemma EncodedLabelsRest(data: seq<byte>, at: nat, ls: seq<Label>) returns (next: nat)
    requires ls != [] && at % 2 == 0 && WellFormedLabels(ls) && At(data, at, EncodeLabels(ls))
    ensures next == at + |EncodeLabel(ls[0])|
    ensures next % 2 == 0 && WellFormedLabels(ls[1..]) && At(data, next, EncodeLabels(ls[1..]))
    ensures next + |EncodeLabels(ls[1..])| == at + |EncodeLabels(ls)|
  {
    EncodedLabelsSplit(data, at, ls);
    next := EvenSum(at, |EncodeLabel(ls[0])|);
  }

  /** The first encoded label reads back as itself. */
  lemma EncodedLabelsFirst(data: seq<byte>, at: nat, ls: seq<Label>)
    requires ls != [] && at % 2 == 0 && WellFormedLabels(ls) && At(data, at, EncodeLabels(ls))
    ensures at + 3 <= |data| && ReadLabelAt(data, at).0 == ls[0]
    ensures ReadLabelAt(data, at).1 == at + |EncodeLabel(ls[0])|
  {
    EncodedLabelsSplit(data, at, ls);
    ReadLabel(data, at, ls[0]);
  }

  /** The label table splits into its first label's block and the table of the rest. */
  lemma EncodedLabelsSplit(data: seq<byte>, at: nat, ls: seq<Label>)
    requires ls != [] && WellFormedLabels(ls) && At(data, at, EncodeLabels(ls))
    ensures WellFormedLabel(ls[0]) && WellFormedLabels(ls[1..])
    ensures At(data, at, EncodeLabel(ls[0])) && |EncodeLabel(ls[0])| % 2 == 0
    ensures At(data, at + |EncodeLabel(ls[0])|, EncodeLabels(ls[1..]))
    ensures |EncodeLabels(ls)| == |EncodeLabel(ls[0])| + |EncodeLabels(ls[1..])|
  {
    EncodeLabelsFirst(ls);
    AtSplit(data, at, EncodeLabel(ls[0]), EncodeLabels(ls[1..]));
  }

  lemma EvenSum(a: nat, b: nat) returns (c: nat)
    requires a % 2 == 0 && b % 2 == 0
    ensures c == a + b && c % 2 == 0
  {
    c := a + b;
  }

  /** One turn of the label loop: the label read at `at` goes in front of the rest. */
  lemma ParseLabelsStep(data: seq<byte>, at: nat, m: nat, l: Label, next: nat,
                        tail: seq<Label>, end: nat)
    requires at + 3 <= |data| && ReadLabelAt(data, at).0 == l && ReadLabelAt(data, at).1 == next
    requires ParseLabels(data, next, m).Ok? && ParseLabels(data, next, m).value.0 == tail
    requires ParseLabels(data, next, m).value.1 == end
    ensures var r := ParseLabels(data, at, m + 1);
      r.Ok? && r.value.0 == [l] + tail && r.value.1 == end
  {}

  lemma EncodeLabelsFirst(ls: seq<Label>)
    requires ls != [] && WellFormedLabels(ls)
    ensures WellFormedLabel(ls[0]) && WellFormedLabels(ls[1..])
    ensures EncodeLabels(ls) == EncodeLabel(ls[0]) + EncodeLabels(ls[1..])
  {}

  /** One encoded label reads back as itself, and the cursor lands just past its block. */
  lemma {:induction false} ReadLabel(data: seq<byte>, at: nat, l: Label)
    requires at % 2 == 0 && WellFormedLabel(l) && At(data, at, EncodeLabel(l))
    ensures at + 3 <= |data|
    ensures ReadLabelAt(data, at).0 == l && ReadLabelAt(data, at).1 == at + |EncodeLabel(l)|
  {
    var head := Le16(l.position) + [|l.text| as byte];
    var body := head + l.text;
    var pad: seq<byte> := if |body| % 2 != 0 then [0] else [];
    assert EncodeLabel(l) == body + pad;
    AtSplit(data, at, body, pad);
    AtSplit(data, at, head, l.text);
    AtSplit(data, at, Le16(l.position), [|l.text| as byte]);
    AtBytes(data, at + 2, [|l.text| as byte]);
    AtSlice(data, at + 3, l.text);
    U16OfLe16(data, at, l.position);
  }

  /** The frame loop reads back every offset written by `EncodeFrames`. */
  lemma {:induction false} ParseFramesOfEncoded(data: seq<byte>, at: nat, fs: seq<int>)
    requires Int32s(fs)
    requires At(data, at, EncodeFrames(fs))
    ensures ParseFrames(data, at, |fs|) == Ok(fs)
    decreases |fs|
  {
    if fs != [] {
      assert EncodeFrames(fs) == Le32(fs[0]) + EncodeFrames(fs[1..]);
      AtSplit(data, at, Le32(fs[0]), EncodeFrames(fs[1..]));
      I32OfLe32(data, at, fs[0]);
      ParseFramesOfEncoded(data, at + 4, fs[1..]);
      assert [fs[0]] + fs[1..] == fs;
    }
  }

  /** Round trip of the constructor: a buffer laid out by `EncodeTables`, whatever byte 7 and
      the alignment gap hold, followed by any frame data, parses back to exactly the counts,
      labels and offsets written, with the whole buffer kept as the instance's data. */
  lemma {:induction false} ParseOfEncoded(guid: string, nodeCount: int, combinedNodeState: byte,
                                          spare: byte, labels: seq<Label>, gap: seq<byte>,
                                          frames: seq<int>, body: seq<byte>)
    requires 0 <= nodeCount < 0x1_0000 && |labels| < 0x1_0000 && |frames| < 0x1_0000
    requires WellFormedLabels(labels) && |gap| == GapLength(labels)
    requires Int32s(frames)
    ensures var data := EncodeTables(nodeCount, combinedNodeState, spare, labels, gap, frames)
                        + body;
      Parse(guid, data) == Ok(Instance(guid, 0, |frames|, nodeCount, |labels|,
                                       combinedNodeState, labels, frames, data))
  {
    var tables := EncodeTables(nodeCount, combinedNodeState, spare, labels, gap, frames);
    var data := tables + body;
    AtFront(tables, body);
    var framesAt := ReadTables(data, nodeCount, combinedNodeState, spare, labels, gap, frames);
    ParseAssembles(guid, data, labels, framesAt, frames);
  }

  /** The three loops of the constructor over a buffer that starts with `EncodeTables`. */
  lemma ReadTables(data: seq<byte>, nodeCount: int, combinedNodeState: byte, spare: byte,
                   labels: seq<Label>, gap: seq<byte>, frames: seq<int>) returns (framesAt: nat)
    requires 0 <= nodeCount < 0x1_0000 && |labels| < 0x1_0000 && |frames| < 0x1_0000
    requires WellFormedLabels(labels) && |gap| == GapLength(labels)
    requires Int32s(frames)
    requires At(data, 0, EncodeTables(nodeCount, combinedNodeState, spare, labels, gap, frames))
    ensures |data| >= 7 && U16(data, 0) == |frames| && U16(data, 4) == |labels|
    ensures U16(data, 2) == nodeCount && data[6] == combinedNodeState
    ensures var r := ParseLabels(data, HeaderEnd, |labels|);
      && r.Ok? && r.value.0 == labels
      && framesAt == (if labels != [] then AlignLoop(r.value.1) else r.value.1)
    ensures ParseFrames(data, framesAt, |frames|) == Ok(frames)
  {
    var labelsEnd;
    labelsEnd, framesAt := TablesLayout(data, nodeCount, combinedNodeState, spare, labels, gap,
                                        frames);
    ReadHeader(data, |frames|, nodeCount, |labels|, combinedNodeState, spare);
    ParseLabelsOfEncoded(data, HeaderEnd, labels);
    if labels != [] {
      AlignLoopIsAlign4(labelsEnd);
    }
    ParseFramesOfEncoded(data, framesAt, frames);
  }

  /** Where the parts of `EncodeTables` sit: header at 0, labels at 8, frame table at the
      (aligned, when there are labels) end of the label table. */
  lemma TablesLayout(data: seq<byte>, nodeCount: int, combinedNodeState: byte, spare: byte,
                     labels: seq<Label>, gap: seq<byte>, frames: seq<int>)
    returns (labelsEnd: nat, framesAt: nat)
    requires 0 <= nodeCount < 0x1_0000 && |labels| < 0x1_0000 && |frames| < 0x1_0000
    requires WellFormedLabels(labels) && |gap| == GapLength(labels)
    requires At(data, 0, EncodeTables(nodeCount, combinedNodeState, spare, labels, gap, frames))
    ensures At(data, 0, Le16(|frames|) + Le16(nodeCount) + Le16(|labels|)
                        + [combinedNodeState, spare])
    ensures At(data, HeaderEnd, EncodeLabels(labels))
    ensures labelsEnd == HeaderEnd + |EncodeLabels(labels)|
    ensures framesAt == if labels != [] then Align4(labelsEnd) else labelsEnd
    ensures At(data, framesAt, EncodeFrames(frames))
  {
    var head := Le16(|frames|) + Le16(nodeCount) + Le16(|labels|) + [combinedNodeState, spare];
    var table := head + EncodeLabels(labels);
    AtSplit(data, 0, table + gap, EncodeFrames(frames));
    AtSplit(data, 0, table, gap);
    AtSplit(data, 0, head, EncodeLabels(labels));
    labelsEnd := |table|;
    framesAt := |table| + |gap|;
  }

  /** The constructor's result once its three loops are known. */
  lemma ParseAssembles(guid: string, data: seq<byte>, labels: seq<Label>, framesAt: nat,
                       frames: seq<int>)
    requires |data| >= 7 && U16(data, 0) == |frames| && U16(data, 4) == |labels|
    requires var r := ParseLabels(data, HeaderEnd, |labels|);
      && r.Ok? && r.value.0 == labels
      && framesAt == (if labels != [] then AlignLoop(r.value.1) else r.value.1)
    requires ParseFrames(data, framesAt, |frames|) == Ok(frames)
    ensures Parse(guid, data) == Ok(Instance(guid, 0, |frames|, U16(data, 2), |labels|,
                                             data[6], labels, frames, data))
  {}

  /** The three counts and the state byte sit at offsets 0, 2, 4 and 6. */
  lemma {:induction false} ReadHeader(data: seq<byte>, frameCount: int, nodeCount: int,
                                      labelCount: int, state: byte, spare: byte)
    requires 0 <= frameCount < 0x1_0000 && 0 <= nodeCount < 0x1_0000
    requires 0 <= labelCount < 0x1_0000
    requires At(data, 0, Le16(frameCount) + Le16(nodeCount) + Le16(labelCount) + [state, spare])
    ensures && |data| >= 8 && U16(data, 0) == frameCount && U16(data, 2) == nodeCount
            && U16(data, 4) == labelCount && data[6] == state
  {
    var counts := Le16(frameCount) + Le16(nodeCount) + Le16(labelCount);
    AtSplit(data, 0, counts, [state, spare]);
    AtSplit(data, 0, Le16(frameCount) + Le16(nodeCount), Le16(labelCount));
    AtSplit(data, 0, Le16(frameCount), Le16(nodeCount));
    AtBytes(data, 6, [state, spare]);
    U16OfLe16(data, 0, frameCount);
    U16OfLe16(data, 2, nodeCount);
    U16OfLe16(data, 4, labelCount);
  }

  /** Round trip of `readInstance`: whatever the name and the four bytes after it, the
      container prefix padded to a multiple of 4 is stripped and the rest is parsed as the
      animation buffer. */
  lemma {:induction false} ReadInstanceOfContainer(fileName: string, name: seq<byte>,
                                                   extra: seq<byte>, pad: seq<byte>,
                                                   payload: seq<byte>)
    requires |name| < 0x1_0000_0000 && |extra| == 4
    requires |pad| == Align4(8 + |name|) - (8 + |name|)
    ensures ReadInstance(fileName, Le32(|name|) + name + extra + pad + payload)
      == Parse(fileName, payload)
  {
    var prefix := Le32(|name|) + name + extra + pad;
    var file := prefix + payload;
    AtFront(prefix, payload);
    AtSplit(file, 0, Le32(|name|) + name + extra, pad);
    AtSplit(file, 0, Le32(|name|) + name, extra);
    AtSplit(file, 0, Le32(|name|), name);
    U32OfLe32(file, 0, |name|);
    assert |prefix| == Align4(4 + U32(file, 0) + 4);
    assert file[|prefix|..] == payload;
    assert Slice(file, |prefix|, |file|) == payload;
  }
}

=== FILE: bytes.dfy ===
/** BytesUtils (src/utils/BytesUtils.ts and its identical copy js/utils/BytesUtils.js):
    little-endian reads over a byte buffer, 4-byte alignment and the signed-byte view. */
module Bytes {

  type byte = x: int | 0 <= x < 256

  /** JavaScript's `%` with a positive divisor: the remainder has the sign of the dividend. */
  function JsRem(a: int, b: int): (r: int)
    requires b > 0
    ensures -b < r < b
    ensures a >= 0 ==> r == a % b
  {
    if a >= 0 then a % b else -((-a) % b)
  }

  /** `alignTo4Bytes`: rounds a position up to the next multiple of 4. */
  function Align4(p: int): (r: int)
    ensures r % 4 == 0
    ensures p >= 0 ==> p <= r < p + 4
    ensures p % 4 == 0 ==> r == p
  {
    if JsRem(p, 4) == 0 then p else p - JsRem(p, 4) + 4
  }

  lemma Align4Idempotent(p: int)
    ensures Align4(Align4(p)) == Align4(p)
  {}

  /** The bound `p <= Align4(p)` needs `p >= 0`: JavaScript's signed remainder sends -1 to 4. */
  lemma Align4OfMinusOne()
    ensures Align4(-1) == 4
  {}

  /** The alignment that RenderState.ts writes inline: `p + (4 - p % 4) % 4`. */
  function InlineAlign(p: int): (r: int)
    ensures p >= 0 ==> r == Align4(p)
  {
    p + JsRem(4 - JsRem(p, 4), 4)
  }

  /** `toSignedByte`: the two's-complement reading of a byte. */
  function ToSignedByte(n: int): (r: int)
    ensures 0 <= n < 256 ==> -128 <= r < 128
    ensures 0 <= n < 256 ==> (r < 0 <==> n >= 128)
    ensures r % 256 == n % 256
  {
    if n < 128 then n else n - 256
  }

  lemma {:induction false} ToSignedByteInjective(a: byte, b: byte)
    requires ToSignedByte(a) == ToSignedByte(b)
    ensures a == b
  {
    assert a % 256 == b % 256;
  }

  /** Byte lane `k` (0 = least significant) of an integer; for every integer this is what
      JavaScript's `(c >> 8k) & 0xFF` yields, since `>>` works modulo 2^32. */
  function Lane(c: int, k: nat): (r: byte)
    decreases k
  {
    if k == 0 then c % 256 else Lane(c / 256, k - 1)
  }

  /** `getUint16(at, true)`. */
  function U16(data: seq<byte>, at: nat): (r: int)
    requires at + 2 <= |data|
    ensures 0 <= r < 0x1_0000
  {
    data[at] as int + 0x100 * data[at + 1] as int
  }

  /** The bytes of the 16-bit value are the two bytes read, low byte first. */
  lemma U16Lanes(data: seq<byte>, at: nat)
    requires at + 2 <= |data|
    ensures Lane(U16(data, at), 0) == data[at] && Lane(U16(data, at), 1) == data[at + 1]
  {
    var r := U16(data, at);
    assert Lane(r, 1) == Lane(r / 256, 0);
  }

  /** `readInt16` / `getInt16(at, true)`: the signed little-endian 16-bit value. */
  function I16(data: seq<byte>, at: nat): (r: int)
    requires at + 2 <= |data|
    ensures -0x8000 <= r < 0x8000
    ensures r < 0 <==> data[at + 1] >= 128
  {
    var u := U16(data, at);
    if u < 0x8000 then u else u - 0x1_0000
  }

  /** The signed reading agrees with the unsigned one modulo 2^16. */
  lemma I16Wraps(data: seq<byte>, at: nat)
    requires at + 2 <= |data|
    ensures I16(data, at) % 0x1_0000 == U16(data, at)
  {}

  /** `readUint32` / `getUint32(at, true)`. */
  function U32(data: seq<byte>, at: nat): (r: int)
    requires at + 4 <= |data|
    ensures 0 <= r < 0x1_0000_0000
  {
    data[at] as int + 0x100 * data[at + 1] as int + 0x1_0000 * data[at + 2] as int
      + 0x100_0000 * data[at + 3] as int
  }

  /** The bytes of the 32-bit value are the four bytes read, low byte first. */
  lemma U32Lanes(data: seq<byte>, at: nat)
    requires at + 4 <= |data|
    ensures forall k :: 0 <= k < 4 ==> Lane(U32(data, at), k) == data[at + k]
  {
    LanesOfPacked(data[at], data[at + 1], data[at + 2], data[at + 3]);
  }

  /** `getInt32(at, true)`. */
  function I32(data: seq<byte>, at: nat): (r: int)
    requires at + 4 <= |data|
    ensures -0x8000_0000 <= r < 0x8000_0000
    ensures r < 0 <==> data[at + 3] >= 128
  {
    var u := U32(data, at);
    if u < 0x8000_0000 then u else u - 0x1_0000_0000
  }

  /** The signed reading agrees with the unsigned one modulo 2^32. */
  lemma I32Wraps(data: seq<byte>, at: nat)
    requires at + 4 <= |data|
    ensures I32(data, at) % 0x1_0000_0000 == U32(data, at)
  {}

  /** Packing four bytes little-endian and reading the lanes back gives the bytes. */
  lemma {:induction false} LanesOfPacked(b0: byte, b1: byte, b2: byte, b3: byte)
    ensures var c := b0 as int + 0x100 * b1 as int + 0x1_0000 * b2 as int + 0x100_0000 * b3 as int;
            Lane(c, 0) == b0 && Lane(c, 1) == b1 && Lane(c, 2) == b2 && Lane(c, 3) == b3
  {
    var c := b0 as int + 0x100 * b1 as int + 0x1_0000 * b2 as int + 0x100_0000 * b3 as int;
    var c1 := b1 as int + 0x100 * b2 as int + 0x1_0000 * b3 as int;
    var c2 := b2 as int + 0x100 * b3 as int;
    assert c == b0 + 0x100 * c1 && c / 256 == c1 && c % 256 == b0;
    assert c1 == b1 + 0x100 * c2 && c1 / 256 == c2 && c1 % 256 == b1;
    assert c2 / 256 == b3 && c2 % 256 == b2;
    assert Lane(c, 3) == Lane(c1, 2) == Lane(c2, 1) == Lane(b3, 0) == b3;
  }

  /** The converse: a value in [0, 2^32) is the little-endian packing of its four lanes. */
  lemma {:induction false} PackedOfLanes(c: int)
    requires 0 <= c < 0x1_0000_0000
    ensures c == Lane(c, 0) as int + 0x100 * Lane(c, 1) as int + 0x1_0000 * Lane(c, 2) as int
              + 0x100_0000 * Lane(c, 3) as int
  {
    var c1 := c / 256;
    var c2 := c1 / 256;
    var c3 := c2 / 256;
    assert c == c % 256 + 256 * c1;
    assert c1 == c1 % 256 + 256 * c2;
    assert c2 == c2 % 256 + 256 * c3;
    assert c3 < 256;
    assert Lane(c, 1) == Lane(c1, 0);
    assert Lane(c, 2) == Lane(c1, 1) == Lane(c2, 0);
    assert Lane(c, 3) == Lane(c1, 2) == Lane(c2, 1) == Lane(c3, 0) == c3;
  }

  /** `ArrayBuffer.slice` / `Uint8Array.slice` with non-negative bounds: a bound past the end
      is clamped to the end, never an error. */
  function Slice(data: seq<byte>, from: nat, to: nat): (r: seq<byte>)
    ensures |r| <= |data|
    ensures to <= |data| && from <= to ==> r == data[from..to]
    ensures from >= |data| || to <= from ==> r == []
  {
    var lo := if from > |data| then |data| else from;
    var hi := if to < lo then lo else if to > |data| then |data| else to;
    data[lo..hi]
  }

  /** The two little-endian bytes of a 16-bit value: the writer that `U16` inverts. */
  function Le16(v: int): (r: seq<byte>)
    ensures |r| == 2
  {
    [Lane(v, 0), Lane(v, 1)]
  }

  /** The four little-endian bytes of a value modulo 2^32: the writer that `U32` inverts. */
  function Le32(v: int): (r: seq<byte>)
    ensures |r| == 4
  {
    [Lane(v, 0), Lane(v, 1), Lane(v, 2), Lane(v, 3)]
  }

  /** `block` sits in `data` starting at offset `at`. */
  predicate At(data: seq<byte>, at: nat, block: seq<byte>) {
    at + |block| <= |data| && Matches(data, at, block)
  }

  /** The bytes of `data` from `at` on agree with `block`, one at a time. */
  predicate Matches(data: seq<byte>, at: nat, block: seq<byte>)
    decreases |block|
  {
    block == [] || (at < |data| && data[at] == block[0] && Matches(data, at + 1, block[1..]))
  }

  /** A block at `at` lies inside the buffer and gives its bytes one by one. */
  lemma {:induction false} AtBytes(data: seq<byte>, at: nat, block: seq<byte>)
    requires At(data, at, block)
    ensures at + |block| <= |data|
    ensures forall k :: 0 <= k < |block| ==> data[at + k] == block[k]
    decreases |block|
  {
    if block != [] {
      AtBytes(data, at + 1, block[1..]);
      forall k | 1 <= k < |block|
        ensures data[at + k] == block[k]
      {
        assert data[at + 1 + (k - 1)] == block[1..][k - 1];
      }
    }
  }

  /** A concatenation at `at` is its first part at `at` followed by its second part. */
  lemma {:induction false} AtSplit(data: seq<byte>, at: nat, a: seq<byte>, b: seq<byte>)
    requires At(data, at, a + b)
    ensures At(data, at, a) && At(data, at + |a|, b)
    decreases |a|
  {
    if a != [] {
      assert (a + b)[1..] == a[1..] + b;
      AtSplit(data, at + 1, a[1..], b);
    } else {
      assert a + b == b;
    }
  }

  /** The slice of the buffer under a block is the block. */
  lemma {:induction false} AtSlice(data: seq<byte>, at: nat, block: seq<byte>)
    requires At(data, at, block)
    ensures at + |block| <= |data| && data[at..at + |block|] == block
  {
    AtBytes(data, at, block);
    assert data[at..at + |block|] == block;
  }

  /** Anything followed by more bytes sits at offset 0 of the whole. */
  lemma {:induction false} AtFront(a: seq<byte>, b: seq<byte>)
    ensures At(a + b, 0, a)
  {
    AtOfSuffix(a, b, []);
    assert [] + a + b == a + b;
  }

  lemma {:induction false} AtOfSuffix(a: seq<byte>, b: seq<byte>, before: seq<byte>)
    ensures At(before + a + b, |before|, a)
    decreases |a|
  {
    if a != [] {
      assert before + a + b == (before + [a[0]]) + a[1..] + b;
      AtOfSuffix(a[1..], b, before + [a[0]]);
    }
  }

  /** A 16-bit value written little-endian reads back unchanged. */
  lemma {:induction false} U16OfLe16(data: seq<byte>, at: nat, v: int)
    requires 0 <= v < 0x1_0000 && At(data, at, Le16(v))
    ensures U16(data, at) == v
  {
    AtBytes(data, at, Le16(v));
    assert data[at] == Le16(v)[0] && data[at + 1] == Le16(v)[1];
    U16Lanes(data, at);
    assert Lane(v, 1) == Lane(v / 256, 0);
  }

  /** A value in [0, 2^32) written little-endian reads back unchanged through `U32`. */
  lemma {:induction false} U32OfLe32(data: seq<byte>, at: nat, v: int)
    requires 0 <= v < 0x1_0000_0000 && At(data, at, Le32(v))
    ensures U32(data, at) == v
  {
    AtBytes(data, at, Le32(v));
    assert data[at] == Le32(v)[0] && data[at + 1] == Le32(v)[1];
    assert data[at + 2] == Le32(v)[2] && data[at + 3] == Le32(v)[3];
    U32Lanes(data, at);
    var u := U32(data, at);
    assert Lane(u, 0) == Lane(v, 0) && Lane(u, 1) == Lane(v, 1);
    assert Lane(u, 2) == Lane(v, 2) && Lane(u, 3) == Lane(v, 3);
    PackedOfLanes(u);
    PackedOfLanes(v);
  }

  /** A value in the signed 32-bit range written little-endian reads back through `I32`. */
  lemma {:induction false} I32OfLe32(data: seq<byte>, at: nat, v: int)
    requires -0x8000_0000 <= v < 0x8000_0000 && At(data, at, Le32(v))
    ensures I32(data, at) == v
  {
    var u := if v < 0 then v + 0x1_0000_0000 else v;
    LaneOfShift(v, u);
    assert Le32(v) == Le32(u);
    U32OfLe32(data, at, u);
  }

  /** Lanes only see a value modulo 2^32. */
  lemma {:induction false} LaneOfShift(v: int, u: int)
    requires u == v + 0x1_0000_0000 || u == v
    ensures forall k :: 0 <= k < 4 ==> Lane(u, k) == Lane(v, k)
  {
    if u != v {
      var v1, v2, v3 := v / 256, v / 256 / 256, v / 256 / 256 / 256;
      assert u / 256 == v1 + 0x100_0000;
      assert u / 256 / 256 == v2 + 0x1_0000;
      assert u / 256 / 256 / 256 == v3 + 0x100;
      assert Lane(u, 1) == Lane(u / 256, 0) && Lane(v, 1) == Lane(v1, 0);
      assert Lane(u, 2) == Lane(u / 256 / 256, 0) && Lane(v, 2) == Lane(v2, 0);
      assert Lane(u, 3) == Lane(u / 256 / 256 / 256, 0) && Lane(v, 3) == Lane(v3, 0);
    }
  }
}

=== FILE: colors.dfy ===
/** ColorUtils (js/utils/ColorUtils.js): the packed SWF colour, four two's-complement bytes
    (red lowest, alpha highest), each standing for the value `byte / 128`. */
module Colors {
  import opened Bytes

  const OpaqueWhite: int := 0xffff_ffff
  const TransparentBlack: int := 0x0000_0000

  datatype Color = Color(r: real, g: real, b: real, a: real)

  /** `v` is a multiple of 1/128 in [-1, 127/128] whose two's-complement byte is `lane`. */
  predicate Encodes(v: real, lane: int) {
    && -1.0 <= v <= 127.0 / 128.0
    && (v * 128.0).Floor as real == v * 128.0
    && ToUnsignedByte((v * 128.0).Floor) == lane
  }

  /** The real a signed byte stands for (`fromUnsignedByte` is `Bytes.ToSignedByte`). */
  function Component(c: int, k: nat): (v: real)
    ensures Encodes(v, Lane(c, k))
    ensures v < 0.0 <==> Lane(c, k) >= 128
  {
    var s := ToSignedByte(Lane(c, k));
    SignedByteEncodes(s, Lane(c, k));
    s as real / 128.0
  }

  lemma SignedByteEncodes(s: int, lane: byte)
    requires s == ToSignedByte(lane)
    ensures Encodes(s as real / 128.0, lane)
  {
    var v := s as real / 128.0;
    assert v * 128.0 == s as real;
    assert (v * 128.0).Floor == s;
  }

  /** `ConvertFromEncodedColor`: red from bits 0-7, green 8-15, blue 16-23, alpha 24-31. */
  function FromEncoded(c: int): (col: Color)
    ensures Encodes(col.r, Lane(c, 0)) && Encodes(col.g, Lane(c, 1))
    ensures Encodes(col.b, Lane(c, 2)) && Encodes(col.a, Lane(c, 3))
  {
    Color(Component(c, 0), Component(c, 1), Component(c, 2), Component(c, 3))
  }

  /** `clampAndFloor`: the greatest integer not above `v * 128`, saturated to [-128, 127]. */
  function ClampFloor(v: real): (s: int)
    ensures -128 <= s <= 127
    ensures s > -128 ==> s as real <= v * 128.0
    ensures s < 127 ==> v * 128.0 < (s + 1) as real
  {
    var f := (v * 128.0).Floor;
    if f > 127 then 127 else if f < -128 then -128 else f
  }

  /** `toUnsignedByte`: the byte whose two's-complement reading is `s`. */
  function ToUnsignedByte(s: int): (b: int)
    requires -128 <= s < 128
    ensures 0 <= b < 256
    ensures ToSignedByte(b) == s
  {
    if s < 0 then 256 + s else s
  }

  /** `ConvertSWFColor`: packs the four saturated components, red in the low byte. The source
      combines the lanes with `|` and `<<` and ends with `>>> 0`; the lanes are disjoint, so
      that is the sum below. */
  function ConvertSwf(r: real, g: real, b: real, a: real): (c: int)
    ensures 0 <= c < 0x1_0000_0000
    ensures Lane(c, 0) == ToUnsignedByte(ClampFloor(r))
    ensures Lane(c, 1) == ToUnsignedByte(ClampFloor(g))
    ensures Lane(c, 2) == ToUnsignedByte(ClampFloor(b))
    ensures Lane(c, 3) == ToUnsignedByte(ClampFloor(a))
  {
    var b0 := ToUnsignedByte(ClampFloor(r));
    var b1 := ToUnsignedByte(ClampFloor(g));
    var b2 := ToUnsignedByte(ClampFloor(b));
    var b3 := ToUnsignedByte(ClampFloor(a));
    LanesOfPacked(b0, b1, b2, b3);
    b0 + 0x100 * b1 + 0x1_0000 * b2 + 0x100_0000 * b3
  }

  /** The default alpha argument `a = 1.0` saturates to 0x7F, not 0xFF. */
  function ConvertSwfDefaultAlpha(r: real, g: real, b: real): (c: int)
    ensures Lane(c, 3) == 0x7F
  {
    ConvertSwf(r, g, b, 1.0)
  }

  /** A value that encodes a byte survives `clampAndFloor` and `toUnsignedByte` exactly. */
  lemma {:induction false} ClampFloorOfEncoded(v: real, lane: int)
    requires Encodes(v, lane)
    ensures ToUnsignedByte(ClampFloor(v)) == lane
  {
    assert -128.0 <= v * 128.0 <= 127.0;
  }

  /** Decoding a packed colour and encoding it again gives back the same 32-bit value. */
  lemma {:induction false} RoundTrip(c: int)
    requires 0 <= c < 0x1_0000_0000
    ensures var col := FromEncoded(c); ConvertSwf(col.r, col.g, col.b, col.a) == c
  {
    var col := FromEncoded(c);
    ClampFloorOfEncoded(col.r, Lane(c, 0));
    ClampFloorOfEncoded(col.g, Lane(c, 1));
    ClampFloorOfEncoded(col.b, Lane(c, 2));
    ClampFloorOfEncoded(col.a, Lane(c, 3));
    PackedOfLanes(c);
  }

  /** The two named constants: transparent black decodes to zero in every component, and
      "opaque white" 0xffffffff decodes to -1/128 in every component. */
  lemma NamedColors()
    ensures FromEncoded(TransparentBlack) == Color(0.0, 0.0, 0.0, 0.0)
    ensures FromEncoded(OpaqueWhite) == Color(-1.0 / 128.0, -1.0 / 128.0, -1.0 / 128.0, -1.0 / 128.0)
  {
    NamedComponent(0);
    NamedComponent(1);
    NamedComponent(2);
    NamedComponent(3);
  }

  lemma NamedComponent(k: nat)
    requires k < 4
    ensures Component(TransparentBlack, k) == 0.0
    ensures Component(OpaqueWhite, k) == -1.0 / 128.0
  {
    LaneOfSpan(k);
    assert ToSignedByte(Lane(OpaqueWhite, k)) == -1;
  }

  lemma LaneOfSpan(k: nat)
    requires k < 4
    ensures Lane(0, k) == 0 && Lane(0xffff_ffff, k) == 0xff
  {
    assert Lane(0, 1) == Lane(0, 0) && Lane(0, 2) == Lane(0, 1) && Lane(0, 3) == Lane(0, 2);
    assert Lane(0xffff_ffff, 1) == Lane(0xff_ffff, 0);
    assert Lane(0xffff_ffff, 2) == Lane(0xff_ffff, 1) == Lane(0xffff, 0);
    assert Lane(0xffff_ffff, 3) == Lane(0xff_ffff, 2) == Lane(0xffff, 1) == Lane(0xff, 0);
  }
}

=== FILE: descriptors.dfy ===
/** The three asset-descriptor scripts (computeAssetsDescriptor.py,
    computeAssetsDescriptorGlobal.py and completeMonstersNameToAssetsDescriptor.py) as pure
    functions over a file system given as a value.

    A directory is its listing, in the order `os.listdir` returns it; a file is the JSON value
    `json.load` makes of it, or `None` when it does not parse. An exception a script does not
    catch is an `Err`, and a script writes its output file only after everything else
    succeeded, so an `Err` means the file system is left as it was. */
module Descriptors {
  import opened Results
  import opened Sequences

  /** A JSON value as Python's `json` module presents it. Numbers are integers only. */
  datatype Json =
    | JNull
    | JBool(b: bool)
    | JNum(n: int)
    | JStr(s: string)
    | JArr(items: seq<Json>)
    | JObj(fields: map<string, Json>)

  /** The exceptions the scripts can raise. `WrongType` stands for every TypeError and
      AttributeError that an operation on a value of the wrong JSON type raises. */
  datatype PyError =
    | NoSuchDirectory(path: string)
    | NoSuchFile(path: string)
    | BadJson(path: string)
    | KeyError(key: string)
    | WrongType

  datatype FileSystem = FileSystem(dirs: map<string, seq<string>>, files: map<string, Option<Json>>)

  /** `os.listdir(path)`. */
  function ListDir(fs: FileSystem, path: string): Result<seq<string>, PyError> {
    if path in fs.dirs then Ok(fs.dirs[path]) else Err(NoSuchDirectory(path))
  }

  /** `json.load(open(path))`. */
  function Load(fs: FileSystem, path: string): Result<Json, PyError> {
    if path !in fs.files then Err(NoSuchFile(path))
    else if fs.files[path].None? then Err(BadJson(path))
    else Ok(fs.files[path].value)
  }

  /** `json.dump` to `path`, replacing any previous content. */
  function Write(fs: FileSystem, path: string, j: Json): FileSystem {
    fs.(files := fs.files[path := Some(j)])
  }

  /** `j[key]` with a string key: only a dict has string keys, and a missing one raises. */
  function Get(j: Json, key: string): (r: Result<Json, PyError>)
    ensures r.Ok? <==> j.JObj? && key in j.fields
    ensures r.Ok? ==> r.value == j.fields[key]
    ensures r.Err? && j.JObj? ==> r.error == KeyError(key)
    ensures !j.JObj? ==> r == Err(WrongType)
  {
    if !j.JObj? then Err(WrongType)
    else if key !in j.fields then Err(KeyError(key))
    else Ok(j.fields[key])
  }

  /** What a `for` loop over a JSON value hands its body: the items of a list, or `Text` for
      each key of a dict and each character of a string. Every loop body here subscripts its
      element with a string, which raises for any `Text`, so a key's spelling never matters. */
  datatype Element = Value(json: Json) | Text

  function Iterate(j: Json): (r: Result<seq<Element>, PyError>)
    ensures r.Ok? <==> j.JArr? || j.JObj? || j.JStr?
    ensures r.Ok? && j.JArr? ==> |r.value| == |j.items|
    ensures r.Ok? && j.JArr? ==> forall i :: 0 <= i < |j.items| ==> r.value[i] == Value(j.items[i])
    ensures r.Ok? && j.JObj? ==> |r.value| == |j.fields| && forall e :: e in r.value ==> e == Text
    ensures r.Ok? && j.JStr? ==> |r.value| == |j.s| && forall e :: e in r.value ==> e == Text
  {
    match j
    case JArr(items) => Ok(seq(|items|, i requires 0 <= i < |items| => Value(items[i])))
    case JObj(fields) => Ok(seq(|fields|, i => Text))
    case JStr(s) => Ok(seq(|s|, i => Text))
    case _ => Err(WrongType)
  }

  /** `element[key]` on a loop element. */
  function GetIn(e: Element, key: string): (r: Result<Json, PyError>)
    ensures r.Ok? <==> e.Value? && e.json.JObj? && key in e.json.fields
  {
    if e.Text? then Err(WrongType) else Get(e.json, key)
  }

  // ----- Animation names -------------------------------------------------------------

  predicate Named(e: Element) {
    e.Value? && e.json.JObj? && "name" in e.json.fields
  }

  /** The loop `for anim in ...: names.append(anim["name"])`: one name per element, in order,
      duplicates kept; the first element without a name aborts. */
  function Names(xs: seq<Element>): (r: Result<seq<Json>, PyError>)
    ensures r.Ok? <==> forall i :: 0 <= i < |xs| ==> Named(xs[i])
    ensures r.Ok? ==> |r.value| == |xs|
    ensures r.Ok? ==> forall i :: 0 <= i < |xs| ==> r.value[i] == xs[i].json.fields["name"]
    decreases |xs|
  {
    if xs == [] then Ok([])
    else
      var name :- GetIn(xs[0], "name");
      var rest :- Names(xs[1..]);
      assert forall i :: 1 <= i < |xs| ==> xs[i] == xs[1..][i - 1];
      Ok([name] + rest)
  }

  /** The animations list `data["animations"]["Array"]` of a skin definition, when it is one. */
  predicate HasAnimationList(data: Json) {
    && data.JObj? && "animations" in data.fields
    && data.fields["animations"].JObj? && "Array" in data.fields["animations"].fields
    && data.fields["animations"].fields["Array"].JArr?
  }

  function AnimationList(data: Json): seq<Json>
    requires HasAnimationList(data)
  {
    data.fields["animations"].fields["Array"].items
  }

  /** The names of a skin definition's animations, `[anim["name"] for anim in
      data["animations"]["Array"]]`. */
  function AnimationNames(data: Json): (r: Result<seq<Json>, PyError>)
    ensures !data.JObj? ==> r == Err(WrongType)
    ensures HasAnimationList(data) ==>
              (r.Ok? <==> forall i :: 0 <= i < |AnimationList(data)| ==>
                            AnimationList(data)[i].JObj? && "name" in AnimationList(data)[i].fields)
    ensures HasAnimationList(data) && r.Ok? ==>
              |r.value| == |AnimationList(data)| &&
              forall i :: 0 <= i < |AnimationList(data)| ==>
                r.value[i] == AnimationList(data)[i].fields["name"]
  {
    var animations :- Get(data, "animations");
    var list :- Get(animations, "Array");
    var xs :- Iterate(list);
    if HasAnimationList(data) then
      assert forall i :: 0 <= i < |xs| ==> xs[i] == Value(AnimationList(data)[i]);
      Names(xs)
    else
      Names(xs)
  }

  /** Open and load a skin definition, then read its animation names. */
  function ReadSkin(fs: FileSystem, path: string): Result<seq<Json>, PyError> {
    var data :- Load(fs, path);
    AnimationNames(data)
  }

  // ----- The descriptor --------------------------------------------------------------

  /** The output document: `skinIds`, a list of ids, and `skins`, a dict from id to the
      animation names. */
  datatype Descriptor = Descriptor(skinIds: seq<string>, skins: map<string, seq<Json>>)

  const Empty: Descriptor := Descriptor([], map[])

  /** Every listed id has an entry in `skins`, and every key of `skins` is listed. */
  ghost predicate Consistent(d: Descriptor) {
    forall id :: id in d.skinIds <==> id in d.skins
  }

  function ToJson(d: Descriptor): (j: Json)
    ensures j.JObj? && j.fields.Keys == {"skinIds", "skins"}
  {
    JObj(map["skinIds" := JArr(seq(|d.skinIds|, i requires 0 <= i < |d.skinIds| => JStr(d.skinIds[i]))),
             "skins" := JObj(map id | id in d.skins :: JArr(d.skins[id]))])
  }

  // ----- computeAssetsDescriptor.py --------------------------------------------------

  const ResourcesDir: string := "./resources"

  /** Where the descriptor is written and where the third script reads it back from. */
  const DescriptorPath: string := ResourcesDir + "/asset-descriptor.json"

  /** The skin definition of a resource directory. */
  function DefinitionPath(id: string): string {
    ResourcesDir + "/" + id + "/" + id + "-AnimatedObjectDefinition.json"
  }

  /** `[item for item in items if os.path.isdir(os.path.join(dir, item))]`. */
  function Subdirectories(fs: FileSystem, dir: string, items: seq<string>): (ids: seq<string>)
    ensures |ids| <= |items|
    ensures forall x :: x in ids <==> x in items && dir + "/" + x in fs.dirs
    decreases |items|
  {
    if items == [] then []
    else
      var rest := Subdirectories(fs, dir, items[1..]);
      assert forall x :: x in items <==> x == items[0] || x in items[1..];
      if dir + "/" + items[0] in fs.dirs then [items[0]] + rest else rest
  }

  /** A one-item listing keeps its item exactly when it is a directory. */
  lemma SubdirectoriesOne(fs: FileSystem, dir: string, item: string)
    ensures Subdirectories(fs, dir, [item]) == if dir + "/" + item in fs.dirs then [item] else []
  {
    assert [item][1..] == [];
  }

  /** When every item is a directory, every item is kept. */
  lemma {:induction false} SubdirectoriesOfDirectories(fs: FileSystem, dir: string, items: seq<string>)
    requires forall i :: 0 <= i < |items| ==> dir + "/" + items[i] in fs.dirs
    ensures Subdirectories(fs, dir, items) == items
    decreases |items|
  {
    if items != [] {
      var rest := items[1..];
      forall i | 0 <= i < |rest|
        ensures dir + "/" + rest[i] in fs.dirs
      {
        assert rest[i] == items[i + 1];
      }
      SubdirectoriesOfDirectories(fs, dir, rest);
      SubdirectoriesOne(fs, dir, items[0]);
      assert [items[0]] + rest == items;
      SubdirectoriesAppend(fs, dir, [items[0]], rest);
    }
  }

  /** The comprehension works item by item: a split listing gives the two parts' results in
      order. */
  lemma {:induction false} SubdirectoriesAppend(fs: FileSystem, dir: string, a: seq<string>,
                                                b: seq<string>)
    ensures Subdirectories(fs, dir, a + b) == Subdirectories(fs, dir, a) + Subdirectories(fs, dir, b)
    decreases |a|
  {
    if a == [] {
      assert a + b == b;
    } else {
      var ab := a + b;
      assert ab[0] == a[0] && ab[1..] == a[1..] + b;
      SubdirectoriesAppend(fs, dir, a[1..], b);
      var head := if dir + "/" + a[0] in fs.dirs then [a[0]] else [];
      var x, y := Subdirectories(fs, dir, a[1..]), Subdirectories(fs, dir, b);
      assert Subdirectories(fs, dir, ab) == head + (x + y);
      assert Subdirectories(fs, dir, a) == head + x;
      AppendAssociative(head, x, y);
    }
  }

  /** The loop of computeAssetsDescriptor.py: each id's definition is read in turn into
      `skins[id]`. */
  function ReadSkins(fs: FileSystem, ids: seq<string>, skins: map<string, seq<Json>>)
    : (r: Result<map<string, seq<Json>>, PyError>)
    ensures r.Ok? <==> forall i :: 0 <= i < |ids| ==> ReadSkin(fs, DefinitionPath(ids[i])).Ok?
    ensures r.Ok? ==> forall id :: id in r.value <==> id in skins || id in ids
    ensures r.Ok? ==> forall id :: id in ids ==>
              id in r.value && r.value[id] == ReadSkin(fs, DefinitionPath(id)).value
    ensures r.Ok? ==> forall id :: id in skins && id !in ids ==> id in r.value && r.value[id] == skins[id]
    decreases |ids|
  {
    if ids == [] then Ok(skins)
    else
      var names :- ReadSkin(fs, DefinitionPath(ids[0]));
      assert forall id :: id in ids <==> id == ids[0] || id in ids[1..];
      assert forall i :: 1 <= i < |ids| ==> ids[i] == ids[1..][i - 1];
      ReadSkins(fs, ids[1..], skins[ids[0] := names])
  }

  /** computeAssetsDescriptor.py: `skinIds` is the sub-directories of ./resources in listing
      order, and `skins[id]` the animation names of `<id>/<id>-AnimatedObjectDefinition.json`. */
  function ComputeAssetsDescriptor(fs: FileSystem): (r: Result<Descriptor, PyError>)
    ensures r.Ok? <==>
              && ResourcesDir in fs.dirs
              && forall id :: id in Subdirectories(fs, ResourcesDir, fs.dirs[ResourcesDir]) ==>
                   ReadSkin(fs, DefinitionPath(id)).Ok?
    ensures r.Ok? ==> r.value.skinIds == Subdirectories(fs, ResourcesDir, fs.dirs[ResourcesDir])
    ensures r.Ok? ==> forall id :: id in r.value.skinIds <==> id in fs.dirs[ResourcesDir] && ResourcesDir + "/" + id in fs.dirs
    ensures r.Ok? ==> Consistent(r.value)
    ensures r.Ok? ==> forall id :: id in r.value.skins ==>
              r.value.skins[id] == ReadSkin(fs, DefinitionPath(id)).value
  {
    var items :- ListDir(fs, ResourcesDir);
    var ids := Subdirectories(fs, ResourcesDir, items);
    var skins :- ReadSkins(fs, ids, map[]);
    Ok(Descriptor(ids, skins))
  }

  // ----- computeAssetsDescriptorGlobal.py --------------------------------------------

  /** Python's `s.split(c)`: the pieces between occurrences of `c`, at least one. */
  function Split(s: string, c: char): (parts: seq<string>)
    ensures |parts| >= 1
    ensures forall i :: 0 <= i < |parts| ==> c !in parts[i]
    ensures |parts[0]| <= |s| && parts[0] == s[..|parts[0]|]
    ensures |parts[0]| < |s| ==> s[|parts[0]|] == c
    decreases |s|
  {
    if |s| == 0 then [""]
    else if s[0] == c then [""] + Split(s[1..], c)
    else
      var rest := Split(s[1..], c);
      assert forall i :: 1 <= i < |rest| ==> rest[1..][i - 1] == rest[i];
      [[s[0]] + rest[0]] + rest[1..]
  }

  /** `c.join(parts)`. */
  function Join(parts: seq<string>, c: char): string
    requires |parts| >= 1
    decreases |parts|
  {
    if |parts| == 1 then parts[0] else parts[0] + [c] + Join(parts[1..], c)
  }

  /** Splitting loses nothing: joining the pieces back gives the original string. */
  lemma {:induction false} JoinSplit(s: string, c: char)
    ensures Join(Split(s, c), c) == s
    decreases |s|
  {
    if |s| == 0 {
    } else if s[0] == c {
      JoinSplit(s[1..], c);
      assert Split(s, c)[1..] == Split(s[1..], c);
    } else {
      var rest := Split(s[1..], c);
      JoinSplit(s[1..], c);
      var parts := Split(s, c);
      assert parts[1..] == rest[1..];
      if |rest| == 1 {
        assert parts == [[s[0]] + rest[0]];
      } else {
        assert Join(parts, c) == [s[0]] + rest[0] + [c] + Join(rest[1..], c);
      }
    }
  }

  /** `s.split(c)[0]`: the text before the first `c`, or all of `s`. */
  function FirstField(s: string, c: char): (r: string)
    ensures |r| <= |s| && r == s[..|r|] && c !in r
    ensures |r| < |s| ==> s[|r|] == c
  {
    Split(s, c)[0]
  }

  /** The three facts above pin the first field down: it is the longest `c`-free prefix. */
  lemma FirstFieldUnique(s: string, c: char, p: string)
    requires |p| <= |s| && p == s[..|p|] && c !in p
    requires |p| < |s| ==> s[|p|] == c
    ensures p == FirstField(s, c)
  {
  }

  predicate IsDigit(ch: char) {
    '0' <= ch <= '9'
  }

  /** `str.isnumeric()` for ASCII text: non-empty and digits only. */
  predicate IsNumeric(s: string) {
    |s| > 0 && forall i :: 0 <= i < |s| ==> IsDigit(s[i])
  }

  /** The ids the inner loop takes from a directory listing: each entry's text before its first
      ".", kept when numeric, once per entry. */
  function NumericIds(entries: seq<string>): (ids: seq<string>)
    ensures |ids| <= |entries|
    ensures forall id :: id in ids ==> IsNumeric(id)
    ensures forall i :: 0 <= i < |entries| && IsNumeric(FirstField(entries[i], '.')) ==>
              FirstField(entries[i], '.') in ids
    decreases |entries|
  {
    if entries == [] then []
    else
      var id := FirstField(entries[0], '.');
      var rest := NumericIds(entries[1..]);
      assert forall i :: 1 <= i < |entries| ==> entries[i] == entries[1..][i - 1];
      if IsNumeric(id) then [id] + rest else rest
  }

  /** A one-entry listing gives its numeric first field, or nothing. */
  lemma NumericIdsOne(e: string)
    ensures NumericIds([e]) == if IsNumeric(FirstField(e, '.')) then [FirstField(e, '.')] else []
  {
    assert [e][1..] == [];
  }

  /** The ids are taken entry by entry: a split listing gives the two parts' ids in order. */
  lemma {:induction false} NumericIdsAppend(a: seq<string>, b: seq<string>)
    ensures NumericIds(a + b) == NumericIds(a) + NumericIds(b)
    decreases |a|
  {
    if a == [] {
      assert a + b == b;
    } else {
      var ab := a + b;
      assert ab[0] == a[0] && ab[1..] == a[1..] + b;
      NumericIdsAppend(a[1..], b);
      var id := FirstField(a[0], '.');
      var head := if IsNumeric(id) then [id] else [];
      var x, y := NumericIds(a[1..]), NumericIds(b);
      assert NumericIds(ab) == head + (x + y);
      assert NumericIds(a) == head + x;
      AppendAssociative(head, x, y);
    }
  }

  /** The inner loop of computeAssetsDescriptorGlobal.py over one export directory `dir`
      (ending in "/"): for each entry with a numeric id, `<dir><id>.json` is read (whatever the
      entry's own extension), the id is appended to `skinIds`, and `skins[id]` is replaced. */
  function ScanDirectory(fs: FileSystem, dir: string, entries: seq<string>, d: Descriptor)
    : (r: Result<Descriptor, PyError>)
    ensures r.Ok? <==> forall id :: id in NumericIds(entries) ==> ReadSkin(fs, dir + id + ".json").Ok?
    ensures r.Ok? ==> r.value.skinIds == d.skinIds + NumericIds(entries)
    ensures r.Ok? ==> forall id :: id in r.value.skins <==> id in d.skins || id in NumericIds(entries)
    ensures r.Ok? ==> forall id :: id in NumericIds(entries) ==>
              id in r.value.skins && r.value.skins[id] == ReadSkin(fs, dir + id + ".json").value
    ensures r.Ok? ==> forall id :: id in d.skins && id !in NumericIds(entries) ==>
              id in r.value.skins && r.value.skins[id] == d.skins[id]
    decreases |entries|
  {
    if entries == [] then Ok(d)
    else
      var id := FirstField(entries[0], '.');
      var ids := NumericIds(entries);
      assert ids == if IsNumeric(id) then [id] + NumericIds(entries[1..]) else NumericIds(entries[1..]);
      if IsNumeric(id) then
        var names :- ReadSkin(fs, dir + id + ".json");
        var next := Descriptor(d.skinIds + [id], d.skins[id := names]);
        assert d.skinIds + ids == next.skinIds + NumericIds(entries[1..]);
        ScanDirectory(fs, dir, entries[1..], next)
      else
        ScanDirectory(fs, dir, entries[1..], d)
  }

  /** The ids one top-level item contributes: the numeric ids of `<root><item>/`, none when it
      is not a directory. */
  function ItemIds(fs: FileSystem, root: string, item: string): seq<string> {
    var dir := root + item + "/";
    if dir in fs.dirs then NumericIds(fs.dirs[dir]) else []
  }

  /** The ids of the top-level items, item after item. */
  function ExportIds(fs: FileSystem, root: string, items: seq<string>): seq<string>
    decreases |items|
  {
    if items == [] then [] else ItemIds(fs, root, items[0]) + ExportIds(fs, root, items[1..])
  }

  /** An id is exported exactly when some item lists it. */
  lemma {:induction false} InExportIds(fs: FileSystem, root: string, items: seq<string>, id: string)
    ensures id in ExportIds(fs, root, items) <==>
              exists j :: 0 <= j < |items| && id in ItemIds(fs, root, items[j])
    decreases |items|
  {
    if items != [] {
      InExportIds(fs, root, items[1..], id);
      assert forall j :: 1 <= j < |items| ==> items[j] == items[1..][j - 1];
      if id in ExportIds(fs, root, items[1..]) {
        var j :| 0 <= j < |items[1..]| && id in ItemIds(fs, root, items[1..][j]);
        assert id in ItemIds(fs, root, items[j + 1]);
      }
    }
  }

  /** A top-level item the loop gets through: a directory whose every numeric id has a readable
      `<id>.json`. */
  predicate Scannable(fs: FileSystem, root: string, item: string) {
    var dir := root + item + "/";
    dir in fs.dirs && forall id :: id in NumericIds(fs.dirs[dir]) ==> ReadSkin(fs, dir + id + ".json").Ok?
  }

  /** Item `i` is the last to list `id`, so its read of `<id>.json` is the one `skins` keeps. */
  predicate LastListing(fs: FileSystem, root: string, items: seq<string>, id: string, i: int) {
    && 0 <= i < |items| && id in ItemIds(fs, root, items[i])
    && forall j :: i < j < |items| ==> id !in ItemIds(fs, root, items[j])
  }

  /** The outer loop over the original top-level listing (rebinding `all_items` inside the
      loop does not change what the loop walks): each item is listed as `<root><item>/` and
      scanned. The first item that is not a directory, or whose scan fails, aborts. */
  function ScanExport(fs: FileSystem, root: string, items: seq<string>, d: Descriptor)
    : (r: Result<Descriptor, PyError>)
    ensures r.Ok? <==> forall i :: 0 <= i < |items| ==> Scannable(fs, root, items[i])
    ensures r.Ok? ==> r.value.skinIds == d.skinIds + ExportIds(fs, root, items)
    decreases |items|
  {
    if items == [] then Ok(d)
    else
      var dir := root + items[0] + "/";
      ScannableSplit(fs, root, items);
      // `os.listdir(dir)` raises when `dir` is not a directory
      if dir !in fs.dirs then
        assert !Scannable(fs, root, items[0]);
        Err(NoSuchDirectory(dir))
      else
        var next :- ScanDirectory(fs, dir, fs.dirs[dir], d);
        ScanExportCons(fs, root, items, d, next);
        ScanExport(fs, root, items[1..], next)
  }

  /** After the first item's directory is scanned, the ids still to come are the rest's. */
  lemma ScanExportCons(fs: FileSystem, root: string, items: seq<string>, d: Descriptor,
                       next: Descriptor)
    requires items != [] && root + items[0] + "/" in fs.dirs
    requires next.skinIds == d.skinIds + NumericIds(fs.dirs[root + items[0] + "/"])
    ensures d.skinIds + ExportIds(fs, root, items) == next.skinIds + ExportIds(fs, root, items[1..])
  {
    var entries := fs.dirs[root + items[0] + "/"];
    assert ItemIds(fs, root, items[0]) == NumericIds(entries);
    var rest := ExportIds(fs, root, items[1..]);
    assert ExportIds(fs, root, items) == NumericIds(entries) + rest;
    assert d.skinIds + (NumericIds(entries) + rest) == (d.skinIds + NumericIds(entries)) + rest;
  }

  /** Every item is scannable exactly when the first one and every later one are. */
  lemma ScannableSplit(fs: FileSystem, root: string, items: seq<string>)
    requires items != []
    ensures (forall i :: 0 <= i < |items| ==> Scannable(fs, root, items[i]))
            <==> Scannable(fs, root, items[0])
                 && forall i :: 0 <= i < |items[1..]| ==> Scannable(fs, root, items[1..][i])
  {
    assert forall i :: 1 <= i < |items| ==> items[i] == items[1..][i - 1];
  }

  /** Every exported id is numeric. */
  lemma {:induction false} ExportIdsNumeric(fs: FileSystem, root: string, items: seq<string>)
    ensures forall id :: id in ExportIds(fs, root, items) ==> IsNumeric(id)
    decreases |items|
  {
    if items != [] {
      ExportIdsNumeric(fs, root, items[1..]);
    }
  }

  /** The outer loop keeps `skinIds` and the keys of `skins` in step, and lists numeric ids
      only, when the descriptor it starts from does. */
  lemma ScanExportConsistent(fs: FileSystem, root: string, items: seq<string>, d: Descriptor)
    requires ScanExport(fs, root, items, d).Ok?
    ensures Consistent(d) ==> Consistent(ScanExport(fs, root, items, d).value)
    ensures (forall id :: id in d.skinIds ==> IsNumeric(id)) ==>
              forall id :: id in ScanExport(fs, root, items, d).value.skinIds ==> IsNumeric(id)
  {
    ExportIdsNumeric(fs, root, items);
    ScanExportKeys(fs, root, items, d);
  }

  /** The outer loop gives `skins` a key for every exported id and keeps every key the
      descriptor already had, with its entry untouched unless some item lists the id again. */
  lemma {:induction false} ScanExportKeys(fs: FileSystem, root: string, items: seq<string>,
                                          d: Descriptor)
    requires ScanExport(fs, root, items, d).Ok?
    ensures var r := ScanExport(fs, root, items, d).value;
      forall id :: id in r.skins <==> id in d.skins || id in ExportIds(fs, root, items)
    ensures var r := ScanExport(fs, root, items, d).value;
      forall id :: id in d.skins && id !in ExportIds(fs, root, items) ==>
        id in r.skins && r.skins[id] == d.skins[id]
    decreases |items|
  {
    if items != [] {
      var dir := root + items[0] + "/";
      var entries := fs.dirs[dir];
      var next := ScanDirectory(fs, dir, entries, d).value;
      var tail := items[1..];
      assert ScanExport(fs, root, items, d) == ScanExport(fs, root, tail, next);
      ScanExportKeys(fs, root, tail, next);
      assert ExportIds(fs, root, items) == NumericIds(entries) + ExportIds(fs, root, tail);
    }
  }

  /** In the descriptor the outer loop builds, each exported id's animation names are the ones
      read from the last item that lists it. */
  lemma {:induction false} ScanExportLastRead(fs: FileSystem, root: string, items: seq<string>,
                                              d: Descriptor)
    requires ScanExport(fs, root, items, d).Ok?
    ensures var r := ScanExport(fs, root, items, d).value;
      forall id :: id in ExportIds(fs, root, items) ==>
        exists i :: LastListing(fs, root, items, id, i) && id in r.skins
          && r.skins[id] == ReadSkin(fs, root + items[i] + "/" + id + ".json").value
    decreases |items|
  {
    if items != [] {
      var r := ScanExport(fs, root, items, d).value;
      var dir := root + items[0] + "/";
      var entries := fs.dirs[dir];
      var next := ScanDirectory(fs, dir, entries, d).value;
      var tail := items[1..];
      assert ScanExport(fs, root, items, d) == ScanExport(fs, root, tail, next);
      ScanExportLastRead(fs, root, tail, next);
      ScanExportKeys(fs, root, tail, next);
      forall id | id in ExportIds(fs, root, items)
        ensures exists i :: LastListing(fs, root, items, id, i) && id in r.skins
                  && r.skins[id] == ReadSkin(fs, root + items[i] + "/" + id + ".json").value
      {
        if id in ExportIds(fs, root, tail) {
          var k :| LastListing(fs, root, tail, id, k) && id in r.skins
                   && r.skins[id] == ReadSkin(fs, root + tail[k] + "/" + id + ".json").value;
          LastListingLater(fs, root, items, id, k);
        } else {
          assert id in NumericIds(entries);
          LastListingFirst(fs, root, items, id);
        }
      }
    }
  }

  /** The last item of the tail to list an id is the last item of the whole listing to. */
  lemma LastListingLater(fs: FileSystem, root: string, items: seq<string>, id: string, k: int)
    requires items != [] && LastListing(fs, root, items[1..], id, k)
    ensures LastListing(fs, root, items, id, k + 1) && items[k + 1] == items[1..][k]
  {
    assert forall j :: k + 1 < j < |items| ==> items[j] == items[1..][j - 1];
  }

  /** The first item is the last to list an id that no later item lists. */
  lemma LastListingFirst(fs: FileSystem, root: string, items: seq<string>, id: string)
    requires items != [] && id in ItemIds(fs, root, items[0])
    requires id !in ExportIds(fs, root, items[1..])
    ensures LastListing(fs, root, items, id, 0)
  {
    InExportIds(fs, root, items[1..], id);
    assert forall j :: 0 < j < |items| ==> items[j] == items[1..][j - 1];
  }

  /** computeAssetsDescriptorGlobal.py over the export directory `root` (ending in "/"):
      `skinIds` is every numeric id of every item's directory, in listing order and repeats
      kept, and `skins` holds one entry per id. */
  function ComputeAssetsDescriptorGlobal(fs: FileSystem, root: string): (r: Result<Descriptor, PyError>)
    ensures r.Ok? <==> root in fs.dirs && forall i :: 0 <= i < |fs.dirs[root]| ==> Scannable(fs, root, fs.dirs[root][i])
    ensures r.Ok? ==> r.value.skinIds == ExportIds(fs, root, fs.dirs[root])
    ensures r.Ok? ==> forall id :: id in ExportIds(fs, root, fs.dirs[root]) ==>
              exists i :: LastListing(fs, root, fs.dirs[root], id, i) && id in r.value.skins
                && r.value.skins[id] == ReadSkin(fs, root + fs.dirs[root][i] + "/" + id + ".json").value
    ensures r.Ok? ==> root in fs.dirs && forall item :: item in fs.dirs[root] ==> root + item + "/" in fs.dirs
    ensures r.Ok? ==> Consistent(r.value)
    ensures r.Ok? ==> forall id :: id in r.value.skinIds ==> IsNumeric(id)
  {
    var items :- ListDir(fs, root);
    var r := ScanExport(fs, root, items, Empty);
    if r.Ok? then
      ScanExportLastRead(fs, root, items, Empty);
      ScanExportConsistent(fs, root, items, Empty);
      r
    else r
  }

  /** A skin definition with the single animation "idle". */
  const IdleDefinition: Json :=
    JObj(map["animations" := JObj(map["Array" := JArr([JObj(map["name" := JStr("idle")])])])])

  lemma IdleDefinitionNames()
    ensures AnimationNames(IdleDefinition) == Ok([JStr("idle")])
  {
    var anim := JObj(map["name" := JStr("idle")]);
    assert HasAnimationList(IdleDefinition);
    assert AnimationList(IdleDefinition) == [anim];
    assert anim.JObj? && "name" in anim.fields && anim.fields["name"] == JStr("idle");
    var r := AnimationNames(IdleDefinition);
    assert r.Ok? && |r.value| == 1 && r.value[0] == JStr("idle");
    assert r.value == [JStr("idle")];
  }

  /** "123.json" and "123.png" both give the id "123". */
  lemma SameIdTwice()
    ensures NumericIds(["123.json", "123.png"]) == ["123", "123"]
  {
    FirstFieldUnique("123.json", '.', "123");
    FirstFieldUnique("123.png", '.', "123");
    assert IsNumeric("123");
    assert NumericIds(["123.json", "123.png"]) == ["123"] + NumericIds(["123.png"]);
  }

  lemma IdleSkinRead(fs: FileSystem, dir: string)
    requires dir + "123.json" in fs.files && fs.files[dir + "123.json"] == Some(IdleDefinition)
    ensures ReadSkin(fs, dir + "123" + ".json") == Ok([JStr("idle")])
  {
    IdleDefinitionNames();
    assert dir + "123" + ".json" == dir + "123.json";
    assert Load(fs, dir + "123.json") == Ok(IdleDefinition);
  }

  /** A skin folder holding "123.json" and "123.png": the definition is read twice and the
      id is listed twice, with one `skins` entry. */
  lemma DuplicateIdsListedTwice(fs: FileSystem, dir: string, entries: seq<string>)
    requires dir + "123.json" in fs.files && fs.files[dir + "123.json"] == Some(IdleDefinition)
    requires entries == ["123.json", "123.png"]
    ensures ScanDirectory(fs, dir, entries, Empty)
              == Ok(Descriptor(["123", "123"], map["123" := [JStr("idle")]]))
  {
    DuplicateScanSucceeds(fs, dir, entries);
    var ids := NumericIds(entries);
    var r := ScanDirectory(fs, dir, entries, Empty);
    assert r.value.skinIds == Empty.skinIds + ids;
    var m := r.value.skins;
    forall k
      ensures k in m <==> k == "123"
    {
      assert k in ids <==> k == "123";
    }
    SingletonMap(m, "123", [JStr("idle")]);
    assert m == map["123" := [JStr("idle")]];
    assert r.value.skinIds == ["123", "123"];
    assert r.value == Descriptor(["123", "123"], map["123" := [JStr("idle")]]);
  }

  /** Both entries name the readable "123.json", so the scan succeeds, listing "123" alone. */
  lemma DuplicateScanSucceeds(fs: FileSystem, dir: string, entries: seq<string>)
    requires dir + "123.json" in fs.files && fs.files[dir + "123.json"] == Some(IdleDefinition)
    requires entries == ["123.json", "123.png"]
    ensures NumericIds(entries) == ["123", "123"]
    ensures ReadSkin(fs, dir + "123" + ".json") == Ok([JStr("idle")])
    ensures ScanDirectory(fs, dir, entries, Empty).Ok?
  {
    SameIdTwice();
    IdleSkinRead(fs, dir);
  }

  /** A map whose only key is `k` is the one-entry map of `k`. */
  lemma SingletonMap(m: map<string, seq<Json>>, k: string, v: seq<Json>)
    requires forall x :: x in m <==> x == k
    requires k in m && m[k] == v
    ensures m == map[k := v]
  {
  }

  // ----- completeMonstersNameToAssetsDescriptor.py -----------------------------------

  const I18nPath: string := "./resources/fr.i18n.json"
  const MonstersRootPath: string := "./resources/MonstersRoot.json"

  function DigitChar(d: nat): char
    requires d < 10
  {
    ('0' as int + d) as char
  }

  /** Python's `str` of a non-negative integer: its decimal digits, no leading zero. */
  function Digits(n: nat): (s: string)
    ensures |s| >= 1 && forall i :: 0 <= i < |s| ==> IsDigit(s[i])
    ensures |s| > 1 ==> s[0] != '0'
    decreases n
  {
    if n < 10 then [DigitChar(n)] else Digits(n / 10) + [DigitChar(n % 10)]
  }

  /** The value of a string of decimal digits. */
  function DigitsValue(s: string): nat
    requires forall i :: 0 <= i < |s| ==> IsDigit(s[i])
    decreases |s|
  {
    if s == [] then 0
    else
      assert IsDigit(s[|s| - 1]);
      DigitsValue(s[..|s| - 1]) * 10 + (s[|s| - 1] as int - '0' as int)
  }

  lemma {:induction false} DigitsRoundTrip(n: nat)
    ensures DigitsValue(Digits(n)) == n
    decreases n
  {
    if n >= 10 {
      DigitsRoundTrip(n / 10);
      var s := Digits(n);
      assert s[..|s| - 1] == Digits(n / 10);
    }
  }

  /** Python's `str` of an integer. */
  function DecimalString(n: int): (s: string)
    ensures IsNumeric(s) <==> n >= 0
  {
    if n < 0 then
      var s := "-" + Digits(-n);
      assert !IsDigit(s[0]);
      s
    else Digits(n)
  }

  /** Python's `int` of a string of the shape `str` produces. */
  function ParseDecimal(s: string): Option<int> {
    if |s| > 0 && s[0] == '-' then
      if IsNumeric(s[1..]) then Some(0 - DigitsValue(s[1..]) as int) else None
    else if IsNumeric(s) then Some(DigitsValue(s))
    else None
  }

  /** `int(str(n)) == n`: the key looked up is the name id written in decimal. */
  lemma DecimalRoundTrip(n: int)
    ensures ParseDecimal(DecimalString(n)) == Some(n)
  {
    if n < 0 {
      NegativeDecimalRoundTrip(n);
    } else {
      var d := Digits(n);
      assert IsDigit(d[0]);
      DigitsRoundTrip(n);
    }
  }

  /** A negative number reads back through its minus sign and the digits after it. */
  lemma NegativeDecimalRoundTrip(n: int)
    requires n < 0
    ensures ParseDecimal(DecimalString(n)) == Some(n)
  {
    var d := Digits(-n);
    var s := "-" + d;
    assert s == DecimalString(n);
    assert s[0] == '-' && s[1..] == d;
    DigitsRoundTrip(-n);
    assert ParseDecimal(s) == Some(0 - DigitsValue(d) as int);
  }

  /** Python's `str` of a JSON value. The text of a list or dict is Python's `repr`, which the
      model takes as the parameter `repr`. */
  function Str(j: Json, repr: Json -> string): (s: string)
    ensures j.JNum? ==> ParseDecimal(s) == Some(j.n)
    ensures j.JStr? ==> s == j.s
  {
    match j
    case JNull => "None"
    case JBool(b) => if b then "True" else "False"
    case JNum(n) => DecimalRoundTrip(n); DecimalString(n)
    case JStr(s) => s
    case _ => repr(j)
  }

  /** `look[1:].split("|")[0]`: a string `look` without its first character, up to the first
      "|". Slicing an empty string gives the empty string. */
  function SkinIdOfLook(look: Json): (r: Result<string, PyError>)
    ensures r.Ok? <==> look.JStr?
    ensures r.Ok? ==> '|' !in r.value
    ensures r.Ok? && |look.s| > 0 ==> 1 + |r.value| <= |look.s| && r.value == look.s[1..1 + |r.value|]
    ensures r.Ok? && |look.s| > 0 && 1 + |r.value| < |look.s| ==> look.s[1 + |r.value|] == '|'
    ensures r.Ok? && |look.s| <= 1 ==> r.value == ""
  {
    if !look.JStr? then Err(WrongType)
    else
      var rest := if |look.s| == 0 then "" else look.s[1..];
      Ok(FirstField(rest, '|'))
  }

  lemma SkinIdOfLookExamples()
    ensures SkinIdOfLook(JStr("#12345|extra|data")) == Ok("12345")
    ensures SkinIdOfLook(JStr("{1234|x")) == Ok("1234")
    ensures SkinIdOfLook(JStr("{1234")) == Ok("1234")
  {
    FirstFieldUnique("12345|extra|data", '|', "12345");
    FirstFieldUnique("1234|x", '|', "1234");
    FirstFieldUnique("1234", '|', "1234");
  }

  /** A reference-table entry the loop can turn into a record, with the name it is given and
      its look. */
  predicate Resolvable(mob: Element, i18n: Json, repr: Json -> string) {
    && i18n.JObj? && "entries" in i18n.fields && i18n.fields["entries"].JObj?
    && mob.Value? && mob.json.JObj? && "data" in mob.json.fields
    && var data := mob.json.fields["data"];
    && data.JObj? && "nameId" in data.fields && "look" in data.fields
    && Str(data.fields["nameId"], repr) in i18n.fields["entries"].fields
    && data.fields["look"].JStr?
  }

  /** The record built for one reference-table entry:
      `{"name": i18n["entries"][str(mob["data"]["nameId"])], "skinId": <skin id of the look>}`. */
  function MonsterRecord(mob: Element, i18n: Json, repr: Json -> string): (r: Result<Json, PyError>)
    ensures r.Ok? <==> Resolvable(mob, i18n, repr)
    ensures r.Ok? ==> r.value.JObj? && r.value.fields.Keys == {"name", "skinId"}
    ensures r.Ok? ==>
              var data := mob.json.fields["data"];
              && r.value.fields["name"] == i18n.fields["entries"].fields[Str(data.fields["nameId"], repr)]
              && r.value.fields["skinId"] == JStr(SkinIdOfLook(data.fields["look"]).value)
  {
    var entries :- Get(i18n, "entries");
    var data :- GetIn(mob, "data");
    var nameId :- Get(data, "nameId");
    var name :- Get(entries, Str(nameId, repr));
    var look :- Get(data, "look");
    var skinId :- SkinIdOfLook(look);
    Ok(JObj(map["name" := name, "skinId" := JStr(skinId)]))
  }

  /** The loop of completeMonstersNameToAssetsDescriptor.py: one record per entry, in order;
      the first entry that cannot be resolved aborts. */
  function MonsterRecords(mobs: seq<Element>, i18n: Json, repr: Json -> string)
    : (r: Result<seq<Json>, PyError>)
    ensures r.Ok? <==> forall i :: 0 <= i < |mobs| ==> Resolvable(mobs[i], i18n, repr)
    ensures r.Ok? ==> |r.value| == |mobs|
    ensures r.Ok? ==> forall i :: 0 <= i < |mobs| ==> r.value[i] == MonsterRecord(mobs[i], i18n, repr).value
    decreases |mobs|
  {
    if mobs == [] then Ok([])
    else
      var record :- MonsterRecord(mobs[0], i18n, repr);
      var rest :- MonsterRecords(mobs[1..], i18n, repr);
      assert forall i :: 1 <= i < |mobs| ==> mobs[i] == mobs[1..][i - 1];
      Ok([record] + rest)
  }

  /** `monstersRoot["references"]["RefIds"]`, as the loop walks it. */
  function ReferenceTable(monstersRoot: Json): (r: Result<seq<Element>, PyError>)
    ensures r.Ok? <==>
              && monstersRoot.JObj? && "references" in monstersRoot.fields
              && var references := monstersRoot.fields["references"];
              && references.JObj? && "RefIds" in references.fields
              && Iterate(references.fields["RefIds"]).Ok?
    ensures r.Ok? ==> r == Iterate(monstersRoot.fields["references"].fields["RefIds"])
  {
    var references :- Get(monstersRoot, "references");
    var refIds :- Get(references, "RefIds");
    Iterate(refIds)
  }

  /** completeMonstersNameToAssetsDescriptor.py: the descriptor's `skinIds` is replaced by the
      records of the reference table, one per entry and in its order; every other key is
      written back unchanged. It fails exactly when a file is missing or malformed, the
      descriptor is not a dict, the table cannot be reached, or an entry cannot be resolved. */
  function CompleteMonstersNames(fs: FileSystem, repr: Json -> string): (r: Result<Json, PyError>)
    ensures r.Ok? <==>
              && Load(fs, DescriptorPath).Ok? && Load(fs, DescriptorPath).value.JObj?
              && Load(fs, I18nPath).Ok? && Load(fs, MonstersRootPath).Ok?
              && var mobs := ReferenceTable(Load(fs, MonstersRootPath).value);
              && mobs.Ok?
              && forall i :: 0 <= i < |mobs.value| ==> Resolvable(mobs.value[i], Load(fs, I18nPath).value, repr)
    ensures r.Ok? ==> r.value.JObj?
    ensures r.Ok? ==> r.value.fields.Keys == Load(fs, DescriptorPath).value.fields.Keys + {"skinIds"}
    ensures r.Ok? ==> forall key :: key in Load(fs, DescriptorPath).value.fields && key != "skinIds" ==>
              r.value.fields[key] == Load(fs, DescriptorPath).value.fields[key]
    ensures r.Ok? ==>
              var mobs := ReferenceTable(Load(fs, MonstersRootPath).value).value;
              var records := MonsterRecords(mobs, Load(fs, I18nPath).value, repr);
              records.Ok? && r.value.fields["skinIds"] == JArr(records.value)
    ensures r.Ok? ==> r.value.fields["skinIds"].JArr?
    ensures r.Ok? ==> forall record :: record in r.value.fields["skinIds"].items ==>
                        record.JObj? && record.fields.Keys == {"name", "skinId"}
  {
    var descriptor :- Load(fs, DescriptorPath);
    if !descriptor.JObj? then Err(WrongType)
    else
      var i18n :- Load(fs, I18nPath);
      var monstersRoot :- Load(fs, MonstersRootPath);
      var mobs :- ReferenceTable(monstersRoot);
      var records :- MonsterRecords(mobs, i18n, repr);
      Ok(JObj(descriptor.fields["skinIds" := JArr(records)]))
  }

  /** Running the global scan and then the name completion on the file it wrote keeps the
      scan's `skins` and turns its `skinIds` into the records. */
  lemma CompletionKeepsSkins(fs: FileSystem, root: string, repr: Json -> string)
    requires ComputeAssetsDescriptorGlobal(fs, root).Ok?
    ensures var d := ComputeAssetsDescriptorGlobal(fs, root).value;
      var written := Write(fs, DescriptorPath, ToJson(d));
      CompleteMonstersNames(written, repr).Ok? ==>
        CompleteMonstersNames(written, repr).value.fields["skins"] == ToJson(d).fields["skins"]
  {
    var d := ComputeAssetsDescriptorGlobal(fs, root).value;
    var written := Write(fs, DescriptorPath, ToJson(d));
    assert Load(written, DescriptorPath) == Ok(ToJson(d));
  }
}

=== FILE: frames.dfy ===
/** Frame assembly in the two AnimationRenderer files (src/AnimationRenderer.ts and
    js/AnimationRenderer.js): replaying the node records of earlier frames, walking the records
    of the current frame, and growing the vertex list, the triangle-index list and the mesh
    list chunk by chunk.

    The renderer keeps these lists in fields and mutates them; here `ComputeFrame` returns them
    in a `Frame` value. The floating-point part of `transformVertex` (the matrix product and
    the alpha-scaled colour) is not modelled: it is the parameter `place`, which yields the new
    position and multiplicative colour of a vertex under a render state. */
module Frames {
  import opened Bytes
  import opened Results
  import opened Sequences
  import opened Vectors
  import opened Bounding
  import opened RenderStates
  import Ts = RenderStatesTs
  import Js = RenderStatesJs
  import AnimationInstances

  /** Which of the two renderers is meant. */
  datatype Variant = TypeScript | JavaScript

  /** A skin vertex (src/definitions/SkinAsset.ts). */
  datatype Vertex = Vertex(pos: Vector2, uv: Vector2, multiplicativeColor: int, additiveColor: int)

  /** A skin chunk: a range of the base vertices and a range of the base triangle indices. */
  datatype SkinChunk = SkinChunk(startVertexIndex: nat, vertexCount: nat,
                                 startIndexIndex: nat, indexCount: nat)

  /** A part of the skin, the value a sprite index selects. */
  datatype Part = Part(chunks: seq<SkinChunk>)

  /** The loaded skin asset: its parts in the order `Object.values(entries)` lists them, the
      base vertex buffer and the base triangle indices. */
  datatype Skin = Skin(parts: seq<Part>, vertices: seq<Vertex>, triangles: seq<int>)

  /** Every chunk of every part addresses vertices and indices that exist. */
  predicate WellFormedSkin(skin: Skin) {
    forall part <- skin.parts, chunk <- part.chunks :: ChunkFits(skin, chunk)
  }

  predicate ChunkFits(skin: Skin, chunk: SkinChunk) {
    && chunk.startVertexIndex + chunk.vertexCount <= |skin.vertices|
    && chunk.startIndexIndex + chunk.indexCount <= |skin.triangles|
  }

  /** The floating-point part of `transformVertex`: new position and multiplicative colour. */
  type Placement = (RenderState, Vertex) -> (Vector2, int)

  /** A mesh pushed for one chunk: its node, the part index, the chunk, its vertices and its
      chunk-local triangle indices. The source's mesh also holds the node's render state
      object itself, which later records of the same frame keep mutating; it is
      `states[nodeNum]` of the finished frame and is not copied here. */
  datatype Mesh = Mesh(nodeNum: nat, part: nat, chunk: SkinChunk, vertices: seq<Vertex>,
                       indices: seq<int>)

  /** What `computeFrame` leaves behind: the render states, the three lists, the frame bounds
      (`None` once a chunk without vertices has turned them into NaN) and the number of node
      records read. */
  datatype Frame = Frame(states: seq<RenderState>, vertexBuffer: seq<Vertex>,
                         triangleIndices: seq<int>, meshes: seq<Mesh>, bounds: Option<Bounds>,
                         records: nat)

  /** The exceptions the frame walk can raise: a DataView RangeError for the node number, a
      node number with no render state, or an exception of `compute`. */
  datatype FrameError = RangeError | NoRenderState(node: nat) | RecordError(error: Error)

  // ----- Index and vertex lists -----

  /** `source[start + i] + offset` for every `i < count`. */
  function OffsetRange(source: seq<int>, start: nat, count: nat, offset: int): seq<int>
    requires start + count <= |source|
  {
    seq(count, i requires 0 <= i < count => source[start + i] + offset)
  }

  /** Every element moved by `k`. */
  function Shift(xs: seq<int>, k: int): seq<int> {
    seq(|xs|, i requires 0 <= i < |xs| => xs[i] + k)
  }

  /** `offsetIndicesIntoList`, with its push loop: the destination grows by exactly
      `indexCount` values, `source[i] + offset` for `i` from `startIndex` on, in order, and its
      existing entries are untouched. */
  method OffsetIndicesIntoList(destination: seq<int>, source: seq<int>, startIndex: nat,
                               indexCount: nat, offset: int) returns (r: seq<int>)
    requires startIndex + indexCount <= |source|
    ensures |r| == |destination| + indexCount
    ensures r[..|destination|] == destination
    ensures forall k :: |destination| <= k < |r| ==> r[k] == source[startIndex + k - |destination|] + offset
    ensures r == destination + OffsetRange(source, startIndex, indexCount, offset)
  {
    r := destination;
    var num := startIndex + indexCount;
    var i := startIndex;
    while i < num
      invariant startIndex <= i <= num
      invariant r == destination + OffsetRange(source, startIndex, i - startIndex, offset)
    {
      ghost var before := OffsetRange(source, startIndex, i - startIndex, offset);
      assert OffsetRange(source, startIndex, i + 1 - startIndex, offset) == before + [source[i] + offset];
      r := r + [source[i] + offset];
      i := i + 1;
    }
  }

  /** Offsetting a range by `k` is offsetting it by 0 and then shifting by `k`. */
  lemma ShiftOfOffset(source: seq<int>, start: nat, count: nat, k: int)
    requires start + count <= |source|
    ensures OffsetRange(source, start, count, k) == Shift(OffsetRange(source, start, count, 0), k)
  {
  }

  /** `transformVertex`'s structure: a vertex with the placed position and colour that keeps
      the source vertex's `uv` and `additiveColor`. */
  function TransformVertex(place: Placement, s: RenderState, v: Vertex): (r: Vertex)
    ensures r.uv == v.uv && r.additiveColor == v.additiveColor
    ensures (r.pos, r.multiplicativeColor) == place(s, v)
  {
    var (pos, color) := place(s, v);
    Vertex(pos, v.uv, color, v.additiveColor)
  }

  /** The vertices `transformVerticesIntoList` pushes: one per base vertex of the range, in
      order. */
  function TransformRange(place: Placement, s: RenderState, base: seq<Vertex>, start: nat,
                          count: nat): (r: seq<Vertex>)
    requires start + count <= |base|
    ensures |r| == count
    ensures forall i :: 0 <= i < count ==> r[i] == TransformVertex(place, s, base[start + i])
  {
    seq(count, i requires 0 <= i < count => TransformVertex(place, s, base[start + i]))
  }

  function Positions(vs: seq<Vertex>): (ps: seq<Vector2>)
    ensures |ps| == |vs| && forall i :: 0 <= i < |vs| ==> ps[i] == vs[i].pos
  {
    seq(|vs|, i requires 0 <= i < |vs| => vs[i].pos)
  }

  // ----- Chunk bounds -----

  /** The running `Vector2.Min` of the loop in `transformVerticesIntoList`, started from
      +infinity; defined for non-empty lists, where the infinity never survives. */
  function Lowest(ps: seq<Vector2>): Vector2
    requires |ps| > 0
  {
    if |ps| == 1 then ps[0] else Min(Lowest(ps[..|ps| - 1]), ps[|ps| - 1])
  }

  /** The running `Vector2.Max`, started from -infinity. */
  function Highest(ps: seq<Vector2>): Vector2
    requires |ps| > 0
  {
    if |ps| == 1 then ps[0] else Max(Highest(ps[..|ps| - 1]), ps[|ps| - 1])
  }

  /** Every point lies between the running minimum and the running maximum. */
  lemma {:induction false} ExtremesEnclose(ps: seq<Vector2>)
    requires |ps| > 0
    ensures forall i :: 0 <= i < |ps| ==>
              Lowest(ps).x <= ps[i].x <= Highest(ps).x && Lowest(ps).y <= ps[i].y <= Highest(ps).y
  {
    if |ps| > 1 {
      var front := ps[..|ps| - 1];
      ExtremesEnclose(front);
      assert forall i :: 0 <= i < |front| ==> front[i] == ps[i];
    }
  }

  /** Each coordinate of the running extremes is attained by some point, so the box spanned by
      them is the smallest one holding the points. */
  lemma {:induction false} ExtremesAttained(ps: seq<Vector2>)
    requires |ps| > 0
    ensures (exists i :: 0 <= i < |ps| && ps[i].x == Lowest(ps).x)
            && (exists i :: 0 <= i < |ps| && ps[i].y == Lowest(ps).y)
    ensures (exists i :: 0 <= i < |ps| && ps[i].x == Highest(ps).x)
            && (exists i :: 0 <= i < |ps| && ps[i].y == Highest(ps).y)
  {
    if |ps| > 1 {
      var front := ps[..|ps| - 1];
      ExtremesAttained(front);
      assert forall i :: 0 <= i < |front| ==> front[i] == ps[i];
      var last := |ps| - 1;
      assert ps[last].x == Lowest(ps).x || Lowest(ps).x == Lowest(front).x;
      assert ps[last].y == Lowest(ps).y || Lowest(ps).y == Lowest(front).y;
      assert ps[last].x == Highest(ps).x || Highest(ps).x == Highest(front).x;
      assert ps[last].y == Highest(ps).y || Highest(ps).y == Highest(front).y;
    } else {
      assert ps[0] == Lowest(ps) && ps[0] == Highest(ps);
    }
  }

  /** The box spanned by two ordered corners reports exactly those corners. */
  lemma SpannedBox(lo: Vector2, hi: Vector2)
    requires lo.x <= hi.x && lo.y <= hi.y
    ensures NonNegative(FromCorners(lo, hi))
    ensures JsMin(FromCorners(lo, hi)) == lo && JsMax(FromCorners(lo, hi)) == hi
  {
    CornersRoundTrip(lo, hi, FromCorners(lo, hi));
  }

  /** The box `transformVerticesIntoList` returns, as written: centre `(min + max) / 2` and size
      `max - centre`, which is half the extent. For an empty range the running extremes stay
      infinite and the box is NaN, here `None`. */
  function AsWrittenChunkBounds(ps: seq<Vector2>): (r: Option<Bounds>)
    ensures r.None? <==> |ps| == 0
  {
    if |ps| == 0 then None
    else
      var center := Multiply(Add(Lowest(ps), Highest(ps)), 0.5);
      Some(Bounds(center, Subtract(Highest(ps), center)))
  }

  /** The box of the points (0, 0) and (4, 4) as written is centred at (2, 2) with size
      (2, 2): its corners are (1, 1) and (3, 3), so it leaves out both points. */
  lemma AsWrittenChunkBoundsMissesCorners()
    ensures var ps := [Vector2(0.0, 0.0), Vector2(4.0, 4.0)];
      var b := AsWrittenChunkBounds(ps).value;
      && b == Bounds(Vector2(2.0, 2.0), Vector2(2.0, 2.0))
      && JsMin(b) == Vector2(1.0, 1.0) && JsMax(b) == Vector2(3.0, 3.0)
      && TsMin(b) == Vector2(1.0, 1.0) && TsMax(b) == Vector2(3.0, 3.0)
    ensures ChunkBounds([Vector2(0.0, 0.0), Vector2(4.0, 4.0)]).value
            == Bounds(Vector2(2.0, 2.0), Vector2(4.0, 4.0))
  {
    var ps := [Vector2(0.0, 0.0), Vector2(4.0, 4.0)];
    assert ps[..1] == [ps[0]];
    assert Lowest(ps) == Vector2(0.0, 0.0) && Highest(ps) == Vector2(4.0, 4.0);
  }

  /** The box the renderer evidently means: the one spanned by the running extremes, so that its
      size is the full extent. */
  function ChunkBounds(ps: seq<Vector2>): (r: Option<Bounds>)
    ensures r.None? <==> |ps| == 0
    ensures r.Some? ==> NonNegative(r.value)
    ensures r.Some? ==> forall i :: 0 <= i < |ps| ==>
              JsMin(r.value).x <= ps[i].x <= JsMax(r.value).x
              && JsMin(r.value).y <= ps[i].y <= JsMax(r.value).y
  {
    if |ps| == 0 then None
    else
      ExtremesEnclose(ps);
      SpannedBox(Lowest(ps), Highest(ps));
      Some(FromCorners(Lowest(ps), Highest(ps)))
  }

  /** The corrected box and the written one share their centre; the written size is half the
      corrected size. */
  lemma AsWrittenIsHalfSize(ps: seq<Vector2>)
    requires |ps| > 0
    ensures AsWrittenChunkBounds(ps).value.center == ChunkBounds(ps).value.center
    ensures AsWrittenChunkBounds(ps).value.size == Multiply(ChunkBounds(ps).value.size, 0.5)
  {
  }

  /** Which chunk box the frame box grows by: the one `transformVerticesIntoList` returns as
      written, or the corrected one. */
  datatype Boxing = AsWritten | Corrected

  /** The chunk box under a boxing. Both share the centre of the points' extremes; the
      corrected size is their full extent, the written one half of it. */
  function ChunkBox(b: Boxing, ps: seq<Vector2>): (r: Option<Bounds>)
    ensures r.None? <==> |ps| == 0
    ensures r.Some? ==> NonNegative(r.value)
    ensures r.Some? ==> r.value.center == ChunkBounds(ps).value.center
    ensures r.Some? && b.Corrected? ==> r.value.size == ChunkBounds(ps).value.size
    ensures r.Some? && b.AsWritten? ==> r.value.size == Multiply(ChunkBounds(ps).value.size, 0.5)
  {
    if |ps| == 0 then None
    else if b.Corrected? then ChunkBounds(ps)
    else
      AsWrittenIsHalfSize(ps);
      AsWrittenChunkBounds(ps)
  }

  // ----- Frame bounds -----

  /** The corners a box reports in each variant. */
  function Lo(v: Variant, b: Bounds): Vector2 {
    if v.TypeScript? then TsMin(b) else JsMin(b)
  }

  function Hi(v: Variant, b: Bounds): Vector2 {
    if v.TypeScript? then TsMax(b) else JsMax(b)
  }

  predicate Covers(v: Variant, b: Bounds, p: Vector2) {
    Lo(v, b).x <= p.x <= Hi(v, b).x && Lo(v, b).y <= p.y <= Hi(v, b).y
  }

  /** Whether the corners `inner` reports lie within those `outer` reports. */
  predicate Encloses(v: Variant, outer: Bounds, inner: Bounds) {
    && Lo(v, outer).x <= Lo(v, inner).x && Lo(v, outer).y <= Lo(v, inner).y
    && Hi(v, inner).x <= Hi(v, outer).x && Hi(v, inner).y <= Hi(v, outer).y
  }

  /** `frameBounds.encapsulate(partBounds)`, where a NaN box on either side leaves NaN. */
  function Encapsulate(v: Variant, acc: Option<Bounds>, chunk: Option<Bounds>): (r: Option<Bounds>)
    ensures r.Some? <==> acc.Some? && chunk.Some?
  {
    if acc.None? || chunk.None? then None
    else if v.TypeScript? then Some(TsEncapsulate(acc.value, chunk.value))
    else Some(JsEncapsulate(acc.value, chunk.value))
  }

  /** With non-negative sizes, the encapsulated box is non-negative and covers every point
      either input covered. */
  lemma {:induction false} EncapsulateCovers(v: Variant, a: Bounds, c: Bounds)
    requires NonNegative(a) && NonNegative(c)
    ensures var r := Encapsulate(v, Some(a), Some(c)).value;
      && NonNegative(r)
      && Lo(v, r) == Min(Lo(v, a), Lo(v, c)) && Hi(v, r) == Max(Hi(v, a), Hi(v, c))
  {
    var r := Encapsulate(v, Some(a), Some(c)).value;
    if v.TypeScript? {
      TsEncapsulateCorners(a, c);
      TsExtent(a);
      TsExtent(c);
      TsExtent(r);
    } else {
      CornersRoundTrip(JsMin(a), JsMax(a), a);
      CornersRoundTrip(JsMin(c), JsMax(c), c);
      CornersRoundTrip(JsMin(r), JsMax(r), r);
    }
  }

  /** Encapsulating two non-negative boxes gives a non-negative box enclosing both. */
  lemma EncapsulateEncloses(v: Variant, a: Bounds, c: Bounds)
    requires NonNegative(a) && NonNegative(c)
    ensures var r := Encapsulate(v, Some(a), Some(c)).value;
      NonNegative(r) && Encloses(v, r, a) && Encloses(v, r, c)
  {
    EncapsulateCovers(v, a, c);
  }

  /** Enclosure is transitive. */
  lemma EnclosesTransitive(v: Variant, x: Bounds, y: Bounds, z: Bounds)
    requires Encloses(v, x, y) && Encloses(v, y, z)
    ensures Encloses(v, x, z)
  {
  }

  // ----- Node records -----

  /** `new DataView(bytes, dataPosition).getUint16(0, true)`: a RangeError unless two bytes
      exist at a non-negative position. */
  function ReadNode(data: seq<byte>, pos: int): (r: Result<nat, FrameError>)
    ensures r.Ok? <==> 0 <= pos && pos + 2 <= |data|
    ensures r.Err? ==> r.error == RangeError
    ensures r.Ok? ==> r.value < 0x1_0000 && r.value == data[pos] as int + 256 * (data[pos + 1] as int)
  {
    if pos < 0 || pos + 2 > |data| then Err(RangeError)
    else
      U16Lanes(data, pos);
      Ok(U16(data, pos))
  }

  /** `renderStates[nodeNum].compute(bytes, dataPosition)` in the chosen variant. */
  function ComputeRecord(v: Variant, data: seq<byte>, pos: nat, s: RenderState)
    : (r: Result<Cursor, Error>)
    ensures pos >= |data| ==> r == Err(EndOfData)
    ensures r.Ok? ==> r.value.at > pos && Keeps(data[pos], s, r.value.state)
  {
    match v
    case TypeScript => Ts.Compute(data, pos, s)
    case JavaScript => Js.Compute(data, pos, s)
  }

  /** One record after the node number has been read: which node it named, the states with
      that node's state recomputed, and the position after the record. */
  datatype Replayed = Replayed(node: nat, states: seq<RenderState>, at: nat)

  /** Read a node number and recompute that node's state. A node number with no state is the
      TypeError of calling `compute` on `undefined`. */
  function ReplayRecord(v: Variant, data: seq<byte>, pos: int, states: seq<RenderState>)
    : (r: Result<Replayed, FrameError>)
    ensures pos < 0 || pos + 2 > |data| ==> r == Err(RangeError)
    ensures 0 <= pos && pos + 2 <= |data| && U16(data, pos) >= |states| ==>
              r == Err(NoRenderState(U16(data, pos)))
    ensures r.Ok? ==> && 0 <= pos && pos + 2 < |data|
                      && r.value.node == U16(data, pos) < |states|
                      && r.value.at > pos + 2 && |r.value.states| == |states|
                      && r.value.states == states[r.value.node := r.value.states[r.value.node]]
                      && Keeps(data[pos + 2], states[r.value.node], r.value.states[r.value.node])
  {
    var node :- ReadNode(data, pos);
    if node >= |states| then Err(NoRenderState(node))
    else
      var c := ComputeRecord(v, data, pos + 2, states[node]);
      if c.Err? then Err(RecordError(c.error))
      else Ok(Replayed(node, states[node := c.value.state], c.value.at))
  }

  /** The records a run of at most `budget` records from `pos` reads, in order, each with its
      node, the states after it and the position after it. The run stops early only when the
      position reaches the end of the data. Both record loops read their records this way. */
  function Trace(v: Variant, data: seq<byte>, pos: int, budget: nat, states: seq<RenderState>)
    : (r: Result<seq<Replayed>, FrameError>)
    ensures r.Ok? ==> |r.value| <= budget
    ensures r.Ok? ==> forall k :: 0 <= k < |r.value| ==>
              r.value[k].node < |r.value[k].states| == |states|
    ensures r.Ok? && |r.value| < budget ==> RunEnd(pos, r.value) >= |data|
    ensures r.Ok? && |r.value| > 0 ==> RunEnd(pos, r.value) > pos + 2
    decreases budget
  {
    if budget == 0 || pos >= |data| then Ok([])
    else
      var rec :- ReplayRecord(v, data, pos, states);
      var rest :- Trace(v, data, rec.at, budget - 1, rec.states);
      TraceCons(data, pos, budget, states, rec, rest);
      Ok([rec] + rest)
  }

  /** A record read at `pos`, followed by a run from just past it, is a run from `pos`. */
  lemma TraceCons(data: seq<byte>, pos: int, budget: nat, states: seq<RenderState>,
                  rec: Replayed, rest: seq<Replayed>)
    requires budget > 0 && rec.node < |rec.states| == |states| && rec.at > pos + 2
    requires |rest| <= budget - 1
    requires forall k :: 0 <= k < |rest| ==> rest[k].node < |rest[k].states| == |rec.states|
    requires |rest| < budget - 1 ==> RunEnd(rec.at, rest) >= |data|
    requires |rest| > 0 ==> RunEnd(rec.at, rest) > rec.at + 2
    ensures var t := [rec] + rest;
      && |t| <= budget
      && (forall k :: 0 <= k < |t| ==> t[k].node < |t[k].states| == |states|)
      && (|t| < budget ==> RunEnd(pos, t) >= |data|)
      && RunEnd(pos, t) > pos + 2
  {
    var t := [rec] + rest;
    assert RunEnd(pos, t) == RunEnd(rec.at, rest);
    assert forall k :: 1 <= k < |t| ==> t[k] == rest[k - 1];
  }

  /** The states after a traced run: those after its last record, or the starting ones. */
  function RunStates(states: seq<RenderState>, t: seq<Replayed>): seq<RenderState> {
    if t == [] then states else t[|t| - 1].states
  }

  /** A run leaves the states its tail leaves, starting from those after its first record. */
  lemma RunStatesCons(states: seq<RenderState>, t: seq<Replayed>)
    requires t != []
    ensures RunStates(states, t) == RunStates(t[0].states, t[1..])
  {
    if |t| > 1 {
      assert t[1..][|t[1..]| - 1] == t[|t| - 1];
    }
  }

  /** Where a traced run stops: just past its last record, or where it started. */
  function RunEnd(pos: int, t: seq<Replayed>): int {
    if t == [] then pos else t[|t| - 1].at
  }

  /** Where a run of records leaves off: the states, how many records it read and the
      position after the last of them. */
  datatype Run = Run(states: seq<RenderState>, count: nat, at: int)

  /** The inner loop of `skipToJustBeforeFrame`: the traced records of at most `budget` from
      `pos`, replayed onto the states. */
  function SkipRecords(v: Variant, data: seq<byte>, pos: int, budget: nat, states: seq<RenderState>)
    : (r: Result<Run, FrameError>)
    ensures r.Ok? ==> |r.value.states| == |states| && r.value.count <= budget
    ensures r.Ok? && r.value.count < budget ==> r.value.at >= |data|
    ensures r.Ok? && r.value.count == 0 ==> r.value.states == states && r.value.at == pos
    ensures r.Ok? && r.value.count > 0 ==> r.value.at > pos + 2
  {
    var t :- Trace(v, data, pos, budget, states);
    Ok(Run(RunStates(states, t), |t|, RunEnd(pos, t)))
  }

  /** `skipToJustBeforeFrame(frame)`: the records of frames `0 .. frame - 1`, each frame from
      its offset in the frame table, with room for `budget` records per frame. */
  function SkipFrames(v: Variant, data: seq<byte>, positions: seq<int>, frame: nat,
                      budget: nat, states: seq<RenderState>)
    : (r: Result<seq<RenderState>, FrameError>)
    requires frame <= |positions|
    ensures r.Ok? ==> |r.value| == |states|
    ensures frame == 0 ==> r == Ok(states)
    decreases frame
  {
    if frame == 0 then Ok(states)
    else
      var before :- SkipFrames(v, data, positions, frame - 1, budget, states);
      var run :- SkipRecords(v, data, positions[frame - 1], budget, before);
      Ok(run.states)
  }

  /** The states `computeFrame` starts from: every one of the `n` states reset. */
  function Resets(n: nat): (r: seq<RenderState>)
    ensures |r| == n && forall i :: 0 <= i < n ==> r[i] == ResetState
  {
    seq(n, i => ResetState)
  }

  // ----- Drawing -----

  /** All mesh vertices, mesh after mesh: what the vertex list should hold. */
  function Vertices(ms: seq<Mesh>): seq<Vertex> {
    if ms == [] then [] else Vertices(ms[..|ms| - 1]) + ms[|ms| - 1].vertices
  }

  /** All mesh indices, mesh after mesh. TypeScript moves each mesh's chunk-local indices past
      the vertices of the meshes before it, so that they address the shared vertex list;
      JavaScript appends them unchanged. */
  function Indices(v: Variant, ms: seq<Mesh>): seq<int> {
    if ms == [] then []
    else
      var front := ms[..|ms| - 1];
      Indices(v, front)
        + Shift(ms[|ms| - 1].indices, if v.TypeScript? then |Vertices(front)| else 0)
  }

  /** The two global lists are exactly what the meshes describe. */
  predicate Assembled(v: Variant, f: Frame) {
    f.vertexBuffer == Vertices(f.meshes) && f.triangleIndices == Indices(v, f.meshes)
  }

  /** A mesh holds one vertex per vertex of its chunk, and its indices are the chunk's base
      indices, unshifted. */
  predicate MeshOfChunk(skin: Skin, m: Mesh) {
    && ChunkFits(skin, m.chunk)
    && |m.vertices| == m.chunk.vertexCount
    && m.indices == OffsetRange(skin.triangles, m.chunk.startIndexIndex, m.chunk.indexCount, 0)
  }

  /** The meshes one record pushes: one per chunk of its part, in chunk order. */
  predicate DrawnFrom(skin: Skin, node: nat, part: nat, chunks: seq<SkinChunk>, ms: seq<Mesh>) {
    && |ms| == |chunks|
    && forall i :: 0 <= i < |ms| ==>
         ms[i].nodeNum == node && ms[i].part == part && ms[i].chunk == chunks[i]
         && MeshOfChunk(skin, ms[i])
  }

  /** Every mesh names a node that has a state, a part of the skin and one of that part's
      chunks, and carries that chunk's indices unshifted. */
  predicate MeshesFromSkin(skin: Skin, nodes: nat, ms: seq<Mesh>) {
    forall i :: 0 <= i < |ms| ==>
      && ms[i].nodeNum < nodes && ms[i].part < |skin.parts|
      && ms[i].chunk in skin.parts[ms[i].part].chunks
      && MeshOfChunk(skin, ms[i])
  }

  /** The mesh pushed for one chunk: its vertices transformed from `work` (the base vertex
      list in TypeScript, the record's working copy in JavaScript) and its chunk-local
      indices, built with offset 0. */
  function ChunkMesh(place: Placement, skin: Skin, node: nat, part: nat, chunk: SkinChunk,
                     s: RenderState, work: seq<Vertex>): (m: Mesh)
    requires ChunkFits(skin, chunk) && |work| == |skin.vertices|
    ensures m.nodeNum == node && m.part == part && m.chunk == chunk
    ensures |m.vertices| == chunk.vertexCount && |m.indices| == chunk.indexCount
    ensures MeshOfChunk(skin, m)
    ensures m.vertices == TransformRange(place, s, work, chunk.startVertexIndex, chunk.vertexCount)
  {
    Mesh(node, part, chunk,
         TransformRange(place, s, work, chunk.startVertexIndex, chunk.vertexCount),
         OffsetRange(skin.triangles, chunk.startIndexIndex, chunk.indexCount, 0))
  }

  /** One pass of the chunk loop with the mesh already built: concatenate its vertices, grow
      the frame box by the mesh's chunk box, append its indices (offset by the vertex count before the
      concatenation in TypeScript, unshifted in JavaScript) and push the mesh. */
  function AddMesh(v: Variant, b: Boxing, skin: Skin, f: Frame, m: Mesh): (r: Frame)
    requires MeshOfChunk(skin, m)
    ensures r.states == f.states && r.records == f.records && r.meshes == f.meshes + [m]
    ensures Assembled(v, f) ==> Assembled(v, r)
    ensures r.bounds == Encapsulate(v, f.bounds, MeshBox(b, m))
  {
    var c := m.chunk;
    var offset := if v.TypeScript? then |f.vertexBuffer| else 0;
    ShiftOfOffset(skin.triangles, c.startIndexIndex, c.indexCount, offset);
    assert (f.meshes + [m])[..|f.meshes|] == f.meshes;
    Frame(f.states, f.vertexBuffer + m.vertices,
          f.triangleIndices + OffsetRange(skin.triangles, c.startIndexIndex, c.indexCount, offset),
          f.meshes + [m], Encapsulate(v, f.bounds, ChunkBox(b, Positions(m.vertices))), f.records)
  }

  /** The meshes of the chunk loop for one record: one per chunk, in order. JavaScript
      transforms its working copy in place, so a later chunk of the same record sees the
      vertices an earlier one transformed; TypeScript reads the base list every time. */
  function ChunkMeshes(v: Variant, place: Placement, skin: Skin, node: nat, part: nat,
                       chunks: seq<SkinChunk>, s: RenderState, work: seq<Vertex>)
    : (ms: seq<Mesh>)
    requires forall c <- chunks :: ChunkFits(skin, c)
    requires |work| == |skin.vertices|
    ensures DrawnFrom(skin, node, part, chunks, ms)
    ensures |ms| > 0 ==>
              ms[0].vertices == TransformRange(place, s, work, chunks[0].startVertexIndex,
                                               chunks[0].vertexCount)
    ensures v.TypeScript? ==> forall i :: 0 <= i < |ms| ==>
              ms[i].vertices == TransformRange(place, s, work, chunks[i].startVertexIndex,
                                               chunks[i].vertexCount)
    decreases |chunks|
  {
    if chunks == [] then []
    else
      var chunk := chunks[0];
      var m := ChunkMesh(place, skin, node, part, chunk, s, work);
      var a := chunk.startVertexIndex;
      var work := if v.TypeScript? then work
                  else work[..a] + m.vertices + work[a + chunk.vertexCount..];
      [m] + ChunkMeshes(v, place, skin, node, part, chunks[1..], s, work)
  }

  /** The meshes one record draws with its node's new state `s`: one per chunk of the part
      its sprite index names, or none when no part has that index. */
  function RecordMeshes(v: Variant, place: Placement, skin: Skin, node: nat, s: RenderState)
    : (ms: seq<Mesh>)
    requires WellFormedSkin(skin)
    ensures !(0 <= s.spriteIndex < |skin.parts|) ==> ms == []
    ensures 0 <= s.spriteIndex < |skin.parts| ==>
              DrawnFrom(skin, node, s.spriteIndex, skin.parts[s.spriteIndex].chunks, ms)
    ensures v.TypeScript? && 0 <= s.spriteIndex < |skin.parts| ==>
              forall i :: 0 <= i < |ms| ==>
                ms[i].vertices == TransformRange(place, s, skin.vertices,
                                                 ms[i].chunk.startVertexIndex, ms[i].chunk.vertexCount)
  {
    if 0 <= s.spriteIndex < |skin.parts| then
      var part := skin.parts[s.spriteIndex];
      assert forall c <- part.chunks :: ChunkFits(skin, c);
      ChunkMeshes(v, place, skin, node, s.spriteIndex, part.chunks, s, skin.vertices)
    else []
  }

  /** The meshes a traced run draws: each record's meshes, in record order. */
  function TraceMeshes(v: Variant, place: Placement, skin: Skin, t: seq<Replayed>): seq<Mesh>
    requires WellFormedSkin(skin)
    requires forall k :: 0 <= k < |t| ==> t[k].node < |t[k].states|
  {
    if t == [] then []
    else
      RecordMeshes(v, place, skin, t[0].node, t[0].states[t[0].node])
        + TraceMeshes(v, place, skin, t[1..])
  }

  /** The rest of the chunk loop: each mesh in turn is added to the frame. */
  function AddMeshes(v: Variant, b: Boxing, skin: Skin, f: Frame, ms: seq<Mesh>): (r: Frame)
    requires forall m <- ms :: MeshOfChunk(skin, m)
    ensures r.states == f.states && r.records == f.records && r.meshes == f.meshes + ms
    ensures Assembled(v, f) ==> Assembled(v, r)
    ensures r.bounds == Grown(v, b, f.bounds, ms)
    decreases |ms|
  {
    if ms == [] then f
    else
      assert f.meshes + ms == (f.meshes + [ms[0]]) + ms[1..];
      AddMeshes(v, b, skin, AddMesh(v, b, skin, f, ms[0]), ms[1..])
  }

  /** Records `skipToJustBeforeFrame` reads per earlier frame: `j` runs from `nodeCount` down
      to 0. */
  function SkipBudget(nodeCount: int): nat {
    if nodeCount >= 0 then nodeCount + 1 else 0
  }

  /** Records `computeFrame` reads for the frame itself: `nodesCount` runs from
      `nodeCount - 1` down to 0. */
  function DrawBudget(nodeCount: int): nat {
    if nodeCount >= 0 then nodeCount else 0
  }

  /** The record loop of `computeFrame`: at most `budget` records, stopping early when the
      position reaches the end of the data. A record whose node's sprite index names no part
      (`part === undefined`) draws nothing; otherwise every chunk of that part is drawn with
      the node's new state. Drawing never changes a state, so replaying the traced records
      first and drawing them afterwards is the source's interleaved loop. */
  function DrawRecords(v: Variant, b: Boxing, place: Placement, skin: Skin, data: seq<byte>,
                       pos: int, budget: nat, f: Frame): (r: Result<Frame, FrameError>)
    requires WellFormedSkin(skin)
    ensures r.Ok? <==> Trace(v, data, pos, budget, f.states).Ok?
    ensures r.Ok? ==>
              var t := Trace(v, data, pos, budget, f.states).value;
              && r.value.records == f.records + |t| && r.value.states == RunStates(f.states, t)
              && r.value.meshes == f.meshes + TraceMeshes(v, place, skin, t)
              && r.value.bounds == Grown(v, b, f.bounds, TraceMeshes(v, place, skin, t))
    ensures r.Ok? ==> |r.value.states| == |f.states|
    ensures r.Ok? ==> f.records <= r.value.records <= f.records + budget
    ensures r.Ok? && MeshesFromSkin(skin, |f.states|, f.meshes) ==>
              MeshesFromSkin(skin, |f.states|, r.value.meshes)
    ensures r.Ok? && Assembled(v, f) ==> Assembled(v, r.value)
    ensures r.Ok? && BoundsCover(v, b, f) ==> BoundsCover(v, b, r.value)
  {
    var t :- Trace(v, data, pos, budget, f.states);
    Ok(DrawTrace(v, b, place, skin, t, f))
  }

  /** The drawing half of the record loop over the traced records: each record installs its
      states, is counted, and draws its part. */
  function DrawTrace(v: Variant, b: Boxing, place: Placement, skin: Skin, t: seq<Replayed>,
                     f: Frame): (r: Frame)
    requires WellFormedSkin(skin)
    requires forall k :: 0 <= k < |t| ==> t[k].node < |t[k].states| == |f.states|
    ensures r.records == f.records + |t| && r.states == RunStates(f.states, t)
    ensures r.meshes == f.meshes + TraceMeshes(v, place, skin, t)
    ensures r.bounds == Grown(v, b, f.bounds, TraceMeshes(v, place, skin, t))
    ensures MeshesFromSkin(skin, |f.states|, f.meshes) ==> MeshesFromSkin(skin, |f.states|, r.meshes)
    ensures Assembled(v, f) ==> Assembled(v, r)
    ensures BoundsCover(v, b, f) ==> BoundsCover(v, b, r)
    decreases |t|
  {
    if t == [] then f
    else
      var f' := DrawRecord(v, b, place, skin, t[0].node,
                           f.(states := t[0].states, records := f.records + 1));
      var r := DrawTrace(v, b, place, skin, t[1..], f');
      RunStatesCons(f.states, t);
      TraceMeshesCons(v, place, skin, t, f.meshes, f'.meshes, r.meshes);
      TraceBoundsCons(v, b, place, skin, t, f.bounds, f'.bounds, r.bounds);
      r
  }

  /** Meshes drawn for a run's first record, then for its tail, are the run's meshes. */
  /** The box grown by a run's first record, then by its tail, is the box grown by the run. */
  lemma TraceBoundsCons(v: Variant, b: Boxing, place: Placement, skin: Skin, t: seq<Replayed>,
                        before: Option<Bounds>, mid: Option<Bounds>, after: Option<Bounds>)
    requires WellFormedSkin(skin) && t != []
    requires forall k :: 0 <= k < |t| ==> t[k].node < |t[k].states|
    requires mid == Grown(v, b, before, RecordMeshes(v, place, skin, t[0].node, t[0].states[t[0].node]))
    requires after == Grown(v, b, mid, TraceMeshes(v, place, skin, t[1..]))
    ensures after == Grown(v, b, before, TraceMeshes(v, place, skin, t))
  {
    var first := RecordMeshes(v, place, skin, t[0].node, t[0].states[t[0].node]);
    var rest := TraceMeshes(v, place, skin, t[1..]);
    assert TraceMeshes(v, place, skin, t) == first + rest;
    GrownAppend(v, b, before, first, rest);
  }

  lemma TraceMeshesCons(v: Variant, place: Placement, skin: Skin, t: seq<Replayed>,
                        before: seq<Mesh>, mid: seq<Mesh>, after: seq<Mesh>)
    requires WellFormedSkin(skin) && t != []
    requires forall k :: 0 <= k < |t| ==> t[k].node < |t[k].states|
    requires mid == before + RecordMeshes(v, place, skin, t[0].node, t[0].states[t[0].node])
    requires after == mid + TraceMeshes(v, place, skin, t[1..])
    ensures after == before + TraceMeshes(v, place, skin, t)
  {
    var first := RecordMeshes(v, place, skin, t[0].node, t[0].states[t[0].node]);
    var rest := TraceMeshes(v, place, skin, t[1..]);
    assert TraceMeshes(v, place, skin, t) == first + rest;
    AppendAssociative(before, first, rest);
  }

  /** The drawing half of one pass of the record loop, after the node's state has been
      recomputed: the chunks of the part its sprite index names, or nothing when there is no
      such part. */
  function DrawRecord(v: Variant, b: Boxing, place: Placement, skin: Skin, node: nat, f: Frame)
    : (r: Frame)
    requires WellFormedSkin(skin) && node < |f.states|
    ensures r.states == f.states && r.records == f.records
    ensures |f.meshes| <= |r.meshes| && r.meshes[..|f.meshes|] == f.meshes
    ensures MeshesFromSkin(skin, |f.states|, f.meshes) ==> MeshesFromSkin(skin, |f.states|, r.meshes)
    ensures Assembled(v, f) ==> Assembled(v, r)
    ensures BoundsCover(v, b, f) ==> BoundsCover(v, b, r)
    ensures var i := f.states[node].spriteIndex;
      !(0 <= i < |skin.parts|) ==> r == f
    ensures r.meshes == f.meshes + RecordMeshes(v, place, skin, node, f.states[node])
    ensures r.bounds == Grown(v, b, f.bounds, RecordMeshes(v, place, skin, node, f.states[node]))
    ensures var i := f.states[node].spriteIndex;
      0 <= i < |skin.parts| ==>
        && (forall c <- skin.parts[i].chunks :: ChunkFits(skin, c))
        && r.meshes == f.meshes + ChunkMeshes(v, place, skin, node, i, skin.parts[i].chunks,
                                              f.states[node], skin.vertices)
  {
    var s := f.states[node];
    if 0 <= s.spriteIndex < |skin.parts| then
      var chunks := skin.parts[s.spriteIndex].chunks;
      var ms := RecordMeshes(v, place, skin, node, s);
      DrawnFromSkin(skin, node, |f.states|, s.spriteIndex, chunks, ms, f.meshes);
      AddMeshesCovers(v, b, skin, f, ms);
      AddMeshes(v, b, skin, f, ms)
    else f
  }

  /** Meshes drawn for a part of the skin satisfy `MeshesFromSkin` when appended to meshes
      that did. */
  lemma DrawnFromSkin(skin: Skin, node: nat, nodes: nat, part: nat, chunks: seq<SkinChunk>,
                      ms: seq<Mesh>, before: seq<Mesh>)
    requires node < nodes && part < |skin.parts| && chunks == skin.parts[part].chunks
    requires DrawnFrom(skin, node, part, chunks, ms)
    ensures MeshesFromSkin(skin, nodes, before) ==> MeshesFromSkin(skin, nodes, before + ms)
  {
    assert forall i :: 0 <= i < |ms| ==> ms[i].chunk in chunks;
  }

  /** `computeFrame(frame)`: every render state is reset, the records of the frames before
      `frame` are replayed onto them, and the records of `frame` are then replayed and drawn
      onto empty lists, starting from the zero box, which grows by each mesh's chunk box. */
  function ComputeFrame(v: Variant, b: Boxing, place: Placement,
                        anim: AnimationInstances.Instance, skin: Skin, states: seq<RenderState>,
                        frame: nat)
    : (r: Result<Frame, FrameError>)
    requires frame < |anim.frameDataPositions| && WellFormedSkin(skin)
    ensures r.Ok? ==> Assembled(v, r.value)
    ensures r.Ok? ==> |r.value.states| == |states| && r.value.records <= DrawBudget(anim.nodeCount)
    ensures r.Ok? ==> MeshesFromSkin(skin, |states|, r.value.meshes)
    ensures r.Ok? ==> BoundsCover(v, b, r.value)
    ensures r.Ok? && b.Corrected? ==> VerticesCovered(v, r.value)
    ensures var replayed := SkipFrames(v, anim.data, anim.frameDataPositions, frame,
                                       SkipBudget(anim.nodeCount), Resets(|states|));
      r.Ok? <==> (&& replayed.Ok?
                  && Trace(v, anim.data, anim.frameDataPositions[frame],
                           DrawBudget(anim.nodeCount), replayed.value).Ok?)
    ensures r.Ok? ==>
      var replayed := SkipFrames(v, anim.data, anim.frameDataPositions, frame,
                                 SkipBudget(anim.nodeCount), Resets(|states|)).value;
      var t := Trace(v, anim.data, anim.frameDataPositions[frame], DrawBudget(anim.nodeCount),
                     replayed).value;
      && r.value.states == RunStates(replayed, t) && r.value.records == |t|
      && r.value.meshes == TraceMeshes(v, place, skin, t)
    ensures r.Ok? ==> r.value.bounds == Grown(v, b, Some(Bounds(Zero, Zero)), r.value.meshes)
  {
    var replayed :- SkipFrames(v, anim.data, anim.frameDataPositions, frame,
                               SkipBudget(anim.nodeCount), Resets(|states|));
    DrawFrame(v, b, place, skin, anim.data, anim.frameDataPositions[frame],
              DrawBudget(anim.nodeCount), replayed)
  }

  /** A frame with no meshes, empty lists and the zero box is assembled, draws only from the
      skin, and its box covers its (no) meshes. */
  lemma EmptyFrame(v: Variant, b: Boxing, skin: Skin, f: Frame)
    requires f.vertexBuffer == [] && f.triangleIndices == [] && f.meshes == []
    requires f.bounds == Some(Bounds(Zero, Zero))
    ensures Assembled(v, f) && MeshesFromSkin(skin, |f.states|, f.meshes) && BoundsCover(v, b, f)
  { }

  /** The second half of `computeFrame`: the frame's own records, drawn onto empty lists from
      the zero box over the states the earlier frames left. */
  function DrawFrame(v: Variant, b: Boxing, place: Placement, skin: Skin, data: seq<byte>,
                     pos: int, budget: nat, replayed: seq<RenderState>)
    : (r: Result<Frame, FrameError>)
    requires WellFormedSkin(skin)
    ensures r.Ok? <==> Trace(v, data, pos, budget, replayed).Ok?
    ensures r.Ok? ==>
      var t := Trace(v, data, pos, budget, replayed).value;
      && r.value.states == RunStates(replayed, t) && r.value.records == |t|
      && r.value.meshes == TraceMeshes(v, place, skin, t)
    ensures r.Ok? ==> r.value.bounds == Grown(v, b, Some(Bounds(Zero, Zero)), r.value.meshes)
    ensures r.Ok? ==> Assembled(v, r.value)
    ensures r.Ok? ==> |r.value.states| == |replayed| && r.value.records <= budget
    ensures r.Ok? ==> MeshesFromSkin(skin, |replayed|, r.value.meshes)
    ensures r.Ok? ==> BoundsCover(v, b, r.value)
    ensures r.Ok? && b.Corrected? ==> VerticesCovered(v, r.value)
  {
    var start := Frame(replayed, [], [], [], Some(Bounds(Zero, Zero)), 0);
    EmptyFrame(v, b, skin, start);
    var drawn :- DrawRecords(v, b, place, skin, data, pos, budget, start);
    if b.Corrected? then
      CorrectedFrameCoversVertices(v, drawn);
      Ok(drawn)
    else Ok(drawn)
  }

  // ----- What the frame promises -----

  /** Each mesh's own indices address its own vertices. */
  predicate LocallyInRange(ms: seq<Mesh>) {
    forall j, i :: 0 <= j < |ms| && 0 <= i < |ms[j].indices| ==>
      0 <= ms[j].indices[i] < |ms[j].vertices|
  }

  /** In TypeScript every global index lands inside the vertex list when each mesh's own
      indices address its own vertices. */
  lemma {:induction false} TsIndicesInRange(ms: seq<Mesh>)
    requires LocallyInRange(ms)
    ensures forall i :: 0 <= i < |Indices(TypeScript, ms)| ==>
              0 <= Indices(TypeScript, ms)[i] < |Vertices(ms)|
  {
    if ms != [] {
      var front := ms[..|ms| - 1];
      var last := ms[|ms| - 1];
      assert LocallyInRange(front) by {
        assert forall j :: 0 <= j < |front| ==> front[j] == ms[j];
      }
      TsIndicesInRange(front);
      var shifted := Shift(last.indices, |Vertices(front)|);
      assert forall i :: 0 <= i < |shifted| ==> 0 <= shifted[i] < |Vertices(front)| + |last.vertices| by {
        forall i | 0 <= i < |shifted|
          ensures 0 <= shifted[i] < |Vertices(front)| + |last.vertices|
        {
          assert 0 <= last.indices[i] < |last.vertices|;
        }
      }
      assert Indices(TypeScript, ms) == Indices(TypeScript, front) + shifted;
      assert |Vertices(ms)| == |Vertices(front)| + |last.vertices|;
      var xs, ys := Indices(TypeScript, ms), Indices(TypeScript, front);
      forall i | 0 <= i < |xs|
        ensures 0 <= xs[i] < |Vertices(ms)|
      {
        if i < |ys| {
          assert xs[i] == ys[i];
        } else {
          assert xs[i] == shifted[i - |ys|];
        }
      }
    }
  }

  /** The meshes' own index lists, one after the other. */
  function LocalIndices(ms: seq<Mesh>): seq<int> {
    if ms == [] then [] else LocalIndices(ms[..|ms| - 1]) + ms[|ms| - 1].indices
  }

  /** In JavaScript the global index list is the meshes' own index lists, unshifted, one after
      the other; it addresses the vertex list only for the first mesh. */
  lemma {:induction false} JsIndicesUnshifted(ms: seq<Mesh>)
    ensures Indices(JavaScript, ms) == LocalIndices(ms)
  {
    if ms != [] {
      JsIndicesUnshifted(ms[..|ms| - 1]);
      assert Shift(ms[|ms| - 1].indices, 0) == ms[|ms| - 1].indices;
    }
  }

  /** Two one-vertex meshes, each with the index list [0]: TypeScript's global list is [0, 1],
      addressing both vertices; JavaScript's is [0, 0], so the second triangle list reuses the
      first mesh's vertex. */
  lemma GlobalIndicesExample(a: Mesh, b: Mesh)
    requires |a.vertices| == 1 && |b.vertices| == 1 && a.indices == [0] && b.indices == [0]
    ensures Indices(TypeScript, [a, b]) == [0, 1]
    ensures Indices(JavaScript, [a, b]) == [0, 0]
  {
    assert [a, b][..1] == [a];
    assert [a][..0] == [];
    assert Vertices([a]) == a.vertices;
    assert Shift([0], 0) == [0] && Shift([0], 1) == [1];
    assert Indices(TypeScript, [a]) == [0] && Indices(JavaScript, [a]) == [0];
  }

  /** Every chunk's base indices address that chunk's own vertices. */
  predicate ChunkIndicesLocal(skin: Skin) {
    forall part <- skin.parts, chunk <- part.chunks ::
      && ChunkFits(skin, chunk)
      && forall i :: chunk.startIndexIndex <= i < chunk.startIndexIndex + chunk.indexCount ==>
           0 <= skin.triangles[i] < chunk.vertexCount
  }

  /** A TypeScript frame assembled from a skin whose chunks index their own vertices (as
      `ComputeFrame` guarantees of every frame it returns) has a global index list that
      addresses its vertex list. */
  lemma TsFrameIndicesInRange(skin: Skin, nodes: nat, f: Frame)
    requires Assembled(TypeScript, f) && MeshesFromSkin(skin, nodes, f.meshes)
    requires ChunkIndicesLocal(skin)
    ensures forall i :: 0 <= i < |f.triangleIndices| ==> 0 <= f.triangleIndices[i] < |f.vertexBuffer|
  {
    LocalFromSkin(skin, nodes, f.meshes);
    TsIndicesInRange(f.meshes);
  }

  lemma LocalFromSkin(skin: Skin, nodes: nat, ms: seq<Mesh>)
    requires ChunkIndicesLocal(skin) && MeshesFromSkin(skin, nodes, ms)
    ensures LocallyInRange(ms)
  {
    forall j, i | 0 <= j < |ms| && 0 <= i < |ms[j].indices|
      ensures 0 <= ms[j].indices[i] < |ms[j].vertices|
    {
      var c := ms[j].chunk;
      assert ms[j].indices[i] == skin.triangles[c.startIndexIndex + i];
    }
  }

  /** Whether a mesh's vertices must lie inside the frame box. In TypeScript a chunk whose
      vertices all sit at one point has a zero-size box, which `encapsulate` reads as the
      origin, so such a mesh is not promised to be inside. */
  predicate Counted(v: Variant, m: Mesh) {
    |m.vertices| > 0 ==>
      v.JavaScript? || !IsZeroSize(ChunkBounds(Positions(m.vertices)).value)
  }

  /** The chunk box of a mesh's transformed vertices under a boxing. */
  function MeshBox(b: Boxing, m: Mesh): (r: Option<Bounds>)
    ensures r.Some? <==> |m.vertices| > 0
  {
    ChunkBox(b, Positions(m.vertices))
  }

  /** The box `acc` after `encapsulate` with each mesh's chunk box in turn: what the chunk loops
      do to the frame box. */
  function Grown(v: Variant, b: Boxing, acc: Option<Bounds>, ms: seq<Mesh>): Option<Bounds>
    decreases |ms|
  {
    if ms == [] then acc else Grown(v, b, Encapsulate(v, acc, MeshBox(b, ms[0])), ms[1..])
  }

  /** Growing by two lists of meshes is growing by the first, then by the second. */
  lemma {:induction false} GrownAppend(v: Variant, b: Boxing, acc: Option<Bounds>,
                                       xs: seq<Mesh>, ys: seq<Mesh>)
    ensures Grown(v, b, acc, xs + ys) == Grown(v, b, Grown(v, b, acc, xs), ys)
    decreases |xs|
  {
    if xs != [] {
      assert (xs + ys)[0] == xs[0] && (xs + ys)[1..] == xs[1..] + ys;
      GrownAppend(v, b, Encapsulate(v, acc, MeshBox(b, xs[0])), xs[1..], ys);
    } else {
      assert xs + ys == ys;
    }
  }

  /** A NaN box stays NaN. */
  lemma {:induction false} GrownOfNaN(v: Variant, b: Boxing, ms: seq<Mesh>)
    ensures Grown(v, b, None, ms) == None
    decreases |ms|
  {
    if ms != [] {
      GrownOfNaN(v, b, ms[1..]);
    }
  }

  /** Every mesh has vertices, so every chunk box is a number box. */
  predicate NoEmptyMesh(ms: seq<Mesh>) {
    forall i :: 0 <= i < |ms| ==> |ms[i].vertices| > 0
  }

  /** The running minimum of `lo` and the low corner of each mesh's chunk box. */
  function LowCorner(v: Variant, b: Boxing, lo: Vector2, ms: seq<Mesh>): Vector2
    requires NoEmptyMesh(ms)
    decreases |ms|
  {
    if ms == [] then lo
    else LowCorner(v, b, Min(lo, Lo(v, MeshBox(b, ms[0]).value)), ms[1..])
  }

  /** The running maximum of `hi` and the high corner of each mesh's chunk box. */
  function HighCorner(v: Variant, b: Boxing, hi: Vector2, ms: seq<Mesh>): Vector2
    requires NoEmptyMesh(ms)
    decreases |ms|
  {
    if ms == [] then hi
    else HighCorner(v, b, Max(hi, Hi(v, MeshBox(b, ms[0]).value)), ms[1..])
  }

  /** What growing a non-negative box means: it goes NaN exactly when some mesh has no
      vertices; otherwise it stays non-negative and its corners are the extremes of its own
      corners and those of every mesh's chunk box. */
  lemma {:induction false} GrownCorners(v: Variant, b: Boxing, acc: Bounds, ms: seq<Mesh>)
    requires NonNegative(acc)
    ensures Grown(v, b, Some(acc), ms).Some? <==> NoEmptyMesh(ms)
    ensures NoEmptyMesh(ms) ==>
      var g := Grown(v, b, Some(acc), ms).value;
      && NonNegative(g)
      && Lo(v, g) == LowCorner(v, b, Lo(v, acc), ms)
      && Hi(v, g) == HighCorner(v, b, Hi(v, acc), ms)
    decreases |ms|
  {
    if ms != [] {
      var c := MeshBox(b, ms[0]);
      assert NoEmptyMesh(ms) <==> |ms[0].vertices| > 0 && NoEmptyMesh(ms[1..]) by {
        assert forall i :: 1 <= i < |ms| ==> ms[i] == ms[1..][i - 1];
      }
      if c.None? {
        GrownOfNaN(v, b, ms[1..]);
      } else {
        EncapsulateCovers(v, acc, c.value);
        var next := Encapsulate(v, Some(acc), c).value;
        GrownCorners(v, b, next, ms[1..]);
      }
    }
  }

  /** The box `computeFrame` returns, grown from the zero box: NaN exactly when some mesh has
      no vertices, and otherwise the box whose corners are the extremes of the origin and of
      every mesh's chunk box. */
  lemma FrameBoxCorners(v: Variant, b: Boxing, ms: seq<Mesh>)
    ensures Grown(v, b, Some(Bounds(Zero, Zero)), ms).Some? <==> NoEmptyMesh(ms)
    ensures NoEmptyMesh(ms) ==>
      var g := Grown(v, b, Some(Bounds(Zero, Zero)), ms).value;
      && NonNegative(g)
      && Lo(v, g) == LowCorner(v, b, Zero, ms) && Hi(v, g) == HighCorner(v, b, Zero, ms)
  {
    ZeroBoxCorners(v);
    GrownCorners(v, b, Bounds(Zero, Zero), ms);
  }

  /** The frame box, unless it has gone NaN, has a non-negative size and encloses the chunk box
      of every mesh with vertices. */
  predicate BoundsCover(v: Variant, b: Boxing, f: Frame) {
    f.bounds.Some? ==>
      && NonNegative(f.bounds.value)
      && forall j :: 0 <= j < |f.meshes| && |f.meshes[j].vertices| > 0 ==>
           Encloses(v, f.bounds.value, MeshBox(b, f.meshes[j]).value)
  }

  /** The frame box, unless it has gone NaN, covers every vertex of every counted mesh. */
  predicate VerticesCovered(v: Variant, f: Frame) {
    f.bounds.Some? ==>
      forall j, i :: 0 <= j < |f.meshes| && Counted(v, f.meshes[j]) && 0 <= i < |f.meshes[j].vertices| ==>
        Covers(v, f.bounds.value, f.meshes[j].vertices[i].pos)
  }

  /** A counted chunk box reports the running extremes of its points as its corners. */
  lemma {:induction false} CountedCorners(v: Variant, ps: seq<Vector2>)
    requires |ps| > 0
    requires v.JavaScript? || !IsZeroSize(ChunkBounds(ps).value)
    ensures forall i :: 0 <= i < |ps| ==> Covers(v, ChunkBounds(ps).value, ps[i])
  {
    TsCorners(ChunkBounds(ps).value);
  }

  /** A frame box enclosing every corrected chunk box covers every vertex of every counted
      mesh. */
  lemma {:induction false} CorrectedFrameCoversVertices(v: Variant, f: Frame)
    requires BoundsCover(v, Corrected, f)
    ensures VerticesCovered(v, f)
  {
    if f.bounds.Some? {
      forall j, i | 0 <= j < |f.meshes| && Counted(v, f.meshes[j]) && 0 <= i < |f.meshes[j].vertices|
        ensures Covers(v, f.bounds.value, f.meshes[j].vertices[i].pos)
      {
        var ps := Positions(f.meshes[j].vertices);
        CountedCorners(v, ps);
        assert ps[i] == f.meshes[j].vertices[i].pos;
        assert MeshBox(Corrected, f.meshes[j]) == ChunkBounds(ps);
        assert Covers(v, ChunkBounds(ps).value, ps[i]);
        assert Encloses(v, f.bounds.value, ChunkBounds(ps).value);
      }
    }
  }

  /** Adding a mesh keeps the frame box enclosing every chunk box it enclosed, and makes it
      enclose the new mesh's chunk box too. */
  lemma {:induction false} AddMeshCovers(v: Variant, b: Boxing, skin: Skin, f: Frame, m: Mesh)
    requires MeshOfChunk(skin, m) && BoundsCover(v, b, f)
    ensures BoundsCover(v, b, AddMesh(v, b, skin, f, m))
  {
    var r := AddMesh(v, b, skin, f, m);
    if r.bounds.Some? {
      var a := f.bounds.value;
      var c := MeshBox(b, m).value;
      assert r.bounds == Encapsulate(v, Some(a), Some(c));
      EncapsulateEncloses(v, a, c);
      EnclosesAppended(v, b, f.meshes, m, r.meshes, a, r.bounds.value);
    }
  }

  /** A box enclosing `a`, which encloses the chunk boxes of `meshes`, and enclosing the chunk
      box of `m` encloses the chunk boxes of `meshes + [m]`. */
  lemma EnclosesAppended(v: Variant, b: Boxing, meshes: seq<Mesh>, m: Mesh, all: seq<Mesh>,
                         a: Bounds, frame: Bounds)
    requires all == meshes + [m]
    requires forall j :: 0 <= j < |meshes| && |meshes[j].vertices| > 0 ==>
               Encloses(v, a, MeshBox(b, meshes[j]).value)
    requires Encloses(v, frame, a)
    requires |m.vertices| > 0 ==> Encloses(v, frame, MeshBox(b, m).value)
    ensures forall j :: 0 <= j < |all| && |all[j].vertices| > 0 ==>
              Encloses(v, frame, MeshBox(b, all[j]).value)
  {
    forall j | 0 <= j < |all| && |all[j].vertices| > 0
      ensures Encloses(v, frame, MeshBox(b, all[j]).value)
    {
      if j < |meshes| {
        assert all[j] == meshes[j];
        EnclosesTransitive(v, frame, a, MeshBox(b, meshes[j]).value);
      } else {
        assert all[j] == m;
      }
    }
  }

  lemma {:induction false} AddMeshesCovers(v: Variant, b: Boxing, skin: Skin, f: Frame,
                                           ms: seq<Mesh>)
    requires forall m <- ms :: MeshOfChunk(skin, m)
    ensures BoundsCover(v, b, f) ==> BoundsCover(v, b, AddMeshes(v, b, skin, f, ms))
    decreases |ms|
  {
    if ms != [] && BoundsCover(v, b, f) {
      AddMeshCovers(v, b, skin, f, ms[0]);
      AddMeshesCovers(v, b, skin, AddMesh(v, b, skin, f, ms[0]), ms[1..]);
    }
  }

  /** Both corners of the zero box are the origin. */
  lemma ZeroBoxCorners(v: Variant)
    ensures Lo(v, Bounds(Zero, Zero)) == Zero && Hi(v, Bounds(Zero, Zero)) == Zero
  {
  }

  /** A box whose upper corner is the origin, grown by one whose upper corner is (3, 3), reaches
      only (3, 3). */
  lemma GrowZeroBox(v: Variant, a: Bounds, c: Bounds)
    requires NonNegative(a) && Hi(v, a) == Zero
    requires NonNegative(c) && Hi(v, c) == Vector2(3.0, 3.0)
    ensures Hi(v, Encapsulate(v, Some(a), Some(c)).value) == Vector2(3.0, 3.0)
  {
    EncapsulateCovers(v, a, c);
  }

  /** A frame box whose upper corner is (3, 3) leaves out a counted mesh's vertex at (4, 4). */
  lemma VertexOutside(v: Variant, r: Frame, m: Mesh)
    requires r.bounds.Some? && Hi(v, r.bounds.value) == Vector2(3.0, 3.0)
    requires |r.meshes| == 1 && r.meshes[0] == m && Counted(v, m)
    requires |m.vertices| > 1 && m.vertices[1].pos == Vector2(4.0, 4.0)
    ensures !Covers(v, r.bounds.value, m.vertices[1].pos) && !VerticesCovered(v, r)
  {
  }

  /** The chunk boxes of a mesh whose vertices sit at (0, 0) and (4, 4). */
  lemma DiagonalBoxes(m: Mesh)
    requires Positions(m.vertices) == [Vector2(0.0, 0.0), Vector2(4.0, 4.0)]
    ensures MeshBox(AsWritten, m) == AsWrittenChunkBounds([Vector2(0.0, 0.0), Vector2(4.0, 4.0)])
    ensures ChunkBounds(Positions(m.vertices)) == ChunkBounds([Vector2(0.0, 0.0), Vector2(4.0, 4.0)])
  {
  }

  /** Such a mesh has two vertices, the second at (4, 4). */
  lemma DiagonalVertex(m: Mesh)
    requires Positions(m.vertices) == [Vector2(0.0, 0.0), Vector2(4.0, 4.0)]
    ensures |m.vertices| == 2 && m.vertices[1].pos == Vector2(4.0, 4.0)
  {
    assert m.vertices[1].pos == Positions(m.vertices)[1];
  }

  /** Such a mesh spans a box of size (4, 4), so its vertices are promised to the frame box. */
  lemma DiagonalCounted(v: Variant, m: Mesh)
    requires Positions(m.vertices) == [Vector2(0.0, 0.0), Vector2(4.0, 4.0)]
    ensures Counted(v, m)
  {
    DiagonalBoxes(m);
    AsWrittenChunkBoundsMissesCorners();
  }

  /** The written box of such a mesh, grown from the zero box, reaches only (3, 3). */
  lemma DiagonalGrowth(v: Variant, skin: Skin, f: Frame, m: Mesh)
    requires MeshOfChunk(skin, m) && f.bounds == Some(Bounds(Zero, Zero))
    requires Positions(m.vertices) == [Vector2(0.0, 0.0), Vector2(4.0, 4.0)]
    ensures var r := AddMesh(v, AsWritten, skin, f, m);
      r.bounds.Some? && Hi(v, r.bounds.value) == Vector2(3.0, 3.0)
  {
    var c := MeshBox(AsWritten, m).value;
    assert Hi(v, c) == Vector2(3.0, 3.0) by {
      DiagonalBoxes(m);
      AsWrittenChunkBoundsMissesCorners();
    }
    ZeroBoxCorners(v);
    assert NonNegative(f.bounds.value);
    GrowZeroBox(v, f.bounds.value, c);
  }

  /** Growing the zero box by the written chunk box of the points (0, 0) and (4, 4) gives the
      box from (0, 0) to (3, 3), which leaves out the vertex at (4, 4); the corrected chunk box
      covers it. */
  lemma AsWrittenFrameMissesVertex(v: Variant, skin: Skin, f: Frame, m: Mesh)
    requires MeshOfChunk(skin, m) && f.meshes == [] && f.bounds == Some(Bounds(Zero, Zero))
    requires Positions(m.vertices) == [Vector2(0.0, 0.0), Vector2(4.0, 4.0)]
    ensures var r := AddMesh(v, AsWritten, skin, f, m);
      && r.bounds.Some? && Hi(v, r.bounds.value) == Vector2(3.0, 3.0)
      && !Covers(v, r.bounds.value, m.vertices[1].pos) && !VerticesCovered(v, r)
    ensures VerticesCovered(v, AddMesh(v, Corrected, skin, f, m))
  {
    DiagonalVertex(m);
    DiagonalCounted(v, m);
    DiagonalGrowth(v, skin, f, m);
    VertexOutside(v, AddMesh(v, AsWritten, skin, f, m), m);
    AddMeshCovers(v, Corrected, skin, f, m);
    CorrectedFrameCoversVertices(v, AddMesh(v, Corrected, skin, f, m));
  }

  /** Replaying the frames before `frame` reads only their own entries of the frame table. */
  lemma {:induction false} SkipFramesReadsPrefix(v: Variant, data: seq<byte>, positions: seq<int>,
                                                 other: seq<int>, frame: nat, budget: nat,
                                                 states: seq<RenderState>)
    requires frame <= |positions| && frame <= |other| && positions[..frame] == other[..frame]
    ensures SkipFrames(v, data, positions, frame, budget, states)
            == SkipFrames(v, data, other, frame, budget, states)
  {
    forall i | 0 <= i < frame
      ensures positions[i] == other[i]
    {
      assert positions[i] == positions[..frame][i];
    }
    SkipFramesAgree(v, data, positions, other, frame, budget, states);
  }

  /** Two frame tables that agree on their first `frame` entries replay alike. */
  lemma SkipFramesAgree(v: Variant, data: seq<byte>, positions: seq<int>, other: seq<int>,
                        frame: nat, budget: nat, states: seq<RenderState>)
    requires frame <= |positions| && frame <= |other|
    requires forall i :: 0 <= i < frame ==> positions[i] == other[i]
    ensures SkipFrames(v, data, positions, frame, budget, states)
            == SkipFrames(v, data, other, frame, budget, states)
  {
    var k := 0;
    while k < frame
      invariant k <= frame
      invariant SkipFrames(v, data, positions, k, budget, states)
                == SkipFrames(v, data, other, k, budget, states)
    {
      SkipFramesStep(v, data, positions, other, k + 1, budget, states);
      k := k + 1;
    }
  }

  /** A frame replays alike from two tables when the frames before it did and its own entry is
      the same in both. */
  lemma SkipFramesStep(v: Variant, data: seq<byte>, positions: seq<int>, other: seq<int>,
                       frame: nat, budget: nat, states: seq<RenderState>)
    requires 0 < frame <= |positions| && frame <= |other| && positions[frame - 1] == other[frame - 1]
    requires SkipFrames(v, data, positions, frame - 1, budget, states)
             == SkipFrames(v, data, other, frame - 1, budget, states)
    ensures SkipFrames(v, data, positions, frame, budget, states)
            == SkipFrames(v, data, other, frame, budget, states)
  {
  }

  /** Two empty TypeScript records for node 0, back to back. */
  const TwoEmptyRecords: seq<byte> := [0, 0, 0, 0, 0, 0, 0, 0]

  /** Each of the two records replays node 0 to its reset state and ends 4 bytes on. */
  lemma EmptyRecordReplays(pos: nat)
    requires pos == 0 || pos == 4
    ensures var r := ReplayRecord(TypeScript, TwoEmptyRecords, pos, [ResetState]);
      r.Ok? && r.value.at == pos + 4 && r.value.states == [ResetState]
  {
    assert Align4(pos + 4) == pos + 4;
    var c := Ts.Compute(TwoEmptyRecords, pos + 2, ResetState);
    assert c == Ok(Cursor(ResetState, pos + 4));
  }

  /** With one node, replaying an earlier frame reads a second record where drawing the frame
      reads one: two empty TypeScript records for node 0 are both replayed. */
  lemma SkipReadsOneMoreRecord()
    ensures var run := SkipRecords(TypeScript, TwoEmptyRecords, 0, SkipBudget(1), [ResetState]);
      run.Ok? && run.value.count == 2 && run.value.at == 8 && DrawBudget(1) == 1
  {
    EmptyRecordReplays(0);
    EmptyRecordReplays(4);
    var t := Trace(TypeScript, TwoEmptyRecords, 4, 1, [ResetState]);
    assert t.Ok? && |t.value| == 1 && RunEnd(4, t.value) == 8;
  }

  // ----- JavaScript's in-place transform -----

  /** No two chunks of the list share a base vertex. */
  predicate DisjointVertexRanges(chunks: seq<SkinChunk>) {
    forall i, j :: 0 <= i < j < |chunks| ==>
      chunks[i].startVertexIndex + chunks[i].vertexCount <= chunks[j].startVertexIndex
      || chunks[j].startVertexIndex + chunks[j].vertexCount <= chunks[i].startVertexIndex
  }

  /** `work` still holds the base vertices wherever one of the chunks reads. */
  predicate Untouched(skin: Skin, chunks: seq<SkinChunk>, work: seq<Vertex>)
    requires |work| == |skin.vertices|
  {
    forall c, k ::
      c in chunks && c.startVertexIndex <= k < c.startVertexIndex + c.vertexCount && k < |work|
      ==> work[k] == skin.vertices[k]
  }

  /** Overwriting the first chunk's range leaves the base vertices of the other chunks. */
  lemma UntouchedAfterChunk(skin: Skin, chunks: seq<SkinChunk>, work: seq<Vertex>, vs: seq<Vertex>)
    requires chunks != [] && ChunkFits(skin, chunks[0]) && |vs| == chunks[0].vertexCount
    requires |work| == |skin.vertices| && DisjointVertexRanges(chunks)
    requires Untouched(skin, chunks, work)
    ensures var a, n := chunks[0].startVertexIndex, chunks[0].vertexCount;
      var work' := work[..a] + vs + work[a + n..];
      |work'| == |work| && Untouched(skin, chunks[1..], work')
  {
    var a, n := chunks[0].startVertexIndex, chunks[0].vertexCount;
    var work' := work[..a] + vs + work[a + n..];
    var rest := chunks[1..];
    forall d, k | d in rest && d.startVertexIndex <= k < d.startVertexIndex + d.vertexCount
                  && k < |work'|
      ensures work'[k] == skin.vertices[k]
    {
      var j :| 0 <= j < |rest| && rest[j] == d;
      assert chunks[j + 1] == d;
      assert k < a || a + n <= k;
      assert d in chunks;
      assert work'[k] == work[k];
    }
  }

  /** The first chunk reads only base vertices from the working copy. */
  lemma FirstMeshFromBase(place: Placement, skin: Skin, node: nat, part: nat,
                          chunks: seq<SkinChunk>, s: RenderState, work: seq<Vertex>)
    requires chunks != [] && ChunkFits(skin, chunks[0])
    requires |work| == |skin.vertices| && Untouched(skin, chunks, work)
    ensures ChunkMesh(place, skin, node, part, chunks[0], s, work)
            == ChunkMesh(place, skin, node, part, chunks[0], s, skin.vertices)
  {
    var c := chunks[0];
    var a, n := c.startVertexIndex, c.vertexCount;
    var m := ChunkMesh(place, skin, node, part, c, s, work);
    var m' := ChunkMesh(place, skin, node, part, c, s, skin.vertices);
    forall i | 0 <= i < n ensures m.vertices[i] == m'.vertices[i] {
      assert work[a + i] == skin.vertices[a + i];
    }
    assert m.vertices == m'.vertices;
  }

  lemma DisjointTail(chunks: seq<SkinChunk>)
    requires chunks != [] && DisjointVertexRanges(chunks)
    ensures DisjointVertexRanges(chunks[1..])
  {
    var rest := chunks[1..];
    forall i, j | 0 <= i < j < |rest|
      ensures rest[i].startVertexIndex + rest[i].vertexCount <= rest[j].startVertexIndex
              || rest[j].startVertexIndex + rest[j].vertexCount <= rest[i].startVertexIndex
    {
      assert rest[i] == chunks[i + 1] && rest[j] == chunks[j + 1];
    }
  }

  /** When no two chunks of a part share a vertex, transforming JavaScript's working copy in
      place draws the same meshes as TypeScript's reads of the base list. */
  lemma {:induction false} JsChunksMatchTs(place: Placement, skin: Skin, node: nat, part: nat,
                                           chunks: seq<SkinChunk>, s: RenderState,
                                           work: seq<Vertex>)
    requires forall c <- chunks :: ChunkFits(skin, c)
    requires |work| == |skin.vertices| && DisjointVertexRanges(chunks)
    requires Untouched(skin, chunks, work)
    ensures ChunkMeshes(JavaScript, place, skin, node, part, chunks, s, work)
            == ChunkMeshes(TypeScript, place, skin, node, part, chunks, s, skin.vertices)
    decreases |chunks|
  {
    if chunks != [] {
      var c := chunks[0];
      var m := ChunkMesh(place, skin, node, part, c, s, work);
      FirstMeshFromBase(place, skin, node, part, chunks, s, work);
      var work' := work[..c.startVertexIndex] + m.vertices + work[c.startVertexIndex + c.vertexCount..];
      DisjointTail(chunks);
      UntouchedAfterChunk(skin, chunks, work, m.vertices);
      JsChunksMatchTs(place, skin, node, part, chunks[1..], s, work');
    }
  }

  /** Two chunks over the same single vertex: TypeScript transforms the base vertex for each,
      while JavaScript's second mesh holds the first mesh's vertex transformed once more. */
  lemma SharedVertexTransformedTwice(place: Placement, skin: Skin, node: nat, part: nat,
                                     s: RenderState)
    requires |skin.vertices| == 1
    ensures var c := SkinChunk(0, 1, 0, 0);
      var js := ChunkMeshes(JavaScript, place, skin, node, part, [c, c], s, skin.vertices);
      var ts := ChunkMeshes(TypeScript, place, skin, node, part, [c, c], s, skin.vertices);
      var once := TransformVertex(place, s, skin.vertices[0]);
      && ts[1].vertices == [once]
      && js[1].vertices == [TransformVertex(place, s, once)]
  {
    var c := SkinChunk(0, 1, 0, 0);
    var once := TransformVertex(place, s, skin.vertices[0]);
    var m := ChunkMesh(place, skin, node, part, c, s, skin.vertices);
    assert m.vertices == [once];
    var work' := skin.vertices[..0] + m.vertices + skin.vertices[1..];
    assert work' == [once];
    assert [c, c][1..] == [c];
  }
}

=== FILE: geometry.dfy ===
/** Vector2 (src/utils/Vector2.ts, js/utils/Vector2.js) over the reals. Every operation builds
    a new value, so neither operand is ever changed. */
module Vectors {

  datatype Vector2 = Vector2(x: real, y: real)

  const Zero: Vector2 := Vector2(0.0, 0.0)

  /** `Vector2.Min`: componentwise minimum. */
  function Min(a: Vector2, b: Vector2): Vector2 {
    Vector2(if a.x <= b.x then a.x else b.x, if a.y <= b.y then a.y else b.y)
  }

  /** `Vector2.Max`: componentwise maximum. */
  function Max(a: Vector2, b: Vector2): Vector2 {
    Vector2(if a.x >= b.x then a.x else b.x, if a.y >= b.y then a.y else b.y)
  }

  function Add(a: Vector2, b: Vector2): Vector2 {
    Vector2(a.x + b.x, a.y + b.y)
  }

  function Subtract(a: Vector2, b: Vector2): Vector2 {
    Vector2(a.x - b.x, a.y - b.y)
  }

  function Multiply(a: Vector2, k: real): Vector2 {
    Vector2(a.x * k, a.y * k)
  }

  /** `Min` is a componentwise lower bound that is one of its arguments in each component, and
      `Max` the same for upper bounds. */
  lemma MinMaxBounds(a: Vector2, b: Vector2)
    ensures var r := Min(a, b);
      && r.x <= a.x && r.x <= b.x && (r.x == a.x || r.x == b.x)
      && r.y <= a.y && r.y <= b.y && (r.y == a.y || r.y == b.y)
    ensures var r := Max(a, b);
      && r.x >= a.x && r.x >= b.x && (r.x == a.x || r.x == b.x)
      && r.y >= a.y && r.y >= b.y && (r.y == a.y || r.y == b.y)
  {}

  /** `Min` and `Max` are commutative and idempotent. */
  lemma MinMaxAlgebra(a: Vector2, b: Vector2)
    ensures Min(a, b) == Min(b, a) && Max(a, b) == Max(b, a)
    ensures Min(a, a) == a && Max(a, a) == a
  {}

  /** `add` and `subtract` undo each other. */
  lemma AddSubtractInverse(a: Vector2, b: Vector2)
    ensures Subtract(Add(a, b), b) == a
    ensures Add(Subtract(a, b), b) == a
  {}

  /** `multiply(1)` is the identity, and scaling twice multiplies the factors. */
  lemma MultiplyLaws(a: Vector2, j: real, k: real)
    ensures Multiply(a, 1.0) == a
    ensures Multiply(Multiply(a, j), k) == Multiply(a, j * k)
  {}
}

/** Bounds (src/utils/Bounds.ts and js/utils/Bounds.js): an axis-aligned box kept as a centre
    and a full size. `encapsulate` mutates its receiver in the source; here it returns the new
    receiver value, and the argument box is a value that nothing changes. */
module Bounding {
  import opened Vectors

  datatype Bounds = Bounds(center: Vector2, size: Vector2)

  predicate NonNegative(b: Bounds) {
    b.size.x >= 0.0 && b.size.y >= 0.0
  }

  /** The box with the given corners: centre at the midpoint, size the difference. */
  function FromCorners(lo: Vector2, hi: Vector2): Bounds {
    Bounds(Multiply(Add(lo, hi), 0.5), Subtract(hi, lo))
  }

  /** js/utils/Bounds.js `min`: `center - size / 2`. */
  function JsMin(b: Bounds): (r: Vector2)
  {
    Subtract(b.center, Multiply(b.size, 0.5))
  }

  /** js/utils/Bounds.js `max`: `center + size / 2`. */
  function JsMax(b: Bounds): (r: Vector2)
  {
    Add(b.center, Multiply(b.size, 0.5))
  }

  /** The corners determine the box: reading them back from `FromCorners` gives them again,
      a box is rebuilt from its own corners, and its corners differ by its size. */
  lemma CornersRoundTrip(lo: Vector2, hi: Vector2, b: Bounds)
    ensures JsMin(FromCorners(lo, hi)) == lo && JsMax(FromCorners(lo, hi)) == hi
    ensures FromCorners(JsMin(b), JsMax(b)) == b
    ensures Subtract(JsMax(b), JsMin(b)) == b.size
  {}

  /** js/utils/Bounds.js `encapsulate`. */
  function JsEncapsulate(b: Bounds, other: Bounds): (r: Bounds)
    ensures JsMin(r) == Min(JsMin(b), JsMin(other))
    ensures JsMax(r) == Max(JsMax(b), JsMax(other))
  {
    CornersRoundTrip(Min(JsMin(b), JsMin(other)), Max(JsMax(b), JsMax(other)), b);
    FromCorners(Min(JsMin(b), JsMin(other)), Max(JsMax(b), JsMax(other)))
  }

  /** The JavaScript box grows to enclose both of its inputs, and a box encapsulating itself is
      unchanged. */
  lemma {:induction false} JsEncapsulateEncloses(b: Bounds, other: Bounds)
    ensures var r := JsEncapsulate(b, other);
      && JsMin(r).x <= JsMin(b).x && JsMin(r).x <= JsMin(other).x
      && JsMin(r).y <= JsMin(b).y && JsMin(r).y <= JsMin(other).y
      && JsMax(r).x >= JsMax(b).x && JsMax(r).x >= JsMax(other).x
      && JsMax(r).y >= JsMax(b).y && JsMax(r).y >= JsMax(other).y
    ensures JsEncapsulate(b, b) == b
  {
    MinMaxAlgebra(JsMin(b), JsMax(b));
    CornersRoundTrip(JsMin(b), JsMax(b), b);
  }

  predicate IsZeroSize(b: Bounds) {
    b.size.x == 0.0 && b.size.y == 0.0
  }

  /** src/utils/Bounds.ts `min`: a box of size exactly (0, 0) reports its size vector, the
      origin, whatever its centre; any other box reports `center - size / 2`. */
  function TsMin(b: Bounds): Vector2
  {
    if b.size.x == 0.0 && b.size.y == 0.0 then b.size
    else Subtract(b.center, Multiply(b.size, 0.5))
  }

  /** src/utils/Bounds.ts `max`, with the same zero-size special case. */
  function TsMax(b: Bounds): Vector2
  {
    if b.size.x == 0.0 && b.size.y == 0.0 then b.size
    else Add(b.center, Multiply(b.size, 0.5))
  }

  /** The TypeScript corners are the origin for a zero-size box and the JavaScript corners for
      every other box. */
  lemma TsCorners(b: Bounds)
    ensures IsZeroSize(b) ==> TsMin(b) == Zero && TsMax(b) == Zero
    ensures !IsZeroSize(b) ==> TsMin(b) == JsMin(b) && TsMax(b) == JsMax(b)
  {}

  /** src/utils/Bounds.ts `minX`, `minY`, `maxX`, `maxY`. */
  function MinX(b: Bounds): (r: real)
    ensures NonNegative(b) ==> r <= MaxX(b)
  {
    TsExtent(b);
    TsMin(b).x
  }

  function MinY(b: Bounds): (r: real)
    ensures NonNegative(b) ==> r <= MaxY(b)
  {
    TsExtent(b);
    TsMin(b).y
  }

  function MaxX(b: Bounds): real {
    TsMax(b).x
  }

  function MaxY(b: Bounds): real {
    TsMax(b).y
  }

  /** src/utils/Bounds.ts `encapsulate`: the corners of the result are the componentwise
      extremes of the corners the two boxes report. */
  function TsEncapsulate(b: Bounds, other: Bounds): Bounds
  {
    FromCorners(Min(TsMin(b), TsMin(other)), Max(TsMax(b), TsMax(other)))
  }

  /** Both TypeScript corners still differ by exactly the size, the zero case included. */
  lemma TsExtent(b: Bounds)
    ensures Subtract(TsMax(b), TsMin(b)) == b.size
  {}

  /** With non-negative sizes the TypeScript result reports exactly the componentwise extremes
      of the reported corners. */
  lemma {:induction false} TsEncapsulateCorners(b: Bounds, other: Bounds)
    requires NonNegative(b) && NonNegative(other)
    ensures var r := TsEncapsulate(b, other);
      TsMin(r) == Min(TsMin(b), TsMin(other)) && TsMax(r) == Max(TsMax(b), TsMax(other))
  {
    var r := TsEncapsulate(b, other);
    var lo := Min(TsMin(b), TsMin(other));
    var hi := Max(TsMax(b), TsMax(other));
    CornersRoundTrip(lo, hi, b);
    assert r == FromCorners(lo, hi);
    if IsZeroSize(r) {
      HullOfPointsIsPoint(b, other);
      TsCorners(b);
      TsCorners(other);
      TsCorners(r);
      assert TsMin(b) == Zero && TsMin(other) == Zero && TsMax(b) == Zero && TsMax(other) == Zero;
      MinMaxAlgebra(Zero, Zero);
    }
  }

  /** If the TypeScript hull of two non-negative boxes has zero size, both boxes have zero size. */
  lemma {:induction false} HullOfPointsIsPoint(b: Bounds, other: Bounds)
    requires NonNegative(b) && NonNegative(other)
    requires IsZeroSize(TsEncapsulate(b, other))
    ensures IsZeroSize(b) && IsZeroSize(other)
  {
    var bl, bh, ol, oh := TsMin(b), TsMax(b), TsMin(other), TsMax(other);
    TsExtent(b);
    TsExtent(other);
    assert TsEncapsulate(b, other).size == Subtract(Max(bh, oh), Min(bl, ol));
    ZeroSpan(bl.x, bh.x, ol.x, oh.x);
    ZeroSpan(bl.y, bh.y, ol.y, oh.y);
  }

  /** Two non-empty intervals whose hull has width zero are both single points. */
  lemma ZeroSpan(lo1: real, hi1: real, lo2: real, hi2: real)
    requires lo1 <= hi1 && lo2 <= hi2
    ensures ((if hi1 >= hi2 then hi1 else hi2) - (if lo1 <= lo2 then lo1 else lo2) == 0.0)
              ==> lo1 == hi1 && lo2 == hi2
  {}

  /** The TypeScript `encapsulate` is symmetric in its two boxes. */
  lemma TsEncapsulateSymmetric(b: Bounds, other: Bounds)
    ensures TsEncapsulate(b, other) == TsEncapsulate(other, b)
  {
    MinMaxAlgebra(TsMin(b), TsMin(other));
    MinMaxAlgebra(TsMax(b), TsMax(other));
  }

  /** Encapsulating a zero-size box pulls the result out to the origin, not to that box's
      centre. */
  lemma {:induction false} TsEncapsulateZeroSizeReachesOrigin(b: Bounds, point: Bounds)
    requires NonNegative(b) && IsZeroSize(point)
    ensures var r := TsEncapsulate(b, point);
      TsMin(r).x <= 0.0 <= TsMax(r).x && TsMin(r).y <= 0.0 <= TsMax(r).y
  {
    TsEncapsulateCorners(b, point);
  }

  /** A box of size 1 centred at (10, 10) and a point box at (20, 20) combine to the box from
      (0, 0) to (10.5, 10.5). */
  lemma TsEncapsulatePointExample()
    ensures var r := TsEncapsulate(Bounds(Vector2(10.0, 10.0), Vector2(1.0, 1.0)),
                                   Bounds(Vector2(20.0, 20.0), Zero));
      TsMin(r) == Zero && TsMax(r) == Vector2(10.5, 10.5)
  {
    var box := Bounds(Vector2(10.0, 10.0), Vector2(1.0, 1.0));
    var point := Bounds(Vector2(20.0, 20.0), Zero);
    assert TsMin(box) == Vector2(9.5, 9.5) && TsMax(box) == Vector2(10.5, 10.5);
    assert TsMin(point) == Zero && TsMax(point) == Zero;
    var r := TsEncapsulate(box, point);
    assert r == Bounds(Vector2(5.25, 5.25), Vector2(10.5, 10.5));
  }
}

=== FILE: playback.dfy ===
/** The playback loop's frame counter (src/AnimationRenderer.ts `Start`), the wheel zoom of
    js/AnimationRenderer.js, and its `reset`. The timer and the DOM event are left to the
    caller: each tick and each wheel event is one application of the functions here. */
module Playback {
  import Frames

  /** One tick of the interval in `Start`: the counter is incremented and wraps to 0 once it
      reaches the frame count. */
  function NextFrame(current: int, frameCount: int): (r: int)
    ensures r == 0 || r == current + 1
    ensures current >= 0 ==> (r == 0 <==> current + 1 >= frameCount)
    ensures frameCount > 0 && current >= 0 ==> 0 <= r < frameCount
  {
    var next := current + 1;
    if next >= frameCount then 0 else next
  }

  /** The counter after `ticks` ticks from the initial 0. */
  function FrameAfter(ticks: nat, frameCount: int): (r: int)
    ensures frameCount > 0 ==> 0 <= r < frameCount
    ensures frameCount <= 1 ==> r == 0
  {
    if ticks == 0 then 0 else NextFrame(FrameAfter(ticks - 1, frameCount), frameCount)
  }

  /** The counter cycles through the frames in order: after `ticks` ticks it shows frame
      `ticks mod frameCount`, so the first tick draws frame 1 and frame 0 comes back after a
      full cycle. */
  lemma {:induction false} FrameAfterCycles(ticks: nat, frameCount: int)
    requires frameCount > 0
    ensures FrameAfter(ticks, frameCount) == ticks % frameCount
  {
    if ticks > 0 {
      FrameAfterCycles(ticks - 1, frameCount);
      ModStep(ticks - 1, frameCount);
    }
  }

  /** Adding one to a number moves its remainder one step round the cycle. */
  lemma ModStep(p: nat, n: int)
    requires n > 0
    ensures (p + 1) % n == if p % n + 1 == n then 0 else p % n + 1
  {
    var q, r := p / n, p % n;
    if r + 1 == n {
      ModUnique(p + 1, q + 1, 0, n);
    } else {
      ModUnique(p + 1, q, r + 1, n);
    }
  }

  /** A quotient-remainder decomposition with the remainder in range is the one `%` gives. */
  lemma ModUnique(x: int, q: int, r: int, n: int)
    requires n > 0 && 0 <= r < n && x == q * n + r
    ensures x % n == r
  {
    var q', r' := x / n, x % n;
    assert q * n - q' * n == r' - r;
    if q > q' {
      assert (q - q') * n == q * n - q' * n;
      MulAtLeast(q - q', n);
    } else if q < q' {
      assert (q' - q) * n == q' * n - q * n;
      MulAtLeast(q' - q, n);
    }
  }

  lemma {:induction false} MulAtLeast(k: int, n: int)
    requires k >= 1 && n > 0
    ensures k * n >= n
    decreases k
  {
    if k > 1 {
      MulAtLeast(k - 1, n);
      assert k * n == (k - 1) * n + n;
    }
  }

  /** The zoom bounds and step of the wheel handler. */
  const MinScale: real := 0.1
  const MaxScale: real := 5.0
  const ScaleStep: real := 0.1

  /** One wheel event: a negative `deltaY` zooms in by one step up to the upper limit, any
      other value zooms out by one step down to the lower limit. */
  function Wheel(scale: real, deltaY: real): (r: real)
    ensures deltaY < 0.0 ==> r <= MaxScale && (r == scale + ScaleStep || r == MaxScale)
    ensures deltaY >= 0.0 ==> r >= MinScale && (r == scale - ScaleStep || r == MinScale)
    ensures MinScale <= scale <= MaxScale ==> MinScale <= r <= MaxScale
  {
    if deltaY < 0.0 then
      var s := scale + ScaleStep;
      if s > MaxScale then MaxScale else s
    else
      var s := scale - ScaleStep;
      if s < MinScale then MinScale else s
  }

  /** The scale after a sequence of wheel events from the default 1.0. */
  function Zoom(deltas: seq<real>): real {
    if deltas == [] then 1.0 else Wheel(Zoom(deltas[..|deltas| - 1]), deltas[|deltas| - 1])
  }

  /** Whatever the events, the scale stays within [0.1, 5.0]. */
  lemma {:induction false} ZoomStaysInRange(deltas: seq<real>)
    ensures MinScale <= Zoom(deltas) <= MaxScale
  {
    if deltas != [] {
      ZoomStaysInRange(deltas[..|deltas| - 1]);
    }
  }

  /** The static buffers that js/AnimationRenderer.js keeps between frames. */
  datatype Buffers = Buffers(vertexBuffer: seq<Frames.Vertex>, baseVertexBuffer: seq<Frames.Vertex>,
                             baseTriangleIndices: seq<int>, triangleIndices: seq<int>,
                             meshes: seq<Frames.Mesh>)

  /** `reset`: all five buffers empty, whatever they held. */
  function Reset(b: Buffers): (r: Buffers)
    ensures |r.vertexBuffer| + |r.baseVertexBuffer| + |r.baseTriangleIndices|
            + |r.triangleIndices| + |r.meshes| == 0
  {
    Buffers([], [], [], [], [])
  }
}

=== FILE: render_state.dfy ===
/** The per-node drawing state that both RenderState classes keep (src/rendering/RenderState.ts
    and js/rendering/RenderState.js), and the parts of their record decoders that agree.

    The classes mutate `this` and return the new read position; here a decoder takes the
    previous state and returns the new state together with the new position, or the error the
    source throws. Matrix entries are kept as the 32-bit IEEE-754 words `readFloat32` would
    decode, so no floating-point arithmetic enters the model. */
module RenderStates {
  import opened Bytes
  import opened Results
  import Colors

  /** The six affine entries `m00 m01 m03 m10 m11 m13`, as little-endian float32 words. */
  datatype Matrix = Matrix(m00: int, m01: int, m03: int, m10: int, m11: int, m13: int)

  /** The float32 word of 1.0; the word of 0.0 is 0. */
  const FloatOne: int := 0x3F80_0000

  const IdentityMatrix: Matrix := Matrix(FloatOne, 0, 0, 0, FloatOne, 0)

  /** `Animation.MaskFlags.None` and `Animation.BlendMode.Normal` (js/Animation.js). */
  const MaskNone: byte := 0
  const BlendNormal: byte := 0

  datatype RenderState = RenderState(
    matrix: Matrix,
    spriteIndex: int,
    customisationIndex: int,
    childrenRecursiveCount: int,
    alpha: byte,
    multiplicativeColor: int,
    additiveColor: int,
    maskFlags: byte,
    blendMode: byte,
    colorMatrix: Option<seq<seq<byte>>>)

  /** The state `Reset` installs (and the constructor, which calls `Reset`). `Reset` writes
      constants only, so it ignores the state it is applied to and applying it twice is the
      same as applying it once. */
  const ResetState: RenderState :=
    RenderState(IdentityMatrix, -1, -1, 0, 255, Colors.OpaqueWhite, Colors.TransparentBlack,
                MaskNone, BlendNormal, None)

  function Reset(s: RenderState): (r: RenderState)
    ensures r.matrix == IdentityMatrix && r.alpha == 255
    ensures r.spriteIndex == -1 && r.customisationIndex == -1 && r.childrenRecursiveCount == 0
    ensures r.multiplicativeColor == Colors.OpaqueWhite && r.additiveColor == Colors.TransparentBlack
    ensures r.maskFlags == MaskNone && r.blendMode == BlendNormal && r.colorMatrix.None?
    ensures Colors.FromEncoded(r.multiplicativeColor) == Colors.FromEncoded(Colors.OpaqueWhite)
    ensures Colors.FromEncoded(r.additiveColor) == Colors.Color(0.0, 0.0, 0.0, 0.0)
  {
    Colors.NamedColors();
    ResetState
  }

  /** Resetting does not depend on the state it starts from, and a reset state is a fixed
      point of `Reset`. */
  lemma ResetIdempotent(s: RenderState, t: RenderState)
    ensures Reset(s) == Reset(t)
    ensures Reset(Reset(s)) == Reset(s)
  {
  }

  /** Every exception the two decoders throw, one per distinct throw site. */
  datatype Error =
    | EndOfData                    // dataPosition >= length
    | MissingAlpha
    | MissingIndices               // spriteIndex, customisationIndex, childrenRecursiveCount
    | MissingMultiplicativeColor
    | MissingAdditiveColor
    | MissingMatrix
    | MissingMaskFlags
    | ExtendedEndOfData
    | MissingFilters               // JavaScript only
    | MissingFilterData(filterType: byte)  // JavaScript only
    | UnknownFilter(filterType: byte)      // JavaScript only
    | ReferenceError               // JavaScript only: readFloat32/readUint32 are not in scope

  /** Whether the flag byte has any bit of a mask, as the source's `flag & mask`. */
  predicate Has(flag: byte, mask: bv8) {
    (flag as bv8) & mask != 0
  }

  /** A decoder's result: the state after the record and the position after it. */
  datatype Cursor = Cursor(state: RenderState, at: nat)

  /** Fields whose flag bit is clear keep their previous values; the blend mode and the
      colour matrix change only in the extended block, which a flag below 0x80 skips. */
  predicate Keeps(flag: byte, s: RenderState, t: RenderState) {
    && (!Has(flag, 0x02) ==> t.alpha == s.alpha)
    && (!Has(flag, 0x21) ==>
          t.spriteIndex == s.spriteIndex && t.customisationIndex == s.customisationIndex
          && t.childrenRecursiveCount == s.childrenRecursiveCount)
    && (!Has(flag, 0x04) ==> t.multiplicativeColor == s.multiplicativeColor)
    && (!Has(flag, 0x08) ==> t.additiveColor == s.additiveColor)
    && (!Has(flag, 0x10) ==> t.matrix == s.matrix)
    && (!Has(flag, 0x40) ==> t.maskFlags == s.maskFlags)
    && (ToSignedByte(flag) >= 0 ==> t.blendMode == s.blendMode && t.colorMatrix == s.colorMatrix)
  }

  /** Where each optional field of a record starts when the fields are laid out back to back
      after the 4-aligned cursor: indices 6 bytes padded to 8, two colours of 4, a matrix of 24,
      and a mask of `maskSize` bytes. `end` is the position after the mask. */
  datatype Layout = Layout(indices: nat, multiplicative: nat, additive: nat, matrix: nat,
                           mask: nat, end: nat)

  function FieldLayout(flag: byte, pos: nat, maskSize: nat): (l: Layout)
    ensures l.indices % 4 == 0 && pos + 2 <= l.indices < pos + 6
    ensures l.indices <= l.multiplicative <= l.additive <= l.matrix <= l.mask <= l.end
  {
    var a := Align4(pos + 2);
    var m := a + (if Has(flag, 0x21) then 8 else 0);
    var d := m + (if Has(flag, 0x04) then 4 else 0);
    var x := d + (if Has(flag, 0x08) then 4 else 0);
    var k := x + (if Has(flag, 0x10) then 24 else 0);
    Layout(a, m, d, x, k, k + (if Has(flag, 0x40) then maskSize else 0))
  }

  /** Every bounds check of the basic fields passes for the record at `pos`. The index check
      asks for 6 bytes although the cursor then moves 8. */
  predicate FieldsFit(data: seq<byte>, pos: nat, maskSize: nat) {
    && pos < |data|
    && var flag := data[pos];
    && var l := FieldLayout(flag, pos, maskSize);
    && (Has(flag, 0x02) ==> pos + 1 < |data|)
    && (Has(flag, 0x21) ==> l.indices + 6 <= |data|)
    && (Has(flag, 0x04) ==> l.multiplicative + 4 <= |data|)
    && (Has(flag, 0x08) ==> l.additive + 4 <= |data|)
    && (Has(flag, 0x10) ==> l.matrix + 24 <= |data|)
    && (Has(flag, 0x40) ==> l.mask + maskSize <= |data|)
  }

  /** The six float32 words of a matrix record. */
  function MatrixAt(data: seq<byte>, at: nat): (m: Matrix)
    requires at + 24 <= |data|
    ensures 0 <= m.m00 < 0x1_0000_0000 && 0 <= m.m13 < 0x1_0000_0000
  {
    Matrix(U32(data, at), U32(data, at + 4), U32(data, at + 8),
           U32(data, at + 12), U32(data, at + 16), U32(data, at + 20))
  }

  /** Flag 0x02: `alpha` is the byte after the flag byte. */
  function ReadAlpha(data: seq<byte>, pos: nat, s: RenderState): (r: Result<RenderState, Error>)
    requires pos < |data|
    ensures !Has(data[pos], 0x02) ==> r == Ok(s)
    ensures r.Ok? ==> r.value == s.(alpha := r.value.alpha)
  {
    if !Has(data[pos], 0x02) then Ok(s)
    else if pos + 1 >= |data| then Err(MissingAlpha)
    else Ok(s.(alpha := data[pos + 1]))
  }

  /** Flag 0x04: the multiplicative colour, a 32-bit word. */
  function ReadMultiplicative(data: seq<byte>, flag: byte, c: Cursor): (r: Result<Cursor, Error>)
    ensures r.Err? <==> Has(flag, 0x04) && c.at + 4 > |data|
    ensures r.Err? ==> r.error == MissingMultiplicativeColor
    ensures r.Ok? ==> r.value.at == c.at + (if Has(flag, 0x04) then 4 else 0)
    ensures r.Ok? ==> r.value.state == c.state.(multiplicativeColor := r.value.state.multiplicativeColor)
    ensures r.Ok? && !Has(flag, 0x04) ==> r.value.state == c.state
    ensures r.Ok? && Has(flag, 0x04) ==>
              c.at + 4 <= |data| && r.value.state.multiplicativeColor == U32(data, c.at)
  {
    if !Has(flag, 0x04) then Ok(c)
    else if c.at + 4 > |data| then Err(MissingMultiplicativeColor)
    else Ok(Cursor(c.state.(multiplicativeColor := U32(data, c.at)), c.at + 4))
  }

  /** Flag 0x08: the additive colour, a 32-bit word. */
  function ReadAdditive(data: seq<byte>, flag: byte, c: Cursor): (r: Result<Cursor, Error>)
    ensures r.Err? <==> Has(flag, 0x08) && c.at + 4 > |data|
    ensures r.Err? ==> r.error == MissingAdditiveColor
    ensures r.Ok? ==> r.value.at == c.at + (if Has(flag, 0x08) then 4 else 0)
    ensures r.Ok? ==> r.value.state == c.state.(additiveColor := r.value.state.additiveColor)
    ensures r.Ok? && !Has(flag, 0x08) ==> r.value.state == c.state
    ensures r.Ok? && Has(flag, 0x08) ==>
              c.at + 4 <= |data| && r.value.state.additiveColor == U32(data, c.at)
  {
    if !Has(flag, 0x08) then Ok(c)
    else if c.at + 4 > |data| then Err(MissingAdditiveColor)
    else Ok(Cursor(c.state.(additiveColor := U32(data, c.at)), c.at + 4))
  }

  /** Flag 0x10: the matrix, six 32-bit words. */
  function ReadMatrix(data: seq<byte>, flag: byte, c: Cursor): (r: Result<Cursor, Error>)
    ensures r.Err? <==> Has(flag, 0x10) && c.at + 24 > |data|
    ensures r.Err? ==> r.error == MissingMatrix
    ensures r.Ok? ==> r.value.at == c.at + (if Has(flag, 0x10) then 24 else 0)
    ensures r.Ok? ==> r.value.state == c.state.(matrix := r.value.state.matrix)
    ensures r.Ok? && !Has(flag, 0x10) ==> r.value.state == c.state
    ensures r.Ok? && Has(flag, 0x10) ==>
              c.at + 24 <= |data| && r.value.state.matrix == MatrixAt(data, c.at)
  {
    if !Has(flag, 0x10) then Ok(c)
    else if c.at + 24 > |data| then Err(MissingMatrix)
    else Ok(Cursor(c.state.(matrix := MatrixAt(data, c.at)), c.at + 24))
  }

  /** Flags 0x04, 0x08 and 0x10, which both variants decode the same way and in this order. */
  function ReadColorsAndMatrix(data: seq<byte>, flag: byte, c: Cursor): (r: Result<Cursor, Error>)
    ensures r.Ok? ==> r.value.at % 4 == c.at % 4 && c.at <= r.value.at
    ensures r.Ok? ==> r.value.state == c.state.(multiplicativeColor := r.value.state.multiplicativeColor,
                                                additiveColor := r.value.state.additiveColor,
                                                matrix := r.value.state.matrix)
    ensures r.Ok? && !Has(flag, 0x04) ==> r.value.state.multiplicativeColor == c.state.multiplicativeColor
    ensures r.Ok? && !Has(flag, 0x08) ==> r.value.state.additiveColor == c.state.additiveColor
    ensures r.Ok? && !Has(flag, 0x10) ==> r.value.state.matrix == c.state.matrix
  {
    var c :- ReadMultiplicative(data, flag, c);
    var c :- ReadAdditive(data, flag, c);
    ReadMatrix(data, flag, c)
  }
}

=== FILE: render_state_js.dfy ===
/** `RenderState.compute` as js/rendering/RenderState.js writes it: signed 16-bit indices, a
    one-byte mask field, and an extended block read at the cursor itself that can only succeed
    for blend byte 0. */
module RenderStatesJs {
  import opened Bytes
  import opened Results
  import opened RenderStates
  import Ts = RenderStatesTs

  /** Flags 0x21: three signed little-endian 16-bit values (`readInt16`), then realignment when
      the cursor is not already a multiple of 4. */
  function ReadIndices(data: seq<byte>, flag: byte, c: Cursor): (r: Result<Cursor, Error>)
    ensures !Has(flag, 0x21) ==> r == Ok(c)
    ensures r.Err? <==> Has(flag, 0x21) && c.at + 6 > |data|
    ensures r.Err? ==> r.error == MissingIndices
    ensures r.Ok? && Has(flag, 0x21) ==>
              && c.at + 6 <= |data| && r.value.state.spriteIndex == I16(data, c.at)
              && r.value.state.customisationIndex == I16(data, c.at + 2)
              && r.value.state.childrenRecursiveCount == I16(data, c.at + 4)
              && (c.at % 4 == 0 ==> r.value.at == c.at + 8)
    ensures r.Ok? ==> r.value.state == c.state.(spriteIndex := r.value.state.spriteIndex,
                                                customisationIndex := r.value.state.customisationIndex,
                                                childrenRecursiveCount := r.value.state.childrenRecursiveCount)
  {
    if !Has(flag, 0x21) then Ok(c)
    else if c.at + 6 > |data| then Err(MissingIndices)
    else
      var s := c.state.(spriteIndex := I16(data, c.at),
                        customisationIndex := I16(data, c.at + 2),
                        childrenRecursiveCount := I16(data, c.at + 4));
      var at := c.at + 6;
      Ok(Cursor(s, if at % 4 != 0 then Align4(at) else at))
  }

  /** Flag 0x40: a single byte of mask flags, with no padding. */
  function ReadMask(data: seq<byte>, flag: byte, c: Cursor): (r: Result<Cursor, Error>)
    ensures !Has(flag, 0x40) ==> r == Ok(c)
    ensures r.Err? <==> Has(flag, 0x40) && c.at + 1 > |data|
    ensures r.Err? ==> r.error == MissingMaskFlags
    ensures r.Ok? ==> r.value.state == c.state.(maskFlags := r.value.state.maskFlags)
    ensures r.Ok? ==> r.value.at == c.at + (if Has(flag, 0x40) then 1 else 0)
    ensures r.Ok? && Has(flag, 0x40) ==> c.at < |data| && r.value.state.maskFlags == data[c.at]
  {
    if !Has(flag, 0x40) then Ok(c)
    else if c.at + 1 > |data| then Err(MissingMaskFlags)
    else Ok(Cursor(c.state.(maskFlags := data[c.at]), c.at + 1))
  }

  /** The basic fields of `compute`: alpha, then the optional fields from the cursor two bytes
      past the flag, 4-aligned when it is not aligned already. */
  function ReadFields(data: seq<byte>, pos: nat, s: RenderState): (r: Result<Cursor, Error>)
    requires pos < |data|
    ensures r.Ok? ==> r.value.at > pos
    ensures r.Ok? && !Has(data[pos], 0x40) ==> r.value.at % 4 == 0
    ensures r.Ok? ==> Keeps(data[pos], s, r.value.state)
    ensures r.Ok? ==> r.value.state.blendMode == s.blendMode && r.value.state.colorMatrix == s.colorMatrix
    ensures r.Ok? && Has(data[pos], 0x02) ==> pos + 1 < |data| && r.value.state.alpha == data[pos + 1]
  {
    var flag := data[pos];
    var s :- ReadAlpha(data, pos, s);
    var at := pos + 2;
    var at := if (pos + 2) % 4 != 0 then Align4(at) else at;
    var c :- ReadIndices(data, flag, Cursor(s, at));
    var c :- ReadColorsAndMatrix(data, flag, c);
    ReadMask(data, flag, c)
  }

  /** `compute`: the basic fields, then the extended block, at the cursor itself, when the
      flag byte read as a signed byte is negative. */
  function Compute(data: seq<byte>, pos: nat, s: RenderState): (r: Result<Cursor, Error>)
    ensures pos >= |data| ==> r == Err(EndOfData)
    ensures r.Ok? ==> r.value.at > pos
    ensures r.Ok? ==> Keeps(data[pos], s, r.value.state)
    ensures r.Ok? && Has(data[pos], 0x02) ==> pos + 1 < |data| && r.value.state.alpha == data[pos + 1]
    ensures r.Ok? && ToSignedByte(data[pos]) < 0 ==> r.value.state.blendMode == BlendNormal
  {
    if pos >= |data| then Err(EndOfData)
    else
      var c :- ReadFields(data, pos, s);
      if ToSignedByte(data[pos]) < 0 then Extended(data, c.at, c.state) else Ok(c)
  }

  /** Body sizes the JavaScript filter cases check for: drop shadow 16, blur 4, glow 12. */
  function FilterBody(filterType: byte): (n: nat)
    requires filterType in {1, 2, 4}
    ensures n % 4 == 0 && 4 <= n <= 16
  {
    if filterType == 1 then 16 else if filterType == 2 then 4 else 12
  }

  /** `computeExtendedFilterAndBlendState`: the blend byte, and for a non-zero blend byte one
      filter whose every outcome is an exception: a bounds error, an unknown type, or, once the
      bounds check passes, a call to `readFloat32`, which this file neither imports nor
      defines. */
  function Extended(data: seq<byte>, pos: nat, s: RenderState): (r: Result<Cursor, Error>)
    ensures r.Ok? <==> pos < |data| && data[pos] == 0
    ensures r.Ok? ==> r.value == Cursor(s.(blendMode := BlendNormal), pos + 1)
    ensures pos >= |data| ==> r == Err(ExtendedEndOfData)
    ensures pos < |data| && data[pos] != 0 && pos + 1 >= |data| ==> r == Err(MissingFilters)
    ensures pos + 1 < |data| && data[pos] != 0 && data[pos + 1] !in {1, 2, 4} ==>
              r == Err(UnknownFilter(data[pos + 1]))
    ensures pos + 1 < |data| && data[pos] != 0 && data[pos + 1] in {1, 2, 4} ==>
              r == if pos + 2 + FilterBody(data[pos + 1]) > |data|
                   then Err(MissingFilterData(data[pos + 1])) else Err(ReferenceError)
    ensures r.Err? && r.error == ReferenceError ==>
              pos + 1 < |data| && data[pos + 1] in {1, 2, 4}
              && pos + 2 + FilterBody(data[pos + 1]) <= |data|
  {
    if pos >= |data| then Err(ExtendedEndOfData)
    else
      var blend := data[pos];
      var at := pos + 1;
      if blend == 0 then Ok(Cursor(s.(blendMode := blend), at))
      else if at >= |data| then Err(MissingFilters)
      else
        var filterType := data[at];
        var at := at + 1;
        if filterType !in {1, 2, 4} then Err(UnknownFilter(filterType))
        else if at + FilterBody(filterType) > |data| then Err(MissingFilterData(filterType))
        else Err(ReferenceError)
  }

  /** The basic fields are read exactly when every bounds check of the closed-form layout with
      a one-byte mask passes, and then they end where the layout ends. */
  lemma {:induction false} FieldsAccepted(data: seq<byte>, pos: nat, s: RenderState)
    requires pos < |data|
    ensures ReadFields(data, pos, s).Ok? <==> FieldsFit(data, pos, 1)
    ensures ReadFields(data, pos, s).Ok? ==>
              ReadFields(data, pos, s).value.at == FieldLayout(data[pos], pos, 1).end
  {
    var flag := data[pos];
    var l := FieldLayout(flag, pos, 1);
    var a := ReadAlpha(data, pos, s);
    if a.Ok? {
      assert (if (pos + 2) % 4 != 0 then Align4(pos + 2) else pos + 2) == l.indices;
      var i := ReadIndices(data, flag, Cursor(a.value, l.indices));
      if i.Ok? {
        assert i.value.at == l.multiplicative;
        var m := ReadMultiplicative(data, flag, i.value);
        if m.Ok? {
          var d := ReadAdditive(data, flag, m.value);
          if d.Ok? {
            var x := ReadMatrix(data, flag, d.value);
            if x.Ok? {
              assert x.value.at == l.mask;
            }
          }
        }
      }
    }
  }

  /** Each basic field announced by the flag byte is read from its closed-form offset, the
      16-bit indices as signed values. */
  lemma {:induction false} FieldsRead(data: seq<byte>, pos: nat, s: RenderState)
    requires pos < |data| && ReadFields(data, pos, s).Ok?
    ensures var flag := data[pos];
      var l := FieldLayout(flag, pos, 1);
      var t := ReadFields(data, pos, s).value.state;
      && (Has(flag, 0x21) ==>
            && l.indices + 6 <= |data| && t.spriteIndex == I16(data, l.indices)
            && t.customisationIndex == I16(data, l.indices + 2)
            && t.childrenRecursiveCount == I16(data, l.indices + 4))
      && (Has(flag, 0x04) ==>
            l.multiplicative + 4 <= |data| && t.multiplicativeColor == U32(data, l.multiplicative))
      && (Has(flag, 0x08) ==> l.additive + 4 <= |data| && t.additiveColor == U32(data, l.additive))
      && (Has(flag, 0x10) ==> l.matrix + 24 <= |data| && t.matrix == MatrixAt(data, l.matrix))
      && (Has(flag, 0x40) ==> l.mask < |data| && t.maskFlags == data[l.mask])
  {
    var flag := data[pos];
    var l := FieldLayout(flag, pos, 1);
    var a := ReadAlpha(data, pos, s);
    assert (if (pos + 2) % 4 != 0 then Align4(pos + 2) else pos + 2) == l.indices;
    var i := ReadIndices(data, flag, Cursor(a.value, l.indices));
    var m := ReadMultiplicative(data, flag, i.value);
    var d := ReadAdditive(data, flag, m.value);
    var x := ReadMatrix(data, flag, d.value);
    assert i.value.at == l.multiplicative && x.value.at == l.mask;
  }

  /** `compute` succeeds exactly when the basic fields fit and, for a negative flag byte, the
      byte right after the mask exists and is 0; the result then ends one byte past it. */
  lemma {:induction false} Accepts(data: seq<byte>, pos: nat, s: RenderState)
    requires pos < |data|
    ensures var l := FieldLayout(data[pos], pos, 1);
      Compute(data, pos, s).Ok? <==>
        && FieldsFit(data, pos, 1)
        && (ToSignedByte(data[pos]) < 0 ==> l.end < |data| && data[l.end] == 0)
    ensures var l := FieldLayout(data[pos], pos, 1);
      var r := Compute(data, pos, s);
      r.Ok? ==> r.value.at == l.end + (if ToSignedByte(data[pos]) < 0 then 1 else 0)
  {
    FieldsAccepted(data, pos, s);
  }

  /** Without the mask flag and the extended block the two variants accept the same records,
      end at the same position and agree on every field except the three 16-bit indices, where
      the JavaScript value is the TypeScript value read as two's complement. */
  lemma {:induction false} AgreesWithTs(data: seq<byte>, pos: nat, s: RenderState)
    requires pos < |data| && !Has(data[pos], 0x40) && ToSignedByte(data[pos]) >= 0
    ensures Compute(data, pos, s).Ok? <==> Ts.Compute(data, pos, s).Ok?
    ensures Compute(data, pos, s).Ok? ==>
              var j := Compute(data, pos, s).value;
              var t := Ts.Compute(data, pos, s).value;
              && j.at == t.at
              && j.state == t.state.(spriteIndex := j.state.spriteIndex,
                                     customisationIndex := j.state.customisationIndex,
                                     childrenRecursiveCount := j.state.childrenRecursiveCount)
              && (Has(data[pos], 0x21) ==>
                    && j.state.spriteIndex % 0x1_0000 == t.state.spriteIndex
                    && j.state.customisationIndex % 0x1_0000 == t.state.customisationIndex
                    && j.state.childrenRecursiveCount % 0x1_0000 == t.state.childrenRecursiveCount)
  {
    assert FieldLayout(data[pos], pos, 1) == FieldLayout(data[pos], pos, 4);
    FieldsAccepted(data, pos, s);
    Ts.FieldsAccepted(data, pos, s);
    if Compute(data, pos, s).Ok? {
      assert Compute(data, pos, s) == ReadFields(data, pos, s);
      assert Ts.Compute(data, pos, s) == Ts.ReadFields(data, pos, s);
      FieldsAgree(data, pos, s);
    }
  }

  lemma {:induction false} FieldsAgree(data: seq<byte>, pos: nat, s: RenderState)
    requires pos < |data| && !Has(data[pos], 0x40)
    requires ReadFields(data, pos, s).Ok? && Ts.ReadFields(data, pos, s).Ok?
    ensures var j := ReadFields(data, pos, s).value.state;
      var t := Ts.ReadFields(data, pos, s).value.state;
      && j == t.(spriteIndex := j.spriteIndex, customisationIndex := j.customisationIndex,
                 childrenRecursiveCount := j.childrenRecursiveCount)
      && (Has(data[pos], 0x21) ==>
            && j.spriteIndex % 0x1_0000 == t.spriteIndex
            && j.customisationIndex % 0x1_0000 == t.customisationIndex
            && j.childrenRecursiveCount % 0x1_0000 == t.childrenRecursiveCount)
  {
    var flag := data[pos];
    var l := FieldLayout(flag, pos, 4);
    assert FieldLayout(flag, pos, 1) == l;
    FieldsRead(data, pos, s);
    Ts.FieldsRead(data, pos, s);
    var j := ReadFields(data, pos, s).value.state;
    var t := Ts.ReadFields(data, pos, s).value.state;
    if Has(flag, 0x21) {
      I16Wraps(data, l.indices);
      I16Wraps(data, l.indices + 2);
      I16Wraps(data, l.indices + 4);
    }
    assert j.alpha == t.alpha;
    assert j.multiplicativeColor == t.multiplicativeColor && j.additiveColor == t.additiveColor;
    assert j.matrix == t.matrix && j.maskFlags == t.maskFlags;
    assert j.blendMode == t.blendMode && j.colorMatrix == t.colorMatrix;
  }

  /** The mask flag alone: the JavaScript cursor moves one byte and ends off the 4-byte grid,
      where the TypeScript cursor moves four. */
  lemma MaskMisaligns()
    ensures var data := [0x40, 0, 0, 0, 7, 0, 0, 0];
      && Compute(data, 0, ResetState) == Ok(Cursor(ResetState.(maskFlags := 7), 5))
      && Ts.Compute(data, 0, ResetState) == Ok(Cursor(ResetState.(maskFlags := 7), 8))
  {
    var data: seq<byte> := [0x40, 0, 0, 0, 7, 0, 0, 0];
    assert Has(0x40, 0x40) && !Has(0x40, 0x02) && !Has(0x40, 0x21);
    assert !Has(0x40, 0x04) && !Has(0x40, 0x08) && !Has(0x40, 0x10);
  }

  /** Sprite index bytes FF FF: the JavaScript decoder reads -1, the TypeScript one 65535. */
  lemma SignedIndices()
    ensures var data := [0x01, 0, 0, 0, 0xFF, 0xFF, 0, 0, 0, 0];
      && Compute(data, 0, ResetState).Ok? && Compute(data, 0, ResetState).value.state.spriteIndex == -1
      && Ts.Compute(data, 0, ResetState).Ok?
      && Ts.Compute(data, 0, ResetState).value.state.spriteIndex == 0xFFFF
  {
    var data: seq<byte> := [0x01, 0, 0, 0, 0xFF, 0xFF, 0, 0, 0, 0];
    assert Has(0x01, 0x21) && !Has(0x01, 0x02) && !Has(0x01, 0x40);
    assert !Has(0x01, 0x04) && !Has(0x01, 0x08) && !Has(0x01, 0x10);
  }
}

=== FILE: render_state_ts.dfy ===
/** `RenderState.compute` as src/rendering/RenderState.ts writes it: unsigned 16-bit indices,
    a 4-byte mask field, and an extended blend/filter block read three bytes past the mask. */
module RenderStatesTs {
  import opened Bytes
  import opened Results
  import opened RenderStates

  /** Flags 0x21: three unsigned little-endian 16-bit values, then realignment. */
  function ReadIndices(data: seq<byte>, flag: byte, c: Cursor): (r: Result<Cursor, Error>)
    ensures r.Ok? && c.at % 4 == 0 ==> r.value.at % 4 == 0 && c.at <= r.value.at
    ensures !Has(flag, 0x21) ==> r == Ok(c)
    ensures r.Err? <==> Has(flag, 0x21) && c.at + 6 > |data|
    ensures r.Err? ==> r.error == MissingIndices
    ensures r.Ok? && Has(flag, 0x21) ==>
              && c.at + 6 <= |data| && r.value.state.spriteIndex == U16(data, c.at)
              && r.value.state.customisationIndex == U16(data, c.at + 2)
              && r.value.state.childrenRecursiveCount == U16(data, c.at + 4)
              && (c.at % 4 == 0 ==> r.value.at == c.at + 8)
    ensures r.Ok? ==> r.value.state == c.state.(spriteIndex := r.value.state.spriteIndex,
                                                customisationIndex := r.value.state.customisationIndex,
                                                childrenRecursiveCount := r.value.state.childrenRecursiveCount)
  {
    if !Has(flag, 0x21) then Ok(c)
    else if c.at + 6 > |data| then Err(MissingIndices)
    else
      var s := c.state.(spriteIndex := U16(data, c.at),
                        customisationIndex := U16(data, c.at + 2),
                        childrenRecursiveCount := U16(data, c.at + 4));
      Ok(Cursor(s, InlineAlign(c.at + 6)))
  }

  /** Flag 0x40: one byte of mask flags in a 4-byte slot. */
  function ReadMask(data: seq<byte>, flag: byte, c: Cursor): (r: Result<Cursor, Error>)
    ensures r.Ok? && c.at % 4 == 0 ==> r.value.at % 4 == 0 && c.at <= r.value.at
    ensures !Has(flag, 0x40) ==> r == Ok(c)
    ensures r.Err? <==> Has(flag, 0x40) && c.at + 4 > |data|
    ensures r.Err? ==> r.error == MissingMaskFlags
    ensures r.Ok? ==> r.value.state == c.state.(maskFlags := r.value.state.maskFlags)
    ensures r.Ok? ==> r.value.at == c.at + (if Has(flag, 0x40) then 4 else 0)
    ensures r.Ok? && Has(flag, 0x40) ==> c.at < |data| && r.value.state.maskFlags == data[c.at]
  {
    if !Has(flag, 0x40) then Ok(c)
    else if c.at + 4 > |data| then Err(MissingMaskFlags)
    else Ok(Cursor(c.state.(maskFlags := data[c.at]), c.at + 4))
  }

  /** The basic fields of `compute`: the flag byte's alpha, then the optional fields in order
      from the 4-aligned cursor after the flag and alpha bytes. */
  function ReadFields(data: seq<byte>, pos: nat, s: RenderState): (r: Result<Cursor, Error>)
    requires pos < |data|
    ensures r.Ok? ==> r.value.at % 4 == 0 && r.value.at > pos
    ensures r.Ok? ==> Keeps(data[pos], s, r.value.state)
    ensures r.Ok? ==> r.value.state.blendMode == s.blendMode && r.value.state.colorMatrix == s.colorMatrix
    ensures r.Ok? && Has(data[pos], 0x02) ==> pos + 1 < |data| && r.value.state.alpha == data[pos + 1]
  {
    var flag := data[pos];
    var s :- ReadAlpha(data, pos, s);
    var c :- ReadIndices(data, flag, Cursor(s, InlineAlign(pos + 2)));
    var c :- ReadColorsAndMatrix(data, flag, c);
    ReadMask(data, flag, c)
  }

  /** `compute`: the basic fields, then the extended block when the flag byte read as a signed
      byte is negative. */
  function Compute(data: seq<byte>, pos: nat, s: RenderState): (r: Result<Cursor, Error>)
    ensures pos >= |data| ==> r == Err(EndOfData)
    ensures r.Ok? ==> r.value.at % 4 == 0 && r.value.at > pos
    ensures r.Ok? ==> Keeps(data[pos], s, r.value.state)
    ensures r.Ok? && Has(data[pos], 0x02) ==> pos + 1 < |data| && r.value.state.alpha == data[pos + 1]
  {
    if pos >= |data| then Err(EndOfData)
    else
      var c :- ReadFields(data, pos, s);
      if ToSignedByte(data[pos]) < 0 then Extended(data, c.at + 3, c.state) else Ok(c)
  }

  /** The basic fields are read exactly when every bounds check of the closed-form layout
      passes, and then they end where the layout ends. */
  lemma {:induction false} FieldsAccepted(data: seq<byte>, pos: nat, s: RenderState)
    requires pos < |data|
    ensures ReadFields(data, pos, s).Ok? <==> FieldsFit(data, pos, 4)
    ensures ReadFields(data, pos, s).Ok? ==>
              ReadFields(data, pos, s).value.at == FieldLayout(data[pos], pos, 4).end
  {
    var flag := data[pos];
    var l := FieldLayout(flag, pos, 4);
    var a := ReadAlpha(data, pos, s);
    if a.Ok? {
      assert InlineAlign(pos + 2) == l.indices;
      var i := ReadIndices(data, flag, Cursor(a.value, l.indices));
      if i.Ok? {
        assert i.value.at == l.multiplicative;
        var m := ReadMultiplicative(data, flag, i.value);
        if m.Ok? {
          var d := ReadAdditive(data, flag, m.value);
          if d.Ok? {
            var x := ReadMatrix(data, flag, d.value);
            if x.Ok? {
              assert x.value.at == l.mask;
            }
          }
        }
      }
    }
  }

  /** Each basic field announced by the flag byte is read from its closed-form offset: 16-bit
      indices unsigned, colours and matrix entries as 32-bit words, and the mask from the first
      byte of its slot. */
  lemma {:induction false} FieldsRead(data: seq<byte>, pos: nat, s: RenderState)
    requires pos < |data| && ReadFields(data, pos, s).Ok?
    ensures var flag := data[pos];
      var l := FieldLayout(flag, pos, 4);
      var t := ReadFields(data, pos, s).value.state;
      && (Has(flag, 0x21) ==>
            && l.indices + 6 <= |data| && t.spriteIndex == U16(data, l.indices)
            && t.customisationIndex == U16(data, l.indices + 2)
            && t.childrenRecursiveCount == U16(data, l.indices + 4))
      && (Has(flag, 0x04) ==>
            l.multiplicative + 4 <= |data| && t.multiplicativeColor == U32(data, l.multiplicative))
      && (Has(flag, 0x08) ==> l.additive + 4 <= |data| && t.additiveColor == U32(data, l.additive))
      && (Has(flag, 0x10) ==> l.matrix + 24 <= |data| && t.matrix == MatrixAt(data, l.matrix))
      && (Has(flag, 0x40) ==> l.mask < |data| && t.maskFlags == data[l.mask])
  {
    var flag := data[pos];
    var l := FieldLayout(flag, pos, 4);
    var a := ReadAlpha(data, pos, s);
    assert InlineAlign(pos + 2) == l.indices;
    var i := ReadIndices(data, flag, Cursor(a.value, l.indices));
    var m := ReadMultiplicative(data, flag, i.value);
    var d := ReadAdditive(data, flag, m.value);
    var x := ReadMatrix(data, flag, d.value);
    assert i.value.at == l.multiplicative && x.value.at == l.mask;
  }

  /** `compute` succeeds exactly when the basic fields fit and, for a negative flag byte, the
      blend byte three bytes past the mask slot exists; it then ends where the layout ends or
      takes that blend byte. */
  lemma {:induction false} Accepts(data: seq<byte>, pos: nat, s: RenderState)
    requires pos < |data|
    ensures var l := FieldLayout(data[pos], pos, 4);
      Compute(data, pos, s).Ok? <==>
        FieldsFit(data, pos, 4) && (ToSignedByte(data[pos]) < 0 ==> l.end + 3 < |data|)
    ensures var l := FieldLayout(data[pos], pos, 4);
      var r := Compute(data, pos, s);
      && (r.Ok? && ToSignedByte(data[pos]) >= 0 ==> r.value.at == l.end)
      && (r.Ok? && ToSignedByte(data[pos]) < 0 ==>
            l.end + 3 < |data| && r.value.state.blendMode == data[l.end + 3])
  {
    FieldsAccepted(data, pos, s);
  }

  /** The five colour-matrix rows: the same 16-byte slice five times. */
  function ColorMatrixRows(data: seq<byte>, at: nat): (rows: seq<seq<byte>>)
    ensures |rows| == 5
    ensures forall i :: 0 <= i < 5 ==> |rows[i]| <= 16 && rows[i] == rows[0]
    ensures at + 16 <= |data| ==> rows[0] == data[at..at + 16]
  {
    var row := Slice(data, at, at + 16);
    [row, row, row, row, row]
  }

  /** Bytes each filter body occupies after its 4-aligned type byte: drop shadow (1) 32, blur
      (2) 12, glow (4) 24; any other type has no body. */
  function FilterSize(filterType: byte): (n: nat)
    ensures n % 4 == 0
    ensures n > 0 <==> filterType in {1, 2, 4}
  {
    match filterType
    case 1 => 32
    case 2 => 12
    case 4 => 24
    case _ => 0
  }

  /** The filter loop: at most `count` filters, stopping early once the cursor reaches the end
      of the data. Each filter is a type byte, realignment, and its body. */
  function SkipFilters(data: seq<byte>, at: nat, count: nat): (r: nat)
    ensures at <= r
    ensures count > 0 && at < |data| ==> r % 4 == 0 && at < r
    decreases count
  {
    if count == 0 || at >= |data| then at
    else
      var next := Align4(at + 1) + FilterSize(data[at]);
      SkipFilters(data, next, count - 1)
  }

  /** `computeExtendedFilterAndBlendState`: the blend byte, an optional 80-byte colour matrix
      when that byte has bit 0x40, a filter count (an index past the end reads `undefined`, for
      which the loop runs zero times), the filters, and a final 4-alignment. */
  function Extended(data: seq<byte>, pos: nat, s: RenderState): (r: Result<Cursor, Error>)
    ensures r.Err? <==> pos >= |data|
    ensures r.Err? ==> r.error == ExtendedEndOfData
    ensures r.Ok? ==> r.value.at % 4 == 0 && r.value.at > pos
    ensures r.Ok? ==> r.value.state.blendMode == data[pos]
    ensures r.Ok? ==> r.value.state.colorMatrix
                        == (if Has(data[pos], 0x40) then Some(ColorMatrixRows(data, pos + 1))
                            else s.colorMatrix)
    ensures r.Ok? ==> r.value.state == s.(blendMode := r.value.state.blendMode,
                                          colorMatrix := r.value.state.colorMatrix)
  {
    if pos >= |data| then Err(ExtendedEndOfData)
    else
      var blend := data[pos];
      var s := s.(blendMode := blend);
      var at := pos + 1;
      var s := if Has(blend, 0x40) then s.(colorMatrix := Some(ColorMatrixRows(data, at))) else s;
      var at := if Has(blend, 0x40) then at + 80 else at;
      var count := if at < |data| then data[at] else 0;
      var at := SkipFilters(data, at + 1, count);
      Ok(Cursor(s, Align4(at)))
  }
}

=== FILE: results.dfy ===
/** The failure-compatible result type shared by every parser and script model:
    an `Err` stands for an exception the source throws (and nobody catches). */
module Results {

  datatype Result<+T, +E> = Ok(value: T) | Err(error: E) {

    predicate IsFailure() {
      Err?
    }

    function PropagateFailure<U>(): Result<U, E>
      requires Err?
    {
      Err(error)
    }

    function Extract(): T
      requires Ok?
    {
      value
    }
  }

  datatype Option<+T> = None | Some(value: T)
}

=== FILE: sequences.dfy ===
/** Facts about sequences that the solver does not always find on its own. */
module Sequences {

  /** Concatenation regroups freely. */
  lemma AppendAssociative<T>(a: seq<T>, b: seq<T>, c: seq<T>)
    ensures a + (b + c) == (a + b) + c
  {
  }
}
